=== FILE: README.md ===
# micrograd's array autodiff engine, modelled in Dafny

micrograd's `Value` wraps a numpy array, or a placeholder with a name and a shape. Each
operation on values adds a node to a computation graph. The node records its operands,
a `_forward` that recomputes its data, and a `_backward` that adds its share of the chain
rule into its operands' `grad`.

- `build_topology` orders the nodes reachable from a root by depth-first post-order. It
  uses a visited set and caches the order on the root.
- `forward(**kwds)` re-evaluates the nodes in that order, binding placeholders by name.
- `backward()` seeds the root's gradient with 1 and every other listed node's with 0. It
  then runs the backward rules in reverse order.

The project models this core in nine modules:

- `Results`: the error outcomes. An `AssertionError` or a numpy `ValueError` becomes an
  `Err` value.
- `Nums`: a float is a real, or `NaN`, which stands for every non-finite value. It covers
  addition, multiplication, integer power and `maximum(x, 0)`.
- `Shapes`: the shape calculus. It covers broadcasting and the gradient reductions of
  `+` and `*`, `sum` axes (negative axes included), the `mean` denominator, `transpose`,
  and `tensordot` with micrograd's axis pairing, of which `@` is depth 1.
- `Tensors`: `Value.__init__`'s data-or-name-and-shape rule, and placeholder binding in
  `_forward`.
- `Graph`: the graph as an arena of nodes. Operands always sit at lower indices than the
  node that uses them, which is how Python's construction order makes the graph acyclic.
  This module also defines reachability.
- `Topology`: `build_topo` as the recursive depth-first walk, and the cached
  `build_topology`.
- `Operators`: every graph-building operator, including the derived ones. These are
  `-x`, `x - y`, `x / y`, the reflected operators and `@`. Each builds the same nodes and
  shapes as the source, with literals wrapped in constant nodes and refused shapes
  reported as errors. The data a node gets when it is built is modelled in `Engine`.
- `Engine`: the data nodes get when they are built, and `forward` and `backward` over the
  arena, carrying one number per node. It
  proves that `backward` computes the chain rule, accumulates fan-out, seeds the root
  with 1 and can be repeated.
- `Examples`: gradient computations for each operator, and the worked example
  `L = (a*b + c) * f`.

## Model

| member | source | states |
|---|---|---|
| Nums.Power | micrograd/engine.py:103-111 | Power 0 gives 1 for any base, nan included. A positive power of a finite number is finite. A negative power is finite exactly when the base is non-zero. Any other power of nan is nan |
| Nums.PowerMinusOneDivides | micrograd/engine.py:311-312 | Multiplying by `y ** -1` is dividing by `y` when `y` is non-zero, so `x / y` as `x * y**-1` divides |
| Shapes.Product | micrograd/engine.py:249-254 | A shape's element count is zero exactly when some axis has size zero |
| Shapes.Broadcast | micrograd/engine.py:51-58 | Two shapes broadcast exactly when every pair of sizes, aligned at the last axis, is equal or contains a 1. The result has the larger rank and, at each axis, the size that is not 1. Otherwise the error is a shape mismatch |
| Shapes.BroadcastAbsorbs | micrograd/engine.py:86-98 | Broadcasting either operand with the broadcast output gives the output back, so `other.data * out.grad` keeps the output's shape |
| Shapes.Keep | micrograd/engine.py:232 | Summing axes away lowers the rank by exactly the number of summed axes inside the shape |
| Shapes.ExpandKeep | micrograd/engine.py:238-241 | Summing axes away and then `expand_dims` at the same axes gives the input shape with size 1 at exactly those axes |
| Shapes.KeepExpand | micrograd/engine.py:241 | `expand_dims` at a set of axes and then summing them away gives the original shape back: the inverse of `ExpandKeep` |
| Shapes.BroadcastMask | micrograd/engine.py:244 | A shape with some axes set to 1 broadcasts against the full shape to the full shape |
| Shapes.KeepDropsHead | micrograd/engine.py:63-65 | Summing away the leading axes below `lo` leaves exactly the trailing axes from `lo` on |
| Shapes.LeadingAxes | micrograd/engine.py:65 | `tuple(range(d))` holds exactly the axes below `d` |
| Shapes.AsWrittenReduce | micrograd/engine.py:63-72 | When the operand's rank is at most the output's, the gradient term the source adds has the output's trailing axes, as many as the operand has |
| Shapes.AsWrittenReduceFitsIff | micrograd/engine.py:63-72 | The term the source adds fits the operand's gradient buffer exactly when broadcasting stretched none of the operand's size-1 axes |
| Shapes.AsWrittenReduceStretchedCounterexample | micrograd/engine.py:63-72 | Adding a (1, 4) operand to a (3, 4) operand gives a (3, 4) output. The source's (3, 4) gradient term does not fit the (1, 4) buffer |
| Shapes.ReduceToOperandFits | micrograd/engine.py:63-72 | The intended reduction sums the leading axes and keeps every stretched size-1 axis as size 1. It always gives exactly the operand's shape |
| Shapes.AxisIndex | micrograd/engine.py:223 | A valid axis maps to an index below the rank, and a negative axis counts from the end |
| Shapes.ReducedAxes | micrograd/engine.py:225-230 | The axes are accepted exactly when each is in range and no two name the same axis once normalised. The accepted set is exactly the normalised axes, all below the rank. Refusal is an axis error |
| Shapes.SumShape | micrograd/engine.py:232 | `sum` accepts exactly the axis arguments `ReducedAxes` accepts, and its output shape is the operand's shape with those axes removed |
| Shapes.SumAxisNormalisation | micrograd/engine.py:223-228 | A negative axis `a` sums the same axis as `a + ndim` |
| Shapes.SumAllAxes | micrograd/engine.py:225-226 | `axis=None` reduces what the tuple of every axis reduces, and the result is a scalar |
| Shapes.SumGradShapeRestores | micrograd/engine.py:238-244 | The backward rule of `sum` expands and broadcasts the output gradient back to exactly the operand's shape |
| Shapes.MeanDenominator | micrograd/engine.py:249-253 | The denominator exists exactly for `axis=None` or when every listed axis is in range. Repeats are allowed, because `take` allows them. Refusal is an axis error |
| Shapes.ProductSplits | micrograd/engine.py:251-253 | A shape's element count is the product of the summed axes' sizes times the element count of what remains |
| Shapes.TakeProductIsMasked | micrograd/engine.py:253 | For distinct in-range axes, `prod(take(shape, axis))` is the product of the sizes at those axes |
| Shapes.MeanDenominatorCountsReduced | micrograd/engine.py:249-254 | Whenever `sum` accepts the axes, the denominator exists, and it times the output's element count equals the input's element count. So `mean` divides by the number of elements folded into each output element |
| Shapes.Reverse | micrograd/engine.py:119-121 | `transpose` keeps the rank and puts axis `n-1-i` at position `i` |
| Shapes.ReverseInvolutive | micrograd/engine.py:127-128 | Transposing twice gives the shape back, so the gradient of `T` has the operand's shape |
| Shapes.PairingContracts | micrograd/engine.py:341-351 | numpy's contraction with the pairing lists `[-1-j]` and `[j]` succeeds exactly when left's j-th axis from the end matches right's j-th axis for every `j < k`. Its output is left without its last `k` axes, followed by right without its first `k`. Failure is a shape mismatch |
| Shapes.TensordotShape | micrograd/engine.py:336-351 | `tensordot(l, r, k)` is accepted exactly when `0 <= k <= ` both ranks and the paired axes agree. The output shape is as in `PairingContracts`. Refusal is a shape mismatch |
| Shapes.TensordotGradientShapes | micrograd/engine.py:358-362 | Both backward contractions are themselves accepted tensordots in the same pairing convention. They give exactly the left and the right operand's shapes |
| Shapes.LeftGradientShape | micrograd/engine.py:359-360 | Contracting the output gradient with the transposed right operand over `right.ndim - k` axes gives the left operand's shape |
| Shapes.RightGradientShape | micrograd/engine.py:361-362 | Contracting the transposed left operand with the output gradient over `left.ndim - k` axes gives the right operand's shape |
| Shapes.MatmulShape | micrograd/engine.py:317-318 | `(m, n) @ (n', p)` is accepted exactly when `n == n'`, and the result has shape `(m, p)` |
| Tensors.Full | micrograd/engine.py:32 | `full(shape, x)` has the given shape and holds `x` in every cell |
| Tensors.NewValue | micrograd/engine.py:18-32 | Construction succeeds exactly with data and no name or shape, or with no data, a non-empty name and a tuple shape. With data, the shape is the data's. With a name, the data is all-NaN of the given shape. Otherwise it is an assertion error |
| Tensors.Bind | micrograd/engine.py:39-48 | A leaf's forward step fails exactly when its name is bound to a tensor of a different shape. A data node does nothing and keeps whatever data it holds, its construction data or a later assignment. A bound placeholder takes its binding. An unbound placeholder becomes all-NaN. A placeholder's result always has its declared shape |
| Tensors.DataLeafKeepsData | micrograd/engine.py:40 | A data node's forward step returns the data it currently holds, whatever the bindings |
| Tensors.RebindingTakesEachBinding | micrograd/engine.py:39-45 | One placeholder, bound in two forward passes to two different tensors of its shape, takes each in turn without being rebuilt, whatever it held before |
| Tensors.BroadcastOnes | micrograd/engine.py:244 | Broadcasting an all-size-1 tensor to a shape gives that shape, with its one element in every cell |
| Tensors.FullSumGradientIsOnes | micrograd/engine.py:238-244 | For `x.sum().backward()`, the root's seed 1 expands to an all-size-1 shape with one element and broadcasts to a tensor of ones of `x`'s full shape, undivided |
| Graph.Ancestors | micrograd/engine.py:36 | The nodes reachable from `v` include `v` and lie at or below it in the arena |
| Graph.AncestorsStep | micrograd/engine.py:36 | A node is reachable from `v` exactly when it is `v` or is reachable from one of `v`'s operands |
| Graph.AncestorsOfMembers | micrograd/engine.py:265-266 | The nodes reachable from a list of nodes are exactly the union of what each of them reaches |
| Topology.Visit | micrograd/engine.py:262-267 | The walk lists only nodes of the arena |
| Topology.VisitedIsListed | micrograd/engine.py:263 | A node already visited is skipped: the visited set and the order are unchanged, and it and all its ancestors are already listed |
| Topology.VisitSpec | micrograd/engine.py:262-267 | When the walk's stack holds only later nodes, visiting `v` extends the order, without duplicates and parents first, by exactly the unlisted ancestors of `v` |
| Topology.VisitAllSpec | micrograd/engine.py:265-266 | The operand loop extends the order by exactly the unlisted nodes reachable from the operands |
| Topology.TopoIsTopologicalOrder | micrograd/engine.py:256-269 | The order lists every node reachable from the root, and only those, each exactly once and after all its operands, with the root last |
| Topology.BuildTopology | micrograd/engine.py:256-269 | A missing cache is filled with a duplicate-free, parents-first order of exactly the root's ancestors. A cached order is kept as it is |
| Topology.BuildTopologyMemoised | micrograd/engine.py:256-269 | Once the order is cached, later calls return it unchanged even if the graph has grown. An order cached before the arena grew is still exactly the order a fresh walk of the grown arena gives |
| Topology.TopoGrows | micrograd/engine.py:36 | Nodes appended later are never reached from an existing root, because `_prev` is fixed at construction: the root's order is the same in the grown arena |
| Topology.VisitGrows | micrograd/engine.py:262-267 | The walk from a node of the arena does the same in any arena that extends it |
| Topology.VisitAllGrows | micrograd/engine.py:264-266 | The operand loop does the same in any arena that extends the arena |
| Operators.Append | micrograd/engine.py:54 | A node is appended exactly when its shape can be inferred, and the arena only grows. Otherwise the shape error is returned |
| Operators.Wrap | micrograd/engine.py:52-53 | A value is used as it is. A literal becomes a new constant node of its own shape at the end of the arena |
| Operators.AddOp | micrograd/engine.py:51-58 | `x + y` is accepted exactly when the shapes broadcast, and the new node has the broadcast shape. Otherwise it is a shape mismatch |
| Operators.MulOp | micrograd/engine.py:77-84 | `x * y` is accepted exactly when the shapes broadcast, and the new node has the broadcast shape. Otherwise it is a shape mismatch |
| Operators.PowOp | micrograd/engine.py:103-107 | `x ** e` is accepted exactly when `e` is a plain number, and it keeps `x`'s shape. Otherwise it is refused |
| Operators.TransposeOp | micrograd/engine.py:119-121 | `x.T` always succeeds, with the axes reversed |
| Operators.ReluOp | micrograd/engine.py:137-138 | `x.relu()` always succeeds and keeps the shape |
| Operators.SumOp | micrograd/engine.py:221-232 | `x.sum(axis)` is accepted exactly when the axes are valid and distinct, and it drops them from the shape. Otherwise it is an axis error |
| Operators.MeanOp | micrograd/engine.py:249-254 | `x.mean(axis)` is accepted exactly when `sum` accepts the axes. It builds the sum node, a `1/denom` constant and their product. The denominator times the output's element count is the input's element count |
| Operators.NegOp | micrograd/engine.py:296-297 | `-x` is `x * -1` with a scalar constant, and keeps the shape |
| Operators.SubOp | micrograd/engine.py:302-303 | `x - y` is accepted exactly when the shapes broadcast. A value `y` is negated by a new node. A literal is negated cell by cell before it is wrapped |
| Operators.DivOp | micrograd/engine.py:311-312 | `x / y` is accepted exactly when the shapes broadcast. A value `y` gets a `y ** -1` node. A literal is inverted cell by cell before it is wrapped |
| Operators.RAddOp | micrograd/engine.py:299-300 | `c + x` with a plain number `c` always succeeds and keeps `x`'s shape. It wraps `c` as a constant and adds it to `x`, which is what `x + c` does |
| Operators.RSubOp | micrograd/engine.py:305-306 | `c - x` with a plain number `c` always succeeds and keeps `x`'s shape. It negates `x` first, then adds the wrapped `c` |
| Operators.RMulOp | micrograd/engine.py:308-309 | `c * x` with a plain number `c` always succeeds and keeps `x`'s shape. It wraps `c` as a constant and multiplies `x` by it, which is what `x * c` does |
| Operators.RDivOp | micrograd/engine.py:314-315 | `c / x` with a plain number `c` always succeeds and keeps `x`'s shape. It builds `x ** -1` and multiplies it by the wrapped `c` |
| Operators.TensordotOp | micrograd/engine.py:324-356 | It is accepted exactly when `TensordotShape` accepts the operand shapes, and a depth outside both ranks is refused before anything is wrapped. The new node contracts the two possibly wrapped operands |
| Operators.MatmulOp | micrograd/engine.py:317-318 | `x @ y` is accepted exactly when both operands have an axis and `x`'s last axis matches `y`'s first. The node contracts them at depth 1, giving `x`'s other axes followed by `y`'s |
| Operators.TermShapesFit | micrograd/engine.py:60-72 | Whenever an operation's shapes are accepted, every term of its backward rule has exactly the shape of the operand it is added into, with `+` and `*` reducing as intended |
| Operators.ContributionShapesFit | micrograd/engine.py:86-98 | In any arena the operators build, each node's backward terms fit its operands' gradient buffers, with `+` and `*` reducing as intended |
| Engine.NodeValue | micrograd/engine.py:39-48 | A node's forward step fails exactly when it is a placeholder bound to a wrongly shaped tensor. A data node keeps the number it holds. A placeholder takes its binding's number, or NaN when unbound |
| Engine.NodeValueLocal | micrograd/engine.py:39-57 | A node's forward value depends only on its operands' data, and a data node's only on its own |
| Engine.ForwardOver | micrograd/engine.py:275-276 | The pass over an order fails exactly when some listed node's step fails, and the failure is a shape mismatch. Nodes outside the order keep their data, and so does every data node, listed or not (line 40) |
| Engine.ForwardSettles | micrograd/engine.py:275-276 | After a successful pass over a parents-first order, every listed node's data is what its operation gives on its operands' final data |
| Engine.Forward | micrograd/engine.py:271-276 | `forward` fails exactly when some reachable placeholder is bound to a wrongly shaped tensor. Otherwise every reachable node is consistent with its operands, every data node keeps the data it held (line 40), and every unreachable node keeps its data |
| Engine.Built | micrograd/engine.py:20-32 | The data each node gets when it is built: a data node holds its own data, and a placeholder holds NaN, as `full(self.shape, nan)` gives |
| Engine.BuiltIsSettled | micrograd/engine.py:54-57 | Every node's construction data is what its `_forward` would assign from its operands' data with nothing bound, since each operator builds its node with the same expression its `_forward` uses (lines 54 and 57, and likewise at 80, 107, 121, 138, 232 and 351) |
| Engine.ForwardOverSettled | micrograd/engine.py:275-276 | A pass over nodes that are already consistent with their operands changes no data |
| Engine.ForwardAfterBuild | micrograd/engine.py:271-276 | `forward()` with no inputs, right after the graph is built, succeeds and leaves every node's data as construction made it |
| Engine.Contributions | micrograd/engine.py:60-72 | A backward rule sends one term to each operand slot, in slot order, and only to nodes created before it |
| Engine.Apply | micrograd/engine.py:64-72 | Applying the `grad +=` updates keeps one gradient per node |
| Engine.ApplyAdds | micrograd/engine.py:64-72 | Every gradient grows by exactly the total of the terms sent to it. Two terms for the same parent, as in fan-out, add up rather than overwrite |
| Engine.Seed | micrograd/engine.py:287-292 | Each listed node's gradient becomes 1 if it is the root and 0 otherwise. Unlisted nodes keep theirs |
| Engine.Propagate | micrograd/engine.py:293-294 | The reverse pass keeps one gradient per node |
| Engine.PropagateSpec | micrograd/engine.py:293-294 | Running the remaining backward rules in reverse order leaves every listed node with its chain-rule gradient, and changes no unlisted node |
| Engine.LeavesHandOutNothing | micrograd/engine.py:35 | The backward rule of a leaf changes nothing |
| Engine.Backward | micrograd/engine.py:278-294 | `backward` keeps one gradient per node |
| Engine.BackwardIsChainRule | micrograd/engine.py:278-294 | After `backward`, every node reachable from the root holds the root's total derivative with respect to it. That is the seed plus every later node's term, weighted by that node's own total. Unreachable nodes keep their gradient |
| Engine.RootGradientIsOne | micrograd/engine.py:287-294 | The root's gradient after `backward` is 1 |
| Engine.BackwardRepeatable | micrograd/engine.py:287-292 | A second `backward` gives the same gradients as the first, because the seeding overwrites what the first pass accumulated |
| Examples.DoubleGraphBuilt | micrograd/engine.py:51-58 | `x + x` builds one add node with both slots on `x` |
| Examples.DoubleGradient | micrograd/engine.py:60-72 | `(x + x).backward()` gives `x` the gradient 2: the two terms add up |
| Examples.SquareGraphBuilt | micrograd/engine.py:77-84 | `x * x` builds one multiply node with both slots on `x` |
| Examples.SquareGradient | micrograd/engine.py:86-98 | `(x * x).backward()` gives `x` the gradient `2x` |
| Examples.NegGraphBuilt | micrograd/engine.py:296-297 | `-x` builds a -1 constant and a multiply node |
| Examples.NegGradient | micrograd/engine.py:296-297 | `(-x).backward()` gives `x` the gradient -1 |
| Examples.SubGraphBuilt | micrograd/engine.py:302-303 | `x - y` builds `y * -1` and then an add node |
| Examples.SubGradient | micrograd/engine.py:302-303 | `(x - y).backward()` gives `x` the gradient 1 and `y` the gradient -1 |
| Examples.DivGraphBuilt | micrograd/engine.py:311-312 | `x / y` builds `y ** -1` and then a multiply node |
| Examples.DivGradient | micrograd/engine.py:311-312 | `(x / y).backward()` for non-zero `y` gives `x` the gradient `1/y` and `y` the gradient `-x/y²` |
| Examples.CubeGraphBuilt | micrograd/engine.py:103-107 | `x ** 3` builds one power node |
| Examples.CubeGradient | micrograd/engine.py:113-114 | `(x ** 3).backward()` gives `x` the gradient `3x²` |
| Examples.ReluGraphBuilt | micrograd/engine.py:137-138 | `x.relu()` builds one ReLU node |
| Examples.ReluGradient | micrograd/engine.py:144-145 | `x.relu().backward()` gives `x` the gradient 1 when `x > 0` and 0 otherwise, including at `x == 0` |
| Examples.StepsGraphBuilt | micrograd/engine.py:77-101 | `e = a*b`, `d = e + c` and `L = d*f` build the arena of the worked example |
| Examples.StepsForward | micrograd/engine.py:271-276 | With the leaves holding `a = 2`, `b = -3`, `c = 10` and `f = -2`, `L.forward()` keeps them and computes `e = -6`, `d = 4` and `L = -8`, whatever data the computed nodes held before |
| Examples.TransposeGraphBuilt | micrograd/engine.py:119-125 | `x.T` on a scalar builds one transpose node of shape `()` |
| Examples.TransposeGradient | micrograd/engine.py:123-128 | `x.T.forward()` gives `x`, and `x.T.backward()` gives `x` the gradient 1 |
| Examples.SumGraphBuilt | micrograd/engine.py:221-232 | `x.sum()` on a scalar builds one sum node of shape `()` |
| Examples.SumGradient | micrograd/engine.py:234-244 | `x.sum().forward()` gives `x`, and `x.sum().backward()` gives `x` the gradient 1 |
| Examples.MeanGraphBuilt | micrograd/engine.py:249-254 | `x.mean()` on a scalar builds the sum node, a constant `1 / 1` and their product |
| Examples.MeanGradient | micrograd/engine.py:249-254 | `x.mean().backward()` on a scalar gives `x` the gradient 1 |
| Examples.MatmulGraphBuilt | micrograd/engine.py:317-318 | `x @ y` on two one-element vectors builds one depth-1 `tensordot` node of shape `()` |
| Examples.MatmulGradient | micrograd/engine.py:354-362 | `(x @ y).forward()` gives `x * y`, and `(x @ y).backward()` gives `x` the gradient `y` and `y` the gradient `x` |
| Examples.StepsGradients | micrograd/engine.py:278-294 | `L.backward()` gives `a` 6, `b` -4, `c` -2, `f` 4, `e` -2, `d` -2 and `L` 1 |

## Left out

- The engine carries one number per node: every node's data and gradient is its array's first element. Its numbers are exact only for graphs in which every node holds one element; for larger arrays they are not the source's first elements (a `sum` or a `tensordot` over several elements combines all of them). Element-wise arithmetic on whole arrays is left out, because array contents go beyond the shape calculus. Shapes are modelled in full and checked separately, for every term, by `Operators.TermShapesFit`.
- On a scalar, `transpose`, `sum` and `tensordot` are the identity, the identity and a product. This is how `Engine.NodeValue` and `Engine.Contributions` treat them.
- Engine.Contributions: its contract fixes which operand each term goes to, not the amount. The amounts are pinned down, on one-element graphs, by the `Examples` gradient lemmas, which cover `+`, `*`, `**`, `relu`, `transpose`, `sum`, `mean`, `@` and the derived `-x`, `x - y` and `x / y`; `tensordot` at other depths has no example of its own.
- Engine.NodeValue: its contract states the failure condition and a leaf's value. A computed node's value is pinned down, on one-element graphs, by `Examples.StepsForward` for `+` and `*` and by the `Examples` gradient lemmas for `relu`, `transpose`, `sum`, `@` and `x / y`; `**` outside `x ** -1` has no forward example.
- Engine.Backward: the source's `+` and `*` raise numpy's `ValueError` in `backward` when broadcasting stretched a size-1 axis of an operand (see "## Findings"). The model does not fail there: its backward rules carry one number per node, and the shape terms are those of the intended reduction.
- Operators.Append: the arena keeps each node's operation and shape, not its data. The data a node gets when it is built is `Engine.Built`, and the `vals` of `Engine.ForwardOver` and `Engine.Backward` stand for whatever data the nodes hold at the time, from construction or from the last `forward`. `Engine.ForwardAfterBuild` shows that a `forward()` with no inputs leaves the construction data unchanged.
- Topology.Visit: its own contract only keeps the order inside the arena. What the walk lists is stated by `Topology.VisitSpec`.
- Engine.Apply: its own contract only keeps one gradient per node. What each gradient becomes is stated by `Engine.ApplyAdds`.
- Engine.Propagate: its own contract only keeps one gradient per node. What the reverse pass computes is stated by `Engine.PropagateSpec`.
- Engine.Backward: its own contract only keeps one gradient per node. What `backward` computes is stated by `Engine.BackwardIsChainRule`, `Engine.RootGradientIsOne` and `Engine.BackwardRepeatable`.
- Engine.Seed: it seeds the number 1 for the root and 0 for the others, not the arrays `ones(self.shape)` and `zeros(v.shape)` (lines 289-290), because the engine carries one number per node.
- Nums.Power: it states when the result is finite, not its value. The value is the real power of the definition `RealPow`.
- Non-finite floats: nan, +inf and -inf are merged into one `NaN`. Their separate propagation is floating-point detail.
- Rounding: real arithmetic stands for IEEE-754 doubles, and integer dtypes are not modelled.
- Nums.Power: the numbers follow numpy float64 arrays, where a zero base under a negative power gives infinity (`NaN` here). A leaf may also hold a Python `int` or `float` (lines 21 and 43). For such data, a zero base under a negative exponent raises `ZeroDivisionError`, and the model does not raise. This happens when `x ** e` is built (line 107), in its forward step (line 110), and in its backward rule (line 114, where `e - 1` is negative, `** 0` included).
- Operators.PowOp: it accepts every integer exponent, including on a value holding a Python zero, which the source refuses with `ZeroDivisionError` at line 107 (see `Nums.Power`).
- Operators.RDivOp: `c / x` with `x` holding a Python zero raises `ZeroDivisionError` through `x ** -1` (line 107); the model always succeeds (see `Nums.Power`).
- Engine.NodeValue: a power node whose operand holds a Python zero and whose exponent is negative raises `ZeroDivisionError` in its forward step (line 110); the model gives `NaN` and fails only on a wrongly shaped binding (see `Nums.Power`).
- Engine.ForwardOver: for the same reason, a pass in which such a power node is recomputed fails in the source but not in the model (see `Nums.Power`).
- Operators.TensordotOp: a literal operand stands for a numpy array. A plain Python number as an operand is refused by the source with `AttributeError`, because the assertions at lines 337-338 read its `ndim` before it is wrapped; the model accepts a scalar literal wherever the shapes allow it (at depth 0).
- Exponents: float exponents, which the source accepts (line 105), are not modelled. `PowArg` has only integer exponents and a `NotNumber` case for the operands the assertion refuses.
- `Value.__init__` asserts that data is an ndarray or a Number (line 21), and `_forward` asserts the same of a binding's type (line 43). The model's data is a tensor by construction, so this is modelled only through the `OtherData` constructor argument.
- `_prev` is a Python set, so its iteration order is unspecified. The model walks operands in slot order, and every property proved holds for that order.
- A forward pass that fails partway leaves the nodes before the failure updated. The model returns only the error.
- The transcendental operators `log`, `log1p`, `tanh`, `arctanh` and `arcsin` (lines 150-219) are left out, as are numpy's numerics inside `_sum`, `_tensordot` and `broadcast_arrays`.
- `warn` (lines 47 and 280-281), `__repr__` (lines 320-321), the `_op` labels and packaging are left out, because they have no effect on values or gradients.
- `1 / denom` in `mean` with a zero denominator is numpy's infinity, which is `NaN` here.
- Operators.DivOp: `x / 0` with a plain-number `0` raises Python's `ZeroDivisionError` in the source, because `0 ** -1` is evaluated on the number before it is wrapped (line 312). So does `x / y` with `y` a value holding a Python `0` or `0.0` (see `Nums.Power` below). The model does not raise: it builds a constant holding `NaN`, which is also what numpy gives for an array literal containing 0.
- Operators.RAddOp: only a plain number `c` is modelled. With a numpy array of rank 1 or more on the left, numpy's own `ndarray.__add__` runs first and builds an object array, so micrograd's `__radd__` is not reached as a whole.
- Operators.RSubOp: only a plain number `c` is modelled, for the same reason as `RAddOp` (numpy's `ndarray.__sub__` runs first).
- Operators.RMulOp: only a plain number `c` is modelled, for the same reason as `RAddOp` (numpy's `ndarray.__mul__` runs first).
- Operators.RDivOp: only a plain number `c` is modelled, for the same reason as `RAddOp` (numpy's `ndarray.__truediv__` runs first).
- A gradient that is still `None` and one that is already allocated are both reseeded by `backward`. The model does not distinguish the two.
- Concurrency, aliasing between `Value` objects and in-place mutation of shared arrays are not part of this model.

## Findings

| source | as written | input that shows it | evidently intended | confidence | as-written member | corrected member |
|---|---|---|---|---|---|---|
| micrograd/engine.py:63-72 | The backward rules of `+` and `*` sum the output gradient only over the leading axes the operand lacks. A size-1 axis that broadcasting stretched stays stretched, so the term does not fit the operand's gradient buffer and `self.grad += ...` is refused | `Value(ones((1, 4))) + Value(ones((3, 4)))`, then `backward()`: the (3, 4) term is added into the (1, 4) gradient | Also sum over every stretched size-1 axis, keeping it as size 1, so the term has the operand's own shape | not executed | Shapes.AsWrittenReduceStretchedCounterexample | Shapes.ReduceToOperandFits |
| micrograd/engine.py:89-98 | `*` reduces the same way, so `other.data * out.grad` is not summed over stretched size-1 axes either | `Value(ones((1, 4))) * Value(ones((3, 4)))`, then `backward()` | Sum over the stretched axes as well | not executed | Shapes.AsWrittenReduceFitsIff | Operators.TermShapesFit |

=== FILE: engine.dfy ===
/** The scalar engine: `forward` recomputes every node in topological order, `backward`
    seeds the gradients and runs each node's backward rule in reverse topological order,
    adding into its parents' gradients. Each node holds one number (the rank-0 case of
    the `Value` class); `vals` and `grads` hold every node's data and gradient, by index. */
module Engine {
  import opened Results
  import opened Nums
  import opened Tensors
  import opened Graph
  import opened Topology

  // ---------------------------------------------------------------------------
  // Forward (lines 271-276, and each operator's `_forward`)
  // ---------------------------------------------------------------------------

  /** The value node `v`'s `_forward` assigns, from the current data of its parents. Only a
      placeholder bound to a tensor of the wrong shape is refused. */
  function NodeValue(g: Arena, v: nat, vals: seq<Num>, bindings: map<string, Data>): (r: Result<Num>)
    requires WellFormed(g) && v < |g| && |vals| == |g|
    ensures r.Err? <==> g[v].op.Input? && Refused(g[v].op.leaf, bindings)
    ensures g[v].op.Input? && g[v].op.leaf.name.None? ==> r == Ok(vals[v])
    ensures g[v].op.Input? && g[v].op.leaf.name.Some? && r.Ok? ==>
      r.value == if g[v].op.leaf.name.value in bindings then First(bindings[g[v].op.leaf.name.value]) else NaN
  {
    assert ParentsBefore(g, v);
    match g[v].op
    case Input(l) =>
      var d :- Bind(l, Scalar(vals[v]), bindings);
      Ok(First(d))
    case Add(a, b) =>
      assert a in Operands(g[v].op) && b in Operands(g[v].op);
      Ok(Plus(vals[a], vals[b]))
    case Mul(a, b) =>
      assert a in Operands(g[v].op) && b in Operands(g[v].op);
      Ok(Times(vals[a], vals[b]))
    case Pow(a, e) =>
      assert a in Operands(g[v].op);
      Ok(Power(vals[a], e))
    case Transpose(a) =>
      assert a in Operands(g[v].op);
      Ok(vals[a])
    case Relu(a) =>
      assert a in Operands(g[v].op);
      Ok(Nums.Relu(vals[a]))
    case Sum(a, _) =>
      assert a in Operands(g[v].op);
      Ok(vals[a])
    case Tensordot(a, b, _) =>
      assert a in Operands(g[v].op) && b in Operands(g[v].op);
      Ok(Times(vals[a], vals[b]))
  }

  /** A node's value depends only on its parents' data, and a data node's on its own. */
  lemma NodeValueLocal(g: Arena, v: nat, vals: seq<Num>, vals': seq<Num>, bindings: map<string, Data>)
    requires WellFormed(g) && v < |g| && |vals| == |g| && |vals'| == |g|
    requires forall p :: p in Operands(g[v].op) ==> vals[p] == vals'[p]
    requires g[v].op.Input? && g[v].op.leaf.name.None? ==> vals[v] == vals'[v]
    ensures NodeValue(g, v, vals, bindings) == NodeValue(g, v, vals', bindings)
  {
    var op := g[v].op;
    if !op.Input? {
      assert op.a in Operands(op);
    }
    if op.Add? || op.Mul? || op.Tensordot? {
      assert op.b in Operands(op);
    }
  }

  /** `for v in self.topo: v._forward(**kwds)`, over the nodes of `t` in order. The first
      refused placeholder stops the pass. */
  function ForwardOver(g: Arena, t: seq<nat>, vals: seq<Num>, bindings: map<string, Data>): (r: Result<seq<Num>>)
    requires WellFormed(g) && |vals| == |g| && InArena(g, t)
    ensures r.Ok? ==> |r.value| == |g|
    ensures r.Err? <==> exists i :: 0 <= i < |t| && NodeValue(g, t[i], vals, bindings).Err?
    ensures r.Err? ==> r.error == ShapeMismatch
    ensures r.Ok? ==> forall v :: 0 <= v < |g| && v !in t ==> r.value[v] == vals[v]
    ensures r.Ok? ==> forall v :: 0 <= v < |g| && g[v].op.Input? && g[v].op.leaf.name.None? ==> r.value[v] == vals[v]
    decreases |t|
  {
    if t == [] then Ok(vals)
    else
      var x :- NodeValue(g, t[0], vals, bindings);
      ForwardStepErrors(g, t, vals, x, bindings);
      ForwardOver(g, t[1..], vals[t[0] := x], bindings)
  }

  /** One step of the forward pass, written out. */
  lemma ForwardOverStep(g: Arena, t: seq<nat>, vals: seq<Num>, bindings: map<string, Data>, x: Num)
    requires WellFormed(g) && |vals| == |g| && t != [] && InArena(g, t)
    requires NodeValue(g, t[0], vals, bindings) == Ok(x)
    ensures ForwardOver(g, t, vals, bindings) == ForwardOver(g, t[1..], vals[t[0] := x], bindings)
  {
  }

  /** Whether a later node is refused does not depend on the data assigned before it. */
  lemma ForwardStepErrors(g: Arena, t: seq<nat>, vals: seq<Num>, x: Num, bindings: map<string, Data>)
    requires WellFormed(g) && |vals| == |g| && t != [] && InArena(g, t)
    ensures (exists i :: 0 <= i < |t| && NodeValue(g, t[i], vals, bindings).Err?) <==>
      NodeValue(g, t[0], vals, bindings).Err? ||
      exists i :: 0 <= i < |t[1..]| && NodeValue(g, t[1..][i], vals[t[0] := x], bindings).Err?
  {
    forall i | 0 <= i < |t|
      ensures NodeValue(g, t[i], vals, bindings).Err? == NodeValue(g, t[i], vals[t[0] := x], bindings).Err?
    {
    }
    if exists i :: 0 <= i < |t| && NodeValue(g, t[i], vals, bindings).Err? {
      var i :| 0 <= i < |t| && NodeValue(g, t[i], vals, bindings).Err?;
      if i > 0 {
        assert t[1..][i - 1] == t[i];
      }
    }
  }

  /** Node `v`'s data is what its operation gives on its parents' data. */
  predicate Settled(g: Arena, v: nat, vals: seq<Num>, bindings: map<string, Data>)
    requires WellFormed(g) && v < |g| && |vals| == |g|
  {
    NodeValue(g, v, vals, bindings) == Ok(vals[v])
  }

  /** After a forward pass over a parents-first order, every listed node is settled at
      once: its data is what its operation gives on its parents' final data. */
  lemma {:induction false} ForwardSettles(g: Arena, t: seq<nat>, vals: seq<Num>, bindings: map<string, Data>)
    requires WellFormed(g) && |vals| == |g| && NoDup(t) && ParentsFirst(g, t)
    requires ForwardOver(g, t, vals, bindings).Ok?
    ensures forall i :: 0 <= i < |t| ==> Settled(g, t[i], ForwardOver(g, t, vals, bindings).value, bindings)
  {
    ForwardSettlesFrom(g, t, 0, vals, bindings);
  }

  /** The induction behind `ForwardSettles`, over the unprocessed suffix `t[k..]`: with
      `t[..k]` settled in `vals`, the pass over `t[k..]` settles all of `t`. */
  lemma {:induction false} ForwardSettlesFrom(g: Arena, t: seq<nat>, k: nat, vals: seq<Num>, bindings: map<string, Data>)
    requires WellFormed(g) && |vals| == |g| && NoDup(t) && ParentsFirst(g, t) && k <= |t|
    requires forall i :: 0 <= i < k ==> Settled(g, t[i], vals, bindings)
    requires ForwardOver(g, t[k..], vals, bindings).Ok?
    ensures forall i :: 0 <= i < |t| ==> Settled(g, t[i], ForwardOver(g, t[k..], vals, bindings).value, bindings)
    decreases |t| - k
  {
    var r := ForwardOver(g, t[k..], vals, bindings).value;
    if k == |t| {
      assert r == vals;
    } else {
      var x := NodeValue(g, t[k], vals, bindings).value;
      var vals' := vals[t[k] := x];
      assert t[k..][1..] == t[k + 1..];
      assert r == ForwardOver(g, t[k + 1..], vals', bindings).value;
      forall i | 0 <= i <= k
        ensures Settled(g, t[i], vals', bindings)
      {
        forall p | p in Operands(g[t[i]].op)
          ensures vals[p] == vals'[p]
        {
          assert p in t[..i];
          var j :| 0 <= j < i && t[j] == p;
        }
        if i < k {
          assert t[i] != t[k];
        } else if g[t[k]].op.Input? && g[t[k]].op.leaf.name.None? {
          assert x == vals[t[k]];
        }
        NodeValueLocal(g, t[i], vals, vals', bindings);
        if i < k {
          assert t[i] != t[k];
        }
      }
      ForwardSettlesFrom(g, t, k + 1, vals', bindings);
    }
  }

  /** `forward(**kwds)` on `root`: the pass over its topological order. */
  function Forward(g: Arena, root: nat, vals: seq<Num>, bindings: map<string, Data>): (r: Result<seq<Num>>)
    requires WellFormed(g) && root < |g| && |vals| == |g|
    ensures r.Ok? ==> |r.value| == |g|
    ensures r.Err? <==> exists v :: v in Ancestors(g, root) && g[v].op.Input? && Refused(g[v].op.leaf, bindings)
    ensures r.Ok? ==> forall v :: v in Ancestors(g, root) ==> Settled(g, v, r.value, bindings)
    ensures r.Ok? ==> forall v :: 0 <= v < |g| && v !in Ancestors(g, root) ==> r.value[v] == vals[v]
    ensures r.Ok? ==> forall v :: 0 <= v < |g| && g[v].op.Input? && g[v].op.leaf.name.None? ==> r.value[v] == vals[v]
  {
    TopoIsTopologicalOrder(g, root);
    ForwardFacts(g, root, vals, bindings);
    ForwardOver(g, Topo(g, root), vals, bindings)
  }

  lemma ForwardFacts(g: Arena, root: nat, vals: seq<Num>, bindings: map<string, Data>)
    requires WellFormed(g) && root < |g| && |vals| == |g|
    ensures var r := ForwardOver(g, Topo(g, root), vals, bindings);
      (r.Err? <==> exists v :: v in Ancestors(g, root) && g[v].op.Input? && Refused(g[v].op.leaf, bindings)) &&
      (r.Ok? ==> forall v :: v in Ancestors(g, root) ==> Settled(g, v, r.value, bindings))
  {
    TopoIsTopologicalOrder(g, root);
    var t := Topo(g, root);
    var r := ForwardOver(g, t, vals, bindings);
    if r.Ok? {
      ForwardSettles(g, t, vals, bindings);
      forall v | v in Ancestors(g, root)
        ensures Settled(g, v, r.value, bindings)
      {
        var i :| 0 <= i < |t| && t[i] == v;
      }
    }
    if exists v :: v in Ancestors(g, root) && g[v].op.Input? && Refused(g[v].op.leaf, bindings) {
      var v :| v in Ancestors(g, root) && g[v].op.Input? && Refused(g[v].op.leaf, bindings);
      var i :| 0 <= i < |t| && t[i] == v;
      assert NodeValue(g, t[i], vals, bindings).Err?;
    }
  }

  // ---------------------------------------------------------------------------
  // Construction data (lines 25, 32, 54, 80, 107, 121, 138, 232 and 351)
  // ---------------------------------------------------------------------------

  /** The data every node holds when it is built, before any `forward`. Nodes are created in
      index order. A leaf holds the data it was given, all-NaN for a placeholder, and a
      computed node holds its operation applied to its parents' data at that moment. */
  function Built(g: Arena): (r: seq<Num>)
    requires WellFormed(g)
    ensures |r| == |g|
    ensures forall v :: 0 <= v < |g| && g[v].op.Input? && g[v].op.leaf.name.None? ==> r[v] == First(g[v].op.leaf.data)
    ensures forall v :: 0 <= v < |g| && g[v].op.Input? && g[v].op.leaf.name.Some? ==> r[v] == NaN
    decreases |g|
  {
    if g == [] then []
    else
      var n := |g| - 1;
      PrefixWellFormed(g, n);
      var prev := Built(g[..n]);
      var own := if g[n].op.Input? then First(g[n].op.leaf.data) else NaN;
      var r := prev + [NodeValue(g, n, prev + [own], map[]).value];
      assert forall v :: 0 <= v < n ==> g[..n][v] == g[v] && r[v] == prev[v];
      r
  }

  /** A prefix of a well-formed arena is well-formed: the arena as it stood earlier. */
  lemma PrefixWellFormed(g: Arena, n: nat)
    requires WellFormed(g) && n <= |g|
    ensures WellFormed(g[..n])
  {
    forall i | 0 <= i < n
      ensures ParentsBefore(g[..n], i)
    {
      assert g[..n][i] == g[i] && ParentsBefore(g, i);
    }
  }

  /** A node's value reads only the arena and the data up to the node itself. */
  lemma NodeValuePrefix(g: Arena, n: nat, v: nat, vals: seq<Num>, bindings: map<string, Data>)
    requires WellFormed(g) && v < n <= |g| && |vals| == |g|
    ensures WellFormed(g[..n])
    ensures NodeValue(g, v, vals, bindings) == NodeValue(g[..n], v, vals[..n], bindings)
  {
    PrefixWellFormed(g, n);
    assert g[..n][v] == g[v] && ParentsBefore(g, v);
    forall p | p in Operands(g[v].op)
      ensures vals[..n][p] == vals[p]
    {
    }
    var op := g[v].op;
    if !op.Input? {
      assert op.a in Operands(op);
    }
    if op.Add? || op.Mul? || op.Tensordot? {
      assert op.b in Operands(op);
    }
  }

  /** The construction data is settled: every node already holds what its operation gives
      on its parents' data, with no placeholder bound. So a `backward` run before any
      `forward` reads data of which `BackwardIsChainRule` holds as for any other. */
  lemma {:induction false} BuiltIsSettled(g: Arena)
    requires WellFormed(g)
    ensures forall v :: 0 <= v < |g| ==> Settled(g, v, Built(g), map[])
    decreases |g|
  {
    if g != [] {
      var n := |g| - 1;
      PrefixWellFormed(g, n);
      var prev := Built(g[..n]);
      BuiltIsSettled(g[..n]);
      var r := Built(g);
      assert r[..n] == prev;
      forall v | 0 <= v < |g|
        ensures Settled(g, v, r, map[])
      {
        if v < n {
          NodeValuePrefix(g, n, v, r, map[]);
          assert Settled(g[..n], v, prev, map[]);
          assert r[v] == prev[v];
        } else {
          var own := if g[n].op.Input? then First(g[n].op.leaf.data) else NaN;
          var vals := prev + [own];
          assert ParentsBefore(g, n);
          forall p | p in Operands(g[n].op)
            ensures vals[p] == r[p]
          {
          }
          NodeValueLocal(g, n, vals, r, map[]);
        }
      }
    }
  }

  /** A pass over settled nodes changes nothing. */
  lemma {:induction false} ForwardOverSettled(g: Arena, t: seq<nat>, vals: seq<Num>, bindings: map<string, Data>)
    requires WellFormed(g) && |vals| == |g| && InArena(g, t)
    requires forall i :: 0 <= i < |t| ==> Settled(g, t[i], vals, bindings)
    ensures ForwardOver(g, t, vals, bindings) == Ok(vals)
    decreases |t|
  {
    if t != [] {
      assert vals[t[0] := vals[t[0]]] == vals;
      ForwardOverStep(g, t, vals, bindings, vals[t[0]]);
      ForwardOverSettled(g, t[1..], vals, bindings);
    }
  }

  /** `forward()` with no inputs, right after the graph is built, leaves every node's data
      as construction made it. */
  lemma ForwardAfterBuild(g: Arena, root: nat)
    requires WellFormed(g) && root < |g|
    ensures Forward(g, root, Built(g), map[]) == Ok(Built(g))
  {
    BuiltIsSettled(g);
    TopoIsTopologicalOrder(g, root);
    ForwardOverSettled(g, Topo(g, root), Built(g), map[]);
  }

  // ---------------------------------------------------------------------------
  // Backward (lines 278-294, and each operator's `_backward`)
  // ---------------------------------------------------------------------------

  /** What node `c`'s `_backward` adds, slot by slot: `(parent, amount)` for each operand,
      given `c`'s gradient `gc` and the nodes' data. */
  function Contributions(g: Arena, c: nat, gc: Num, vals: seq<Num>): (r: seq<(nat, Num)>)
    requires WellFormed(g) && c < |g| && |vals| == |g|
    ensures |r| == |Operands(g[c].op)|
    ensures forall k :: 0 <= k < |r| ==> r[k].0 == Operands(g[c].op)[k] && r[k].0 < c
  {
    assert ParentsBefore(g, c);
    match g[c].op
    case Input(_) => []
    // lines 60-72: the output gradient, to both operands
    case Add(a, b) =>
      assert a in Operands(g[c].op) && b in Operands(g[c].op);
      [(a, gc), (b, gc)]
    // lines 86-98: each operand gets the other's data times the output gradient
    case Mul(a, b) =>
      assert a in Operands(g[c].op) && b in Operands(g[c].op);
      [(a, Times(vals[b], gc)), (b, Times(vals[a], gc))]
    // line 114: e * x ** (e - 1) * grad
    case Pow(a, e) =>
      assert a in Operands(g[c].op);
      [(a, Times(Times(Fin(e as real), Power(vals[a], e - 1)), gc))]
    // line 128: the transposed gradient, which on a scalar is the gradient
    case Transpose(a) =>
      assert a in Operands(g[c].op);
      [(a, gc)]
    // line 145: the gradient where the output is positive, else 0
    case Relu(a) =>
      assert a in Operands(g[c].op);
      [(a, if Positive(vals[c]) then gc else Fin(0.0))]
    // lines 241-244: the gradient, expanded and broadcast back
    case Sum(a, _) =>
      assert a in Operands(g[c].op);
      [(a, gc)]
    // lines 359-362: each side gets the gradient contracted with the other's data
    case Tensordot(a, b, _) =>
      assert a in Operands(g[c].op) && b in Operands(g[c].op);
      [(a, Times(gc, vals[b])), (b, Times(vals[a], gc))]
  }

  /** The total of the amounts a list of contributions gives node `p`. */
  function Amount(p: nat, cs: seq<(nat, Num)>): Num {
    if cs == [] then Fin(0.0)
    else Plus(if cs[0].0 == p then cs[0].1 else Fin(0.0), Amount(p, cs[1..]))
  }

  /** `parent.grad += amount`, for each contribution in turn. */
  function Apply(grads: seq<Num>, cs: seq<(nat, Num)>): (r: seq<Num>)
    requires forall k :: 0 <= k < |cs| ==> cs[k].0 < |grads|
    ensures |r| == |grads|
    decreases |cs|
  {
    if cs == [] then grads
    else Apply(grads[cs[0].0 := Plus(grads[cs[0].0], cs[0].1)], cs[1..])
  }

  lemma PlusAssoc(x: Num, y: Num, z: Num)
    ensures Plus(Plus(x, y), z) == Plus(x, Plus(y, z))
  {
  }

  /** Accumulation: every gradient grows by exactly the total of its contributions, so
      two contributions to one parent (fan-out) add up rather than overwrite. */
  lemma {:induction false} ApplyAdds(grads: seq<Num>, cs: seq<(nat, Num)>, q: nat)
    requires forall k :: 0 <= k < |cs| ==> cs[k].0 < |grads|
    requires q < |grads|
    ensures Apply(grads, cs)[q] == Plus(grads[q], Amount(q, cs))
    decreases |cs|
  {
    if cs != [] {
      var p := cs[0].0;
      var grads' := grads[p := Plus(grads[p], cs[0].1)];
      ApplyAdds(grads', cs[1..], q);
      PlusAssoc(grads[q], if p == q then cs[0].1 else Fin(0.0), Amount(q, cs[1..]));
    }
  }

  /** `Apply` on one and on two contributions, written out. */
  lemma ApplyOne(grads: seq<Num>, a: nat, x: Num)
    requires a < |grads|
    ensures Apply(grads, [(a, x)]) == grads[a := Plus(grads[a], x)]
  {
    var cs := [(a, x)];
    assert cs[1..] == [];
  }

  lemma ApplyTwo(grads: seq<Num>, a: nat, x: Num, b: nat, y: Num)
    requires a < |grads| && b < |grads|
    ensures var s := grads[a := Plus(grads[a], x)];
      Apply(grads, [(a, x), (b, y)]) == s[b := Plus(s[b], y)]
  {
    var cs := [(a, x), (b, y)];
    assert cs[1..] == [(b, y)];
    ApplyOne(grads[a := Plus(grads[a], x)], b, y);
  }

  /** A node no contribution targets receives nothing. */
  lemma {:induction false} AmountOfOther(q: nat, cs: seq<(nat, Num)>)
    requires forall k :: 0 <= k < |cs| ==> cs[k].0 != q
    ensures Amount(q, cs) == Fin(0.0)
    decreases |cs|
  {
    if cs != [] {
      AmountOfOther(q, cs[1..]);
    }
  }

  /** The seeding loop (lines 287-292): each node of `t` gets 1 if it is the root, else 0;
      nodes not in `t` keep their gradient. */
  function Seed(t: seq<nat>, root: nat, grads: seq<Num>): (r: seq<Num>)
    requires forall i :: 0 <= i < |t| ==> t[i] < |grads|
    ensures |r| == |grads|
    ensures forall v :: 0 <= v < |grads| ==>
      r[v] == if v !in t then grads[v] else if v == root then Fin(1.0) else Fin(0.0)
    decreases |t|
  {
    if t == [] then grads
    else
      var v := t[|t| - 1];
      Seed(t[..|t| - 1], root, grads)[v := if v == root then Fin(1.0) else Fin(0.0)]
  }

  /** `for v in reversed(self.topo): v._backward()`, over the first `m` nodes of `t`: node
      `t[m-1]` hands out its gradient as it stands, then the rest are processed. */
  function Propagate(g: Arena, t: seq<nat>, m: nat, vals: seq<Num>, grads: seq<Num>): (r: seq<Num>)
    requires WellFormed(g) && |vals| == |g| && |grads| == |g| && m <= |t|
    requires InArena(g, t)
    ensures |r| == |g|
    decreases m
  {
    if m == 0 then grads
    else
      var c := t[m - 1];
      var cs := Contributions(g, c, grads[c], vals);
      assert ParentsBefore(g, c);
      Propagate(g, t, m - 1, vals, Apply(grads, cs))
  }

  /** `backward()` on `root`: seed the gradients of the topological order, then run every
      backward rule in reverse order. */
  function Backward(g: Arena, root: nat, vals: seq<Num>, grads: seq<Num>): (r: seq<Num>)
    requires WellFormed(g) && root < |g| && |vals| == |g| && |grads| == |g|
    ensures |r| == |g|
  {
    TopoIsTopologicalOrder(g, root);
    var t := Topo(g, root);
    Propagate(g, t, |t|, vals, Seed(t, root, grads))
  }

  // ---------------------------------------------------------------------------
  // The chain rule, as a reference definition
  // ---------------------------------------------------------------------------

  /** The gradient of the root with respect to `t[j]`, by the chain rule: the seed (1 for
      the root itself, which is last) plus what every later node of `t` passes down to
      `t[j]` from its own total gradient. */
  function ChainGrad(g: Arena, t: seq<nat>, vals: seq<Num>, j: nat): Num
    requires WellFormed(g) && |vals| == |g| && j < |t|
    requires InArena(g, t)
    decreases |t| - j, |t| - j + 1
  {
    Plus(SeedOf(t, j), Passed(g, t, vals, j, j + 1))
  }

  /** What the nodes `t[m..]` pass down to `t[j]`. */
  function Passed(g: Arena, t: seq<nat>, vals: seq<Num>, j: nat, m: nat): Num
    requires WellFormed(g) && |vals| == |g| && j < m <= |t|
    requires InArena(g, t)
    decreases |t| - j, |t| - m
  {
    if m == |t| then Fin(0.0)
    else
      Plus(Passed(g, t, vals, j, m + 1),
           Amount(t[j], Contributions(g, t[m], ChainGrad(g, t, vals, m), vals)))
  }

  /** The seed `t[j]` starts from: 1 for the root, which is last, 0 for the others. */
  function SeedOf(t: seq<nat>, j: nat): Num {
    if j == |t| - 1 then Fin(1.0) else Fin(0.0)
  }

  /** The nodes `t[..m]`, whose backward rules have not run yet, hold their seed plus what
      `t[m..]` passed them. */
  ghost predicate Pending(g: Arena, t: seq<nat>, vals: seq<Num>, m: nat, grads: seq<Num>)
    requires WellFormed(g) && |vals| == |g| && m <= |t| && InArena(g, t)
  {
    |grads| == |g| &&
    forall j {:trigger grads[t[j]]} :: 0 <= j < m ==> grads[t[j]] == Plus(SeedOf(t, j), Passed(g, t, vals, j, m))
  }

  /** The nodes `t[m..]`, whose backward rules have run, hold their chain-rule gradient. */
  ghost predicate Done(g: Arena, t: seq<nat>, vals: seq<Num>, m: nat, grads: seq<Num>)
    requires WellFormed(g) && |vals| == |g| && m <= |t| && InArena(g, t)
  {
    |grads| == |g| &&
    forall j {:trigger grads[t[j]]} :: m <= j < |t| ==> grads[t[j]] == ChainGrad(g, t, vals, j)
  }

  /** The nodes outside `t` hold `outside`. */
  ghost predicate Untouched(g: Arena, t: seq<nat>, grads: seq<Num>, outside: seq<Num>) {
    |grads| == |g| && |outside| == |g| &&
    forall v {:trigger grads[v]} :: 0 <= v < |g| && v !in t ==> grads[v] == outside[v]
  }

  /** The state after the backward rules of `t[m..]` have run. */
  ghost predicate Reached(g: Arena, t: seq<nat>, vals: seq<Num>, m: nat, grads: seq<Num>, outside: seq<Num>)
    requires WellFormed(g) && |vals| == |g| && m <= |t| && InArena(g, t)
  {
    Pending(g, t, vals, m, grads) && Done(g, t, vals, m, grads) && Untouched(g, t, grads, outside)
  }

  /** What node `t[m-1]` hands out goes to nodes listed before it. */
  lemma ContributionsBefore(g: Arena, t: seq<nat>, vals: seq<Num>, m: nat, gc: Num)
    requires WellFormed(g) && |vals| == |g| && 0 < m <= |t| && ParentsFirst(g, t)
    ensures var cs := Contributions(g, t[m - 1], gc, vals);
      forall k :: 0 <= k < |cs| ==> cs[k].0 in t[..m - 1] && cs[k].0 < |g|
  {
    var c := t[m - 1];
    var cs := Contributions(g, c, gc, vals);
    forall k | 0 <= k < |cs|
      ensures cs[k].0 in t[..m - 1] && cs[k].0 < |g|
    {
      assert cs[k].0 in Operands(g[c].op);
    }
  }

  /** A gradient no contribution targets is left as it was. */
  lemma ApplyElsewhere(grads: seq<Num>, cs: seq<(nat, Num)>, v: nat)
    requires forall k :: 0 <= k < |cs| ==> cs[k].0 < |grads| && cs[k].0 != v
    requires v < |grads|
    ensures Apply(grads, cs)[v] == grads[v]
  {
    AmountOfOther(v, cs);
    ApplyAdds(grads, cs, v);
  }

  /** Before `t[m-1]`'s rule runs, its gradient is complete: everything after it has run. */
  lemma StepComplete(g: Arena, t: seq<nat>, vals: seq<Num>, m: nat, grads: seq<Num>)
    requires WellFormed(g) && |vals| == |g| && 0 < m <= |t| && InArena(g, t)
    requires Pending(g, t, vals, m, grads)
    ensures grads[t[m - 1]] == ChainGrad(g, t, vals, m - 1)
  {
  }

  /** `t[m-1]`'s rule moves one term of every earlier node's sum into its gradient. */
  lemma StepPending(g: Arena, t: seq<nat>, vals: seq<Num>, m: nat, grads: seq<Num>, grads': seq<Num>)
    requires WellFormed(g) && |vals| == |g| && 0 < m <= |t| && ParentsFirst(g, t) && InArena(g, t)
    requires Pending(g, t, vals, m, grads)
    requires grads' == Apply(grads, Contributions(g, t[m - 1], grads[t[m - 1]], vals))
    ensures Pending(g, t, vals, m - 1, grads')
  {
    var c := t[m - 1];
    StepComplete(g, t, vals, m, grads);
    var cs := Contributions(g, c, grads[c], vals);
    ContributionsBefore(g, t, vals, m, grads[c]);
    forall j | 0 <= j < m - 1
      ensures grads'[t[j]] == Plus(SeedOf(t, j), Passed(g, t, vals, j, m - 1))
    {
      ApplyAdds(grads, cs, t[j]);
      PlusAssoc(SeedOf(t, j), Passed(g, t, vals, j, m), Amount(t[j], cs));
    }
  }

  /** `t[m-1]`'s rule leaves the nodes from `t[m-1]` on as they were. */
  lemma StepDone(g: Arena, t: seq<nat>, vals: seq<Num>, m: nat, grads: seq<Num>, grads': seq<Num>)
    requires WellFormed(g) && |vals| == |g| && 0 < m <= |t| && NoDup(t) && ParentsFirst(g, t) && InArena(g, t)
    requires Pending(g, t, vals, m, grads) && Done(g, t, vals, m, grads)
    requires grads' == Apply(grads, Contributions(g, t[m - 1], grads[t[m - 1]], vals))
    ensures Done(g, t, vals, m - 1, grads')
  {
    var c := t[m - 1];
    StepComplete(g, t, vals, m, grads);
    var cs := Contributions(g, c, grads[c], vals);
    ContributionsBefore(g, t, vals, m, grads[c]);
    forall j | m - 1 <= j < |t|
      ensures grads'[t[j]] == ChainGrad(g, t, vals, j)
    {
      assert t[j] !in t[..m - 1] by {
        forall i | 0 <= i < m - 1
          ensures t[i] != t[j]
        {
        }
      }
      ApplyElsewhere(grads, cs, t[j]);
    }
  }

  /** `t[m-1]`'s rule leaves the nodes outside `t` as they were. */
  lemma StepUntouched(g: Arena, t: seq<nat>, vals: seq<Num>, m: nat, grads: seq<Num>, outside: seq<Num>, grads': seq<Num>)
    requires WellFormed(g) && |vals| == |g| && 0 < m <= |t| && ParentsFirst(g, t)
    requires Untouched(g, t, grads, outside)
    requires grads' == Apply(grads, Contributions(g, t[m - 1], grads[t[m - 1]], vals))
    ensures Untouched(g, t, grads', outside)
  {
    var cs := Contributions(g, t[m - 1], grads[t[m - 1]], vals);
    ContributionsBefore(g, t, vals, m, grads[t[m - 1]]);
    forall v | 0 <= v < |g| && v !in t
      ensures grads'[v] == outside[v]
    {
      assert v !in t[..m - 1];
      ApplyElsewhere(grads, cs, v);
    }
  }

  /** One backward rule, node `t[m-1]`: its gradient is complete (everything after it has
      run), and what it hands out reaches only nodes before it. */
  lemma BackwardStep(g: Arena, t: seq<nat>, vals: seq<Num>, m: nat, grads: seq<Num>, outside: seq<Num>, grads': seq<Num>)
    requires WellFormed(g) && |vals| == |g| && 0 < m <= |t| && NoDup(t) && ParentsFirst(g, t) && InArena(g, t)
    requires Reached(g, t, vals, m, grads, outside)
    requires grads' == Apply(grads, Contributions(g, t[m - 1], grads[t[m - 1]], vals))
    ensures grads[t[m - 1]] == ChainGrad(g, t, vals, m - 1)
    ensures Reached(g, t, vals, m - 1, grads', outside)
  {
    StepComplete(g, t, vals, m, grads);
    StepPending(g, t, vals, m, grads, grads');
    StepDone(g, t, vals, m, grads, grads');
    StepUntouched(g, t, vals, m, grads, outside, grads');
  }

  /** Running the rule of `t[m-1]` moves the state one node back, and `Propagate` with it. */
  lemma RunRule(g: Arena, t: seq<nat>, vals: seq<Num>, m: nat, grads: seq<Num>, outside: seq<Num>, r: seq<Num>) returns (grads': seq<Num>)
    requires WellFormed(g) && |vals| == |g| && 0 < m <= |t| && NoDup(t) && ParentsFirst(g, t) && InArena(g, t)
    requires Reached(g, t, vals, m, grads, outside)
    requires |grads| == |g| && r == Propagate(g, t, m, vals, grads)
    ensures |grads'| == |g| && r == Propagate(g, t, m - 1, vals, grads')
    ensures Reached(g, t, vals, m - 1, grads', outside)
  {
    grads' := Apply(grads, Contributions(g, t[m - 1], grads[t[m - 1]], vals));
    BackwardStep(g, t, vals, m, grads, outside, grads');
    PropagateStep(g, t, m, vals, grads, grads');
  }

  /** Reverse-order propagation completes the chain rule: from the state after `t[m..]`,
      running the remaining rules (giving `r`) leaves every node of `t` with its chain-rule
      gradient. */
  lemma PropagateSpec(g: Arena, t: seq<nat>, vals: seq<Num>, m: nat, grads: seq<Num>, outside: seq<Num>, r: seq<Num>)
    requires WellFormed(g) && |vals| == |g| && m <= |t| && NoDup(t) && ParentsFirst(g, t) && InArena(g, t)
    requires Reached(g, t, vals, m, grads, outside)
    requires r == Propagate(g, t, m, vals, grads)
    ensures Reached(g, t, vals, 0, r, outside)
  {
    var k: nat, cur := m, grads;
    while k > 0
      invariant k <= m && |cur| == |g| && r == Propagate(g, t, k, vals, cur)
      invariant Reached(g, t, vals, k, cur, outside)
      decreases k
    {
      cur := RunRule(g, t, vals, k, cur, outside, r);
      k := k - 1;
    }
    assert r == cur;
  }

  /** One step of `Propagate`, written out. */
  lemma PropagateStep(g: Arena, t: seq<nat>, m: nat, vals: seq<Num>, grads: seq<Num>, grads': seq<Num>)
    requires WellFormed(g) && |vals| == |g| && |grads| == |g| && 0 < m <= |t|
    requires InArena(g, t)
    requires grads' == Apply(grads, Contributions(g, t[m - 1], grads[t[m - 1]], vals))
    ensures |grads'| == |g| && Propagate(g, t, m, vals, grads) == Propagate(g, t, m - 1, vals, grads')
  {
  }

  /** A node without parents hands out nothing, so the rules of leaves change no gradient. */
  lemma {:induction false} LeavesHandOutNothing(g: Arena, t: seq<nat>, m: nat, vals: seq<Num>, grads: seq<Num>)
    requires WellFormed(g) && |vals| == |g| && |grads| == |g| && m <= |t| && InArena(g, t)
    requires forall i :: 0 <= i < m ==> g[t[i]].op.Input?
    ensures Propagate(g, t, m, vals, grads) == grads
    decreases m
  {
    if m > 0 {
      assert Contributions(g, t[m - 1], grads[t[m - 1]], vals) == [];
      assert Apply(grads, []) == grads;
      PropagateStep(g, t, m, vals, grads, grads);
      LeavesHandOutNothing(g, t, m - 1, vals, grads);
    }
  }

  /** `backward()` on a root whose topological order is `t`. */
  lemma BackwardOn(g: Arena, root: nat, vals: seq<Num>, grads: seq<Num>, t: seq<nat>)
    requires WellFormed(g) && root < |g| && |vals| == |g| && |grads| == |g| && Topo(g, root) == t
    ensures InArena(g, t) && Backward(g, root, vals, grads) == Propagate(g, t, |t|, vals, Seed(t, root, grads))
  {
  }

  /** The seeded state is the state before any backward rule has run. */
  lemma SeedReached(g: Arena, t: seq<nat>, root: nat, vals: seq<Num>, grads: seq<Num>)
    requires WellFormed(g) && |vals| == |g| && |grads| == |g| && NoDup(t) && ParentsFirst(g, t)
    requires |t| > 0 && t[|t| - 1] == root
    ensures Reached(g, t, vals, |t|, Seed(t, root, grads), grads)
  {
    var s := Seed(t, root, grads);
    forall j | 0 <= j < |t|
      ensures s[t[j]] == Plus(SeedOf(t, j), Passed(g, t, vals, j, |t|))
    {
      assert t[j] in t;
      assert Passed(g, t, vals, j, |t|) == Fin(0.0);
      if j < |t| - 1 {
        assert t[j] != t[|t| - 1];
      }
    }
    forall v | 0 <= v < |g| && v !in t
      ensures s[v] == grads[v]
    {
    }
  }

  /** `backward()` computes the chain rule: every node reachable from the root ends with
      the root's total derivative with respect to it, as `ChainGrad` defines it; nodes the
      root does not reach keep their gradient. */
  lemma BackwardIsChainRule(g: Arena, root: nat, vals: seq<Num>, grads: seq<Num>)
    requires WellFormed(g) && root < |g| && |vals| == |g| && |grads| == |g|
    ensures var t := Topo(g, root);
      var r := Backward(g, root, vals, grads);
      (forall j :: 0 <= j < |t| ==> r[t[j]] == ChainGrad(g, t, vals, j)) &&
      (forall v :: 0 <= v < |g| && v !in Ancestors(g, root) ==> r[v] == grads[v])
  {
    TopoIsTopologicalOrder(g, root);
    var t := Topo(g, root);
    SeedReached(g, t, root, vals, grads);
    PropagateSpec(g, t, vals, |t|, Seed(t, root, grads), grads, Backward(g, root, vals, grads));
    var r := Backward(g, root, vals, grads);
    forall j | 0 <= j < |t|
      ensures r[t[j]] == ChainGrad(g, t, vals, j)
    {
    }
  }

  /** The root's own gradient is 1: nothing comes after it. */
  lemma RootGradientIsOne(g: Arena, root: nat, vals: seq<Num>, grads: seq<Num>)
    requires WellFormed(g) && root < |g| && |vals| == |g| && |grads| == |g|
    ensures Backward(g, root, vals, grads)[root] == Fin(1.0)
  {
    TopoIsTopologicalOrder(g, root);
    var t := Topo(g, root);
    BackwardIsChainRule(g, root, vals, grads);
    assert Backward(g, root, vals, grads)[t[|t| - 1]] == ChainGrad(g, t, vals, |t| - 1);
  }

  /** Rerunning `backward()` gives the same gradients: the seeding overwrites whatever the
      previous pass accumulated. */
  lemma BackwardRepeatable(g: Arena, root: nat, vals: seq<Num>, grads: seq<Num>)
    requires WellFormed(g) && root < |g| && |vals| == |g| && |grads| == |g|
    ensures Backward(g, root, vals, Backward(g, root, vals, grads)) == Backward(g, root, vals, grads)
  {
    var once := Backward(g, root, vals, grads);
    var twice := Backward(g, root, vals, once);
    BackwardIsChainRule(g, root, vals, grads);
    BackwardIsChainRule(g, root, vals, once);
    TopoIsTopologicalOrder(g, root);
    var t := Topo(g, root);
    forall v | 0 <= v < |g|
      ensures twice[v] == once[v]
    {
      if v in Ancestors(g, root) {
        var j :| 0 <= j < |t| && t[j] == v;
      }
    }
  }
}

=== FILE: examples.dfy ===
/** Backward passes worked through on small graphs built by the operators: fan-out, the
    derived operators' gradients, and a graph of the four elementary steps. Each graph's
    leaves are scalar data nodes holding the data they were built with, which a forward pass
    keeps; "settled" data is what a forward pass leaves in a computed node. */
module Examples {
  import opened Results
  import opened Nums
  import opened Shapes
  import opened Tensors
  import opened Graph
  import opened Topology
  import opened Operators
  import opened Engine

  /** A scalar data node holding `x`. */
  function Leaf1(x: real): Node {
    Const(Scalar(Fin(x)))
  }

  lemma OneLeaf(x: real)
    ensures ShapesConsistent([Leaf1(x)])
  {
    var g := [Leaf1(x)];
    assert NodeConsistent(g, 0);
  }

  lemma TwoLeaves(x: real, y: real)
    ensures ShapesConsistent([Leaf1(x), Leaf1(y)])
  {
    var g := [Leaf1(x), Leaf1(y)];
    assert ParentsBefore(g, 0) && ParentsBefore(g, 1);
    assert NodeConsistent(g, 0) && NodeConsistent(g, 1);
  }

  /** When the walk lists every node, the seed is 1 at the root and 0 everywhere else. */
  lemma {:induction false} BackwardFrom(g: Arena, root: nat, vals: seq<Num>, grads: seq<Num>, t: seq<nat>, s: seq<Num>)
    requires WellFormed(g) && root < |g| && |vals| == |g| && |grads| == |g| && Topo(g, root) == t
    requires forall v :: 0 <= v < |g| ==> v in t
    requires |s| == |g| && forall v :: 0 <= v < |g| ==> s[v] == if v == root then Fin(1.0) else Fin(0.0)
    ensures InArena(g, t) && |s| == |g| && Backward(g, root, vals, grads) == Propagate(g, t, |t|, vals, s)
  {
    BackwardOn(g, root, vals, grads, t);
    assert Seed(t, root, grads) == s;
  }

  /** The walk from node 1 of a two-node graph whose parents are all node 0, a leaf. */
  lemma TopoOfTwo(g: Arena)
    requires WellFormed(g) && |g| == 2 && g[0].op.Input?
    requires Operands(g[1].op) == [0] || Operands(g[1].op) == [0, 0]
    ensures Topo(g, 1) == [0, 1]
  {
    var s: set<nat> := {} + {1};
    VisitLeaf(g, 0, s, []);
    if Operands(g[1].op) == [0] {
      assert [0][1..] == [];
      assert VisitAll(g, [0], 1, s, []) == Visit(g, 0, s, []);
    } else {
      VisitAllTwo(g, 0, 0, 1, s, []);
    }
    VisitInner(g, 1, {}, []);
    assert [] + [0] + [1] == [0, 1];
  }

  /** Backward from node 1 of such a graph: one round of node 1's rule on the seed `[0, 1]`. */
  lemma BackwardOfTwo(g: Arena, vals: seq<Num>, grads: seq<Num>)
    requires WellFormed(g) && |g| == 2 && g[0].op.Input?
    requires Operands(g[1].op) == [0] || Operands(g[1].op) == [0, 0]
    requires |vals| == 2 && |grads| == 2
    ensures Backward(g, 1, vals, grads) == Apply([Fin(0.0), Fin(1.0)], Contributions(g, 1, Fin(1.0), vals))
  {
    var t := [0, 1];
    TopoOfTwo(g);
    BackwardOn(g, 1, vals, grads, t);
    var s := Seed(t, 1, grads);
    assert s == [Fin(0.0), Fin(1.0)];
    var s1 := Apply(s, Contributions(g, 1, s[1], vals));
    PropagateStep(g, t, 2, vals, s, s1);
    LeavesHandOutNothing(g, t, 1, vals, s1);
  }

  // ---------------------------------------------------------------------------
  // Fan-out: one node used twice
  // ---------------------------------------------------------------------------

  /** `x + x`. */
  function DoubleGraph(x: real): Arena {
    [Leaf1(x), Node(Add(0, 0), [])]
  }

  lemma DoubleGraphBuilt(x: real)
    ensures ShapesConsistent([Leaf1(x)])
    ensures AddOp([Leaf1(x)], 0, Ref(0)) == Ok((DoubleGraph(x), 1))
  {
    OneLeaf(x);
    var g0 := [Leaf1(x)];
    assert g0[0].shape == [];
    assert Broadcast([], []) == Ok([]);
    var r := AddOp(g0, 0, Ref(0));
    assert r.Ok?;
    assert Wrap(g0, Ref(0)).0 == g0;
    assert r.value.0 == g0 + [Node(Add(0, 0), [])];
    assert r.value.1 == 1;
    assert g0 + [Node(Add(0, 0), [])] == DoubleGraph(x);
    assert r.value == (DoubleGraph(x), 1);
  }

  /** `(x + x).backward()` gives `x` the gradient 2: the two uses add up. */
  lemma DoubleGradient(x: real, vals: seq<Num>, grads: seq<Num>)
    requires |vals| == 2 && |grads| == 2
    ensures WellFormed(DoubleGraph(x))
    ensures Backward(DoubleGraph(x), 1, vals, grads)[0] == Fin(2.0)
  {
    var g := DoubleGraph(x);
    assert WellFormed(g);
    BackwardOfTwo(g, vals, grads);
    var cs := [(0, Fin(1.0)), (0, Fin(1.0))];
    assert Contributions(g, 1, Fin(1.0), vals) == cs;
    ApplyTwo([Fin(0.0), Fin(1.0)], 0, Fin(1.0), 0, Fin(1.0));
  }

  /** `x * x`. */
  function SquareGraph(x: real): Arena {
    [Leaf1(x), Node(Mul(0, 0), [])]
  }

  lemma SquareGraphBuilt(x: real)
    ensures ShapesConsistent([Leaf1(x)])
    ensures MulOp([Leaf1(x)], 0, Ref(0)) == Ok((SquareGraph(x), 1))
  {
    OneLeaf(x);
    var g0 := [Leaf1(x)];
    assert Broadcast([], []) == Ok([]);
    var r := MulOp(g0, 0, Ref(0));
    assert r.value.0 == g0 + [Node(Mul(0, 0), [])] == SquareGraph(x);
    assert r.value == (SquareGraph(x), 1);
  }

  /** `(x * x).backward()` gives `x` the gradient `2x`: each use contributes the other's
      data. */
  lemma SquareGradient(x: real, vals: seq<Num>, grads: seq<Num>, bindings: map<string, Data>)
    requires |vals| == 2 && |grads| == 2
    requires WellFormed(SquareGraph(x)) && vals[0] == Fin(x)
    ensures Backward(SquareGraph(x), 1, vals, grads)[0] == Fin(2.0 * x)
  {
    var g := SquareGraph(x);
    BackwardOfTwo(g, vals, grads);
    var cs := [(0, Fin(x)), (0, Fin(x))];
    assert Contributions(g, 1, Fin(1.0), vals) == cs;
    ApplyTwo([Fin(0.0), Fin(1.0)], 0, Fin(x), 0, Fin(x));
  }

  // ---------------------------------------------------------------------------
  // Derived operators
  // ---------------------------------------------------------------------------

  /** `-x`: `x * -1`. */
  function NegGraph(x: real): Arena {
    [Leaf1(x), Leaf1(-1.0), Node(Mul(0, 1), [])]
  }

  lemma NegGraphBuilt(x: real)
    ensures ShapesConsistent([Leaf1(x)])
    ensures NegOp([Leaf1(x)], 0) == Ok((NegGraph(x), 2))
  {
    OneLeaf(x);
    var g0 := [Leaf1(x)];
    var r := NegOp(g0, 0);
    assert r.value.0 == g0 + [Leaf1(-1.0), Node(Mul(0, 1), [])] == NegGraph(x);
    assert r.value == (NegGraph(x), 2);
  }

  /** `(-x).backward()` gives `x` the gradient -1. */
  lemma NegGradient(x: real, vals: seq<Num>, grads: seq<Num>, bindings: map<string, Data>)
    requires |vals| == 3 && |grads| == 3
    requires WellFormed(NegGraph(x)) && vals[1] == Fin(-1.0)
    ensures Backward(NegGraph(x), 2, vals, grads)[0] == Fin(-1.0)
  {
    var g := NegGraph(x);
    var t := [0, 1, 2];
    NegTopo(x);
    var s := [Fin(0.0), Fin(0.0), Fin(1.0)];
    BackwardFrom(g, 2, vals, grads, t, s);
    var a := Times(vals[0], Fin(1.0));
    var cs := [(0, Fin(-1.0)), (1, a)];
    assert Contributions(g, 2, s[2], vals) == cs;
    ApplyTwo(s, 0, Fin(-1.0), 1, a);
    var s1 := [Fin(-1.0), Plus(Fin(0.0), a), Fin(1.0)];
    assert Apply(s, cs) == s1;
    PropagateStep(g, t, 3, vals, s, s1);
    LeavesHandOutNothing(g, t, 2, vals, s1);
  }

  lemma NegTopo(x: real)
    ensures WellFormed(NegGraph(x)) && Topo(NegGraph(x), 2) == [0, 1, 2]
  {
    var g := NegGraph(x);
    assert WellFormed(g);
    var s: set<nat> := {} + {2};
    VisitLeaf(g, 0, s, []);
    VisitLeaf(g, 1, s + {0}, [0]);
    VisitAllTwo(g, 0, 1, 2, s, []);
    assert Operands(g[2].op) == [0, 1];
    VisitInner(g, 2, {}, []);
    assert [] + [0] + [1] + [2] == [0, 1, 2];
  }

  /** `x - y`: `x + (y * -1)`. */
  function SubGraph(x: real, y: real): Arena {
    [Leaf1(x), Leaf1(y), Leaf1(-1.0), Node(Mul(1, 2), []), Node(Add(0, 3), [])]
  }

  lemma SubGraphBuilt(x: real, y: real)
    ensures ShapesConsistent([Leaf1(x), Leaf1(y)])
    ensures SubOp([Leaf1(x), Leaf1(y)], 0, Ref(1)) == Ok((SubGraph(x, y), 4))
  {
    TwoLeaves(x, y);
    var g0 := [Leaf1(x), Leaf1(y)];
    assert Broadcast([], []) == Ok([]);
    var n := NegOp(g0, 1).value.0;
    assert n == g0 + [Leaf1(-1.0), Node(Mul(1, 2), [])];
    var r := SubOp(g0, 0, Ref(1));
    assert r.value.0 == n + [Node(Add(0, 3), [])] == SubGraph(x, y);
    assert r.value == (SubGraph(x, y), 4);
  }

  /** `(x - y).backward()` gives `x` the gradient 1 and `y` the gradient -1. */
  lemma SubGradient(x: real, y: real, vals: seq<Num>, grads: seq<Num>, bindings: map<string, Data>)
    requires |vals| == 5 && |grads| == 5
    requires WellFormed(SubGraph(x, y)) && vals[2] == Fin(-1.0)
    ensures var r := Backward(SubGraph(x, y), 4, vals, grads);
      r[0] == Fin(1.0) && r[1] == Fin(-1.0)
  {
    var g := SubGraph(x, y);
    SubTopo(x, y);
    var s := [Fin(0.0), Fin(0.0), Fin(0.0), Fin(0.0), Fin(1.0)];
    BackwardFrom(g, 4, vals, grads, [0, 1, 2, 3, 4], s);
    SubPropagate(g, x, y, vals, s);
  }

  lemma SubPropagate(g: Arena, x: real, y: real, vals: seq<Num>, s: seq<Num>)
    requires g == SubGraph(x, y) && WellFormed(g) && |vals| == 5 && vals[2] == Fin(-1.0)
    requires s == [Fin(0.0), Fin(0.0), Fin(0.0), Fin(0.0), Fin(1.0)]
    ensures var r := Propagate(g, [0, 1, 2, 3, 4], 5, vals, s);
      r[0] == Fin(1.0) && r[1] == Fin(-1.0)
  {
    var t := [0, 1, 2, 3, 4];
    var cs := [(0, Fin(1.0)), (3, Fin(1.0))];
    assert Contributions(g, 4, Fin(1.0), vals) == cs;
    ApplyTwo(s, 0, Fin(1.0), 3, Fin(1.0));
    var s1 := [Fin(1.0), Fin(0.0), Fin(0.0), Fin(1.0), Fin(1.0)];
    assert Apply(s, cs) == s1;
    PropagateStep(g, t, 5, vals, s, s1);
    SubPropagateRest(g, x, y, vals, s1);
  }

  lemma SubPropagateRest(g: Arena, x: real, y: real, vals: seq<Num>, s1: seq<Num>)
    requires g == SubGraph(x, y) && WellFormed(g) && |vals| == 5 && vals[2] == Fin(-1.0)
    requires s1 == [Fin(1.0), Fin(0.0), Fin(0.0), Fin(1.0), Fin(1.0)]
    ensures var r := Propagate(g, [0, 1, 2, 3, 4], 4, vals, s1);
      r[0] == Fin(1.0) && r[1] == Fin(-1.0)
  {
    var t := [0, 1, 2, 3, 4];
    var a := Times(vals[1], Fin(1.0));
    var cs := [(1, Fin(-1.0)), (2, a)];
    assert Contributions(g, 3, Fin(1.0), vals) == cs;
    ApplyTwo(s1, 1, Fin(-1.0), 2, a);
    var s2 := [Fin(1.0), Fin(-1.0), Plus(Fin(0.0), a), Fin(1.0), Fin(1.0)];
    assert Apply(s1, cs) == s2;
    PropagateStep(g, t, 4, vals, s1, s2);
    LeavesHandOutNothing(g, t, 3, vals, s2);
  }

  lemma SubTopo(x: real, y: real)
    ensures WellFormed(SubGraph(x, y)) && Topo(SubGraph(x, y), 4) == [0, 1, 2, 3, 4]
  {
    var g := SubGraph(x, y);
    SubWellFormed(g, x, y);
    SubVisitParents(g, x, y);
    assert Operands(g[4].op) == [0, 3];
    VisitInner(g, 4, {}, []);
    assert [0, 1, 2, 3] + [4] == [0, 1, 2, 3, 4];
  }

  lemma SubWellFormed(g: Arena, x: real, y: real)
    requires g == SubGraph(x, y)
    ensures WellFormed(g)
  {
    forall i | 0 <= i < |g|
      ensures ParentsBefore(g, i) && (g[i].op.Input? ==> WellMade(g[i].op.leaf))
    {
    }
  }

  /** The parents of `x - y`, walked in turn: `x`, then `y * -1`. */
  lemma SubVisitParents(g: Arena, x: real, y: real)
    requires g == SubGraph(x, y) && WellFormed(g)
    ensures VisitAll(g, [0, 3], 4, {} + {4}, []).1 == [0, 1, 2, 3]
  {
    var s: set<nat> := {} + {4};
    VisitLeaf(g, 0, s, []);
    SubVisitScaled(g, x, y, s + {0});
    VisitAllTwo(g, 0, 3, 4, s, []);
  }

  /** Walking `y * -1` after `x` lists `y`, the constant, then the product. */
  lemma SubVisitScaled(g: Arena, x: real, y: real, s0: set<nat>)
    requires g == SubGraph(x, y) && WellFormed(g) && 1 !in s0 && 2 !in s0 && 3 !in s0
    ensures Visit(g, 3, s0, [0]).1 == [0, 1, 2, 3]
  {
    VisitLeaf(g, 1, s0 + {3}, [0]);
    VisitLeaf(g, 2, s0 + {3} + {1}, [0, 1]);
    VisitAllTwo(g, 1, 2, 3, s0 + {3}, [0]);
    assert Operands(g[3].op) == [1, 2];
    VisitInner(g, 3, s0, [0]);
    assert [0] + [1] + [2] + [3] == [0, 1, 2, 3];
  }

  /** `x / y`: `x * y ** -1`. */
  function DivGraph(x: real, y: real): Arena {
    [Leaf1(x), Leaf1(y), Node(Pow(1, -1), []), Node(Mul(0, 2), [])]
  }

  lemma DivGraphBuilt(x: real, y: real)
    ensures ShapesConsistent([Leaf1(x), Leaf1(y)])
    ensures DivOp([Leaf1(x), Leaf1(y)], 0, Ref(1)) == Ok((DivGraph(x, y), 3))
  {
    TwoLeaves(x, y);
    var g0 := [Leaf1(x), Leaf1(y)];
    assert Broadcast([], []) == Ok([]);
    var r := DivOp(g0, 0, Ref(1));
    assert r.value.0 == g0 + [Node(Pow(1, -1), []), Node(Mul(0, 2), [])] == DivGraph(x, y);
    assert r.value == (DivGraph(x, y), 3);
  }

  /** `(x / y).backward()` for a non-zero `y` gives `x` the gradient `1/y` and `y` the
      gradient `-x/y²`. */
  lemma DivGradient(x: real, y: real, vals: seq<Num>, grads: seq<Num>, bindings: map<string, Data>)
    requires y != 0.0
    requires |vals| == 4 && |grads| == 4 && WellFormed(DivGraph(x, y))
    requires vals[0] == Fin(x) && vals[1] == Fin(y) && Settled(DivGraph(x, y), 2, vals, bindings)
    ensures var r := Backward(DivGraph(x, y), 3, vals, grads);
      r[0] == Fin(1.0 / y) && r[1] == Fin(-x / (y * y))
  {
    var g := DivGraph(x, y);
    PowerMinusOneDivides(1.0, y);
    assert vals[2] == Fin(1.0 / y);
    DivTopo(x, y);
    var s := [Fin(0.0), Fin(0.0), Fin(0.0), Fin(1.0)];
    BackwardFrom(g, 3, vals, grads, [0, 1, 2, 3], s);
    DivPropagate(g, x, y, vals, s);
  }

  lemma DivPropagate(g: Arena, x: real, y: real, vals: seq<Num>, s: seq<Num>)
    requires y != 0.0 && g == DivGraph(x, y) && WellFormed(g) && |vals| == 4
    requires vals[0] == Fin(x) && vals[1] == Fin(y) && vals[2] == Fin(1.0 / y)
    requires s == [Fin(0.0), Fin(0.0), Fin(0.0), Fin(1.0)]
    ensures var r := Propagate(g, [0, 1, 2, 3], 4, vals, s);
      r[0] == Fin(1.0 / y) && r[1] == Fin(-x / (y * y))
  {
    var t := [0, 1, 2, 3];
    var cs := [(0, Fin(1.0 / y)), (2, Fin(x))];
    assert Contributions(g, 3, Fin(1.0), vals) == cs;
    ApplyTwo(s, 0, Fin(1.0 / y), 2, Fin(x));
    var s1 := [Fin(1.0 / y), Fin(0.0), Fin(x), Fin(1.0)];
    assert Apply(s, cs) == s1;
    PropagateStep(g, t, 4, vals, s, s1);
    DivPropagateRest(g, x, y, vals, s1);
  }

  lemma DivPropagateRest(g: Arena, x: real, y: real, vals: seq<Num>, s1: seq<Num>)
    requires y != 0.0 && g == DivGraph(x, y) && WellFormed(g) && |vals| == 4 && vals[1] == Fin(y)
    requires s1 == [Fin(1.0 / y), Fin(0.0), Fin(x), Fin(1.0)]
    ensures var r := Propagate(g, [0, 1, 2, 3], 3, vals, s1);
      r[0] == Fin(1.0 / y) && r[1] == Fin(-x / (y * y))
  {
    var t := [0, 1, 2, 3];
    InverseSquareDerivative(x, y);
    var cs := [(1, Fin(-x / (y * y)))];
    assert Contributions(g, 2, Fin(x), vals) == cs;
    ApplyOne(s1, 1, Fin(-x / (y * y)));
    var s2 := [Fin(1.0 / y), Fin(-x / (y * y)), Fin(x), Fin(1.0)];
    assert Apply(s1, cs) == s2;
    PropagateStep(g, t, 3, vals, s1, s2);
    LeavesHandOutNothing(g, t, 2, vals, s2);
  }

  /** The power rule at exponent -1: `-1 * y ** -2 * x == -x / y²`. */
  lemma InverseSquareDerivative(x: real, y: real)
    requires y != 0.0
    ensures Times(Times(Fin(-1.0), Power(Fin(y), -2)), Fin(x)) == Fin(-x / (y * y))
  {
    assert RealPow(y, 1) == y * RealPow(y, 0);
    assert RealPow(y, 2) == y * (y * 1.0);
    assert Power(Fin(y), -2) == Fin(1.0 / (y * y));
  }

  lemma DivTopo(x: real, y: real)
    ensures WellFormed(DivGraph(x, y)) && Topo(DivGraph(x, y), 3) == [0, 1, 2, 3]
  {
    var g := DivGraph(x, y);
    DivWellFormed(g, x, y);
    var s: set<nat> := {} + {3};
    VisitLeaf(g, 0, s, []);
    var s0 := s + {0};
    DivVisitInverse(g, x, y, s0);
    VisitAllTwo(g, 0, 2, 3, s, []);
    assert Operands(g[3].op) == [0, 2];
    VisitInner(g, 3, {}, []);
    assert [] + [0] == [0];
    assert [0, 1, 2] + [3] == [0, 1, 2, 3];
  }

  lemma DivWellFormed(g: Arena, x: real, y: real)
    requires g == DivGraph(x, y)
    ensures WellFormed(g)
  {
    forall i | 0 <= i < |g|
      ensures ParentsBefore(g, i) && (g[i].op.Input? ==> WellMade(g[i].op.leaf))
    {
    }
  }

  /** Visiting `y ** -1` after `x`: `y`, then the power node. */
  lemma DivVisitInverse(g: Arena, x: real, y: real, s0: set<nat>)
    requires g == DivGraph(x, y) && WellFormed(g) && 1 !in s0 && 2 !in s0
    ensures Visit(g, 2, s0, [0]).1 == [0, 1, 2]
  {
    VisitLeaf(g, 1, s0 + {2}, [0]);
    assert [1][1..] == [];
    assert VisitAll(g, [1], 2, s0 + {2}, [0]) == Visit(g, 1, s0 + {2}, [0]);
    assert Operands(g[2].op) == [1];
    VisitInner(g, 2, s0, [0]);
    assert [0] + [1] + [2] == [0, 1, 2];
  }

  /** `x ** 3`. */
  function CubeGraph(x: real): Arena {
    [Leaf1(x), Node(Pow(0, 3), [])]
  }

  lemma CubeGraphBuilt(x: real)
    ensures ShapesConsistent([Leaf1(x)])
    ensures PowOp([Leaf1(x)], 0, Number(3)) == Ok((CubeGraph(x), 1))
  {
    OneLeaf(x);
    var g0 := [Leaf1(x)];
    var r := PowOp(g0, 0, Number(3));
    assert r.value.0 == g0 + [Node(Pow(0, 3), [])] == CubeGraph(x);
    assert r.value == (CubeGraph(x), 1);
  }

  /** `(x ** 3).backward()` gives `x` the gradient `3x²`. */
  lemma CubeGradient(x: real, vals: seq<Num>, grads: seq<Num>, bindings: map<string, Data>)
    requires |vals| == 2 && |grads| == 2
    requires WellFormed(CubeGraph(x)) && vals[0] == Fin(x)
    ensures Backward(CubeGraph(x), 1, vals, grads)[0] == Fin(3.0 * x * x)
  {
    var g := CubeGraph(x);
    BackwardOfTwo(g, vals, grads);
    CubeDerivative(x);
    var cs := [(0, Fin(3.0 * x * x))];
    assert Contributions(g, 1, Fin(1.0), vals) == cs;
    ApplyOne([Fin(0.0), Fin(1.0)], 0, Fin(3.0 * x * x));
  }

  /** The power rule at exponent 3: `3 * x ** 2 * 1 == 3x²`. */
  lemma CubeDerivative(x: real)
    ensures Times(Times(Fin(3.0), Power(Fin(x), 2)), Fin(1.0)) == Fin(3.0 * x * x)
  {
    assert RealPow(x, 1) == x * RealPow(x, 0);
    assert RealPow(x, 2) == x * (x * 1.0);
  }

  /** `x.relu()`. */
  function ReluGraph(x: real): Arena {
    [Leaf1(x), Node(Relu(0), [])]
  }

  lemma ReluGraphBuilt(x: real)
    ensures ShapesConsistent([Leaf1(x)])
    ensures ReluOp([Leaf1(x)], 0) == Ok((ReluGraph(x), 1))
  {
    OneLeaf(x);
    var g0 := [Leaf1(x)];
    var r := ReluOp(g0, 0);
    assert r.value.0 == g0 + [Node(Relu(0), [])] == ReluGraph(x);
    assert r.value == (ReluGraph(x), 1);
  }

  /** `x.relu().backward()` gives `x` the gradient 1 where `x > 0` and 0 elsewhere,
      `x == 0` included. */
  lemma ReluGradient(x: real, vals: seq<Num>, grads: seq<Num>, bindings: map<string, Data>)
    requires |vals| == 2 && |grads| == 2 && WellFormed(ReluGraph(x))
    requires vals[0] == Fin(x) && Settled(ReluGraph(x), 1, vals, bindings)
    ensures Backward(ReluGraph(x), 1, vals, grads)[0] == if x > 0.0 then Fin(1.0) else Fin(0.0)
  {
    var g := ReluGraph(x);
    ReluOpens(x, vals, bindings);
    BackwardOfTwo(g, vals, grads);
    var a := if x > 0.0 then Fin(1.0) else Fin(0.0);
    var cs := [(0, a)];
    assert Contributions(g, 1, Fin(1.0), vals) == cs;
    ApplyOne([Fin(0.0), Fin(1.0)], 0, a);
  }

  /** The forward value of `x.relu()` is positive exactly when `x` is. */
  lemma ReluOpens(x: real, vals: seq<Num>, bindings: map<string, Data>)
    requires |vals| == 2 && WellFormed(ReluGraph(x))
    requires vals[0] == Fin(x) && Settled(ReluGraph(x), 1, vals, bindings)
    ensures Positive(vals[1]) <==> x > 0.0
  {
    assert vals[1] == Nums.Relu(Fin(x));
  }

  // ---------------------------------------------------------------------------
  // Four steps: L = (a * b + c) * f
  // ---------------------------------------------------------------------------

  /** `e = a * b; d = e + c; L = d * f` with `a = 2, b = -3, c = 10, f = -2`. */
  function StepsGraph(): Arena {
    [Leaf1(2.0), Leaf1(-3.0), Leaf1(10.0), Leaf1(-2.0),
     Node(Mul(0, 1), []), Node(Add(4, 2), []), Node(Mul(5, 3), [])]
  }

  /** The data a forward pass leaves in `StepsGraph`: `e = -6, d = 4, L = -8`. */
  function StepsData(): seq<Num> {
    [Fin(2.0), Fin(-3.0), Fin(10.0), Fin(-2.0), Fin(-6.0), Fin(4.0), Fin(-8.0)]
  }

  lemma StepsGraphBuilt()
    ensures var g0 := [Leaf1(2.0), Leaf1(-3.0), Leaf1(10.0), Leaf1(-2.0)];
      ShapesConsistent(g0) &&
      MulOp(g0, 0, Ref(1)) == Ok((g0 + [Node(Mul(0, 1), [])], 4)) &&
      ShapesConsistent(g0 + [Node(Mul(0, 1), [])]) &&
      AddOp(g0 + [Node(Mul(0, 1), [])], 4, Ref(2)) == Ok((StepsGraph()[..6], 5)) &&
      ShapesConsistent(StepsGraph()[..6]) &&
      MulOp(StepsGraph()[..6], 5, Ref(3)) == Ok((StepsGraph(), 6))
  {
    var g0 := [Leaf1(2.0), Leaf1(-3.0), Leaf1(10.0), Leaf1(-2.0)];
    assert ShapesConsistent(g0) by {
      forall i | 0 <= i < |g0|
        ensures ParentsBefore(g0, i) && (g0[i].op.Input? ==> WellMade(g0[i].op.leaf))
      {
      }
      forall i | 0 <= i < |g0|
        ensures NodeConsistent(g0, i)
      {
      }
    }
    assert g0 + [Node(Mul(0, 1), [])] + [Node(Add(4, 2), [])] == StepsGraph()[..6];
    assert StepsGraph()[..6] + [Node(Mul(5, 3), [])] == StepsGraph();
  }

  /** `L.forward()` computes `e = -6, d = 4, L = -8` from the leaves' data `2, -3, 10, -2`,
      whatever data the three computed nodes held before. */
  lemma StepsForward(vals: seq<Num>, bindings: map<string, Data>)
    requires |vals| == 7 && StepsLeavesHold(vals)
    ensures WellFormed(StepsGraph()) && Forward(StepsGraph(), 6, vals, bindings) == Ok(StepsData())
  {
    var g := StepsGraph();
    StepsTopo(g);
    assert StepsOrder()[0..] == StepsOrder();
    StepsForwardFrom(g, 0, vals, bindings);
  }

  /** The pass over the order's suffix `t[k..]`, once the nodes before it hold their
      settled data, leaves every node settled. */
  lemma {:induction false} StepsForwardFrom(g: Arena, k: nat, vals: seq<Num>, bindings: map<string, Data>)
    requires g == StepsGraph() && WellFormed(g) && k <= 7 && |vals| == 7
    requires StepsLeavesHold(vals) && StepsSettledUpTo(k, vals)
    ensures ForwardOver(g, StepsOrder()[k..], vals, bindings) == Ok(StepsData())
    decreases 7 - k
  {
    var t := StepsOrder();
    if k == 7 {
      StepsAllSettled(vals);
    } else {
      var x := StepsData()[t[k]];
      StepsStep(g, k, vals, bindings);
      assert StepsLeavesHold(vals[t[k] := x]) by {
        if t[k] < 4 {
          assert x == vals[t[k]];
        }
      }
      ForwardOverStep(g, t[k..], vals, bindings, x);
      assert t[k..][1..] == t[k + 1..];
      StepsForwardFrom(g, k + 1, vals[t[k] := x], bindings);
    }
  }

  /** The order the walk from `L` gives. */
  function StepsOrder(): seq<nat> {
    [0, 1, 4, 2, 5, 3, 6]
  }

  /** The data nodes `a, b, c, f` hold `2, -3, 10, -2`. */
  predicate StepsLeavesHold(vals: seq<Num>)
    requires |vals| == 7
  {
    vals[0] == Fin(2.0) && vals[1] == Fin(-3.0) && vals[2] == Fin(10.0) && vals[3] == Fin(-2.0)
  }

  /** The first `k` nodes of the order hold their settled data. */
  predicate StepsSettledUpTo(k: nat, vals: seq<Num>)
    requires k <= 7 && |vals| == 7
  {
    forall j :: 0 <= j < k ==> vals[StepsOrder()[j]] == StepsData()[StepsOrder()[j]]
  }

  lemma StepsAllSettled(vals: seq<Num>)
    requires |vals| == 7 && StepsSettledUpTo(7, vals)
    ensures vals == StepsData()
  {
    var t := StepsOrder();
    assert forall j :: 0 <= j < 7 ==> vals[t[j]] == StepsData()[t[j]];
    assert vals[t[0]] == StepsData()[t[0]] && vals[t[1]] == StepsData()[t[1]];
    assert vals[t[2]] == StepsData()[t[2]] && vals[t[3]] == StepsData()[t[3]];
    assert vals[t[4]] == StepsData()[t[4]] && vals[t[5]] == StepsData()[t[5]];
    assert vals[t[6]] == StepsData()[t[6]];
  }

  /** Processing the `k`-th node of the order gives it its settled data. */
  lemma StepsStep(g: Arena, k: nat, vals: seq<Num>, bindings: map<string, Data>)
    requires g == StepsGraph() && WellFormed(g) && k < 7 && |vals| == 7
    requires StepsLeavesHold(vals) && StepsSettledUpTo(k, vals)
    ensures NodeValue(g, StepsOrder()[k], vals, bindings) == Ok(StepsData()[StepsOrder()[k]])
    ensures StepsSettledUpTo(k + 1, vals[StepsOrder()[k] := StepsData()[StepsOrder()[k]]])
  {
    var t := StepsOrder();
    var v := t[k];
    if v == 4 {
      assert vals[t[0]] == StepsData()[t[0]] && vals[t[1]] == StepsData()[t[1]];
    } else if v == 5 {
      assert vals[t[2]] == StepsData()[t[2]] && vals[t[3]] == StepsData()[t[3]];
    } else if v == 6 {
      assert vals[t[4]] == StepsData()[t[4]] && vals[t[5]] == StepsData()[t[5]];
    }
    StepsNodeValue(g, v, vals, bindings);
    var vals' := vals[v := StepsData()[v]];
    forall j | 0 <= j < k + 1
      ensures vals'[t[j]] == StepsData()[t[j]]
    {
    }
  }

  /** Each node's value, once its parents hold their settled data. */
  lemma StepsNodeValue(g: Arena, v: nat, vals: seq<Num>, bindings: map<string, Data>)
    requires g == StepsGraph() && WellFormed(g) && v < 7 && |vals| == 7
    requires v < 4 ==> vals[v] == StepsData()[v]
    requires v == 4 ==> vals[0] == Fin(2.0) && vals[1] == Fin(-3.0)
    requires v == 5 ==> vals[4] == Fin(-6.0) && vals[2] == Fin(10.0)
    requires v == 6 ==> vals[5] == Fin(4.0) && vals[3] == Fin(-2.0)
    ensures NodeValue(g, v, vals, bindings) == Ok(StepsData()[v])
  {
  }

  /** `L.backward()` after the forward pass: `a` gets 6, `b` gets -4, `c` gets -2, `f`
      gets 4, `e` gets -2, `d` gets -2, and `L` itself 1. */
  lemma StepsGradients(grads: seq<Num>)
    requires |grads| == 7
    ensures WellFormed(StepsGraph())
    ensures Backward(StepsGraph(), 6, StepsData(), grads) ==
      [Fin(6.0), Fin(-4.0), Fin(-2.0), Fin(4.0), Fin(-2.0), Fin(-2.0), Fin(1.0)]
  {
    var g, t := StepsGraph(), StepsOrder();
    StepsTopo(g);
    BackwardOn(g, 6, StepsData(), grads, t);
    var s7 := Seed(t, 6, grads);
    StepsSeed(grads, s7);
    StepsBackL(g, s7);
    StepsBackD(g);
    StepsBackE(g);
  }

  /** Seeding `L` sets it to 1 and every node it depends on to 0. */
  lemma StepsSeed(grads: seq<Num>, s7: seq<Num>)
    requires |grads| == 7 && s7 == Seed(StepsOrder(), 6, grads)
    ensures s7 == [Fin(0.0), Fin(0.0), Fin(0.0), Fin(0.0), Fin(0.0), Fin(0.0), Fin(1.0)]
  {
    var t := StepsOrder();
    assert t == [0, 1, 4, 2, 5, 3, 6];
    assert forall v :: 0 <= v < 7 ==> v in t;
  }

  /** `L = d * f`: `d` gets `f`, `f` gets `d`; then the leaf `f` hands out nothing. */
  lemma StepsBackL(g: Arena, s7: seq<Num>)
    requires g == StepsGraph() && WellFormed(g)
    requires s7 == [Fin(0.0), Fin(0.0), Fin(0.0), Fin(0.0), Fin(0.0), Fin(0.0), Fin(1.0)]
    ensures Propagate(g, StepsOrder(), 7, StepsData(), s7) ==
      Propagate(g, StepsOrder(), 5, StepsData(), [Fin(0.0), Fin(0.0), Fin(0.0), Fin(4.0), Fin(0.0), Fin(-2.0), Fin(1.0)])
  {
    var t, vals := StepsOrder(), StepsData();
    var cs := [(5, Fin(-2.0)), (3, Fin(4.0))];
    assert Contributions(g, 6, Fin(1.0), vals) == cs;
    ApplyTwo(s7, 5, Fin(-2.0), 3, Fin(4.0));
    var s6 := [Fin(0.0), Fin(0.0), Fin(0.0), Fin(4.0), Fin(0.0), Fin(-2.0), Fin(1.0)];
    assert Apply(s7, cs) == s6;
    PropagateStep(g, t, 7, vals, s7, s6);
    assert Contributions(g, 3, Fin(4.0), vals) == [];
    assert Apply(s6, []) == s6;
    PropagateStep(g, t, 6, vals, s6, s6);
  }

  /** `d = e + c`: both get `d`'s gradient; then the leaf `c` hands out nothing. */
  lemma StepsBackD(g: Arena)
    requires g == StepsGraph() && WellFormed(g)
    ensures Propagate(g, StepsOrder(), 5, StepsData(), [Fin(0.0), Fin(0.0), Fin(0.0), Fin(4.0), Fin(0.0), Fin(-2.0), Fin(1.0)]) ==
      Propagate(g, StepsOrder(), 3, StepsData(), [Fin(0.0), Fin(0.0), Fin(-2.0), Fin(4.0), Fin(-2.0), Fin(-2.0), Fin(1.0)])
  {
    var t, vals := StepsOrder(), StepsData();
    var s6 := [Fin(0.0), Fin(0.0), Fin(0.0), Fin(4.0), Fin(0.0), Fin(-2.0), Fin(1.0)];
    var cs := [(4, Fin(-2.0)), (2, Fin(-2.0))];
    assert Contributions(g, 5, Fin(-2.0), vals) == cs;
    ApplyTwo(s6, 4, Fin(-2.0), 2, Fin(-2.0));
    var s4 := [Fin(0.0), Fin(0.0), Fin(-2.0), Fin(4.0), Fin(-2.0), Fin(-2.0), Fin(1.0)];
    assert Apply(s6, cs) == s4;
    PropagateStep(g, t, 5, vals, s6, s4);
    assert Contributions(g, 2, Fin(-2.0), vals) == [];
    assert Apply(s4, []) == s4;
    PropagateStep(g, t, 4, vals, s4, s4);
  }

  /** `e = a * b`: `a` gets `b` times `e`'s gradient, `b` gets `a` times it; then the
      leaves `b` and `a` hand out nothing. */
  lemma StepsBackE(g: Arena)
    requires g == StepsGraph() && WellFormed(g)
    ensures Propagate(g, StepsOrder(), 3, StepsData(), [Fin(0.0), Fin(0.0), Fin(-2.0), Fin(4.0), Fin(-2.0), Fin(-2.0), Fin(1.0)]) ==
      [Fin(6.0), Fin(-4.0), Fin(-2.0), Fin(4.0), Fin(-2.0), Fin(-2.0), Fin(1.0)]
  {
    var t, vals := StepsOrder(), StepsData();
    var s4 := [Fin(0.0), Fin(0.0), Fin(-2.0), Fin(4.0), Fin(-2.0), Fin(-2.0), Fin(1.0)];
    var cs := [(0, Fin(6.0)), (1, Fin(-4.0))];
    assert Contributions(g, 4, Fin(-2.0), vals) == cs;
    ApplyTwo(s4, 0, Fin(6.0), 1, Fin(-4.0));
    var s2 := [Fin(6.0), Fin(-4.0), Fin(-2.0), Fin(4.0), Fin(-2.0), Fin(-2.0), Fin(1.0)];
    assert Apply(s4, cs) == s2;
    PropagateStep(g, t, 3, vals, s4, s2);
    LeavesHandOutNothing(g, t, 2, vals, s2);
  }

  /** The walk from `L` visits `d`, then `e`, `a`, `b`, then `c`, then `f`. */
  lemma StepsTopo(g: Arena)
    requires g == StepsGraph()
    ensures WellFormed(g) && Topo(g, 6) == [0, 1, 4, 2, 5, 3, 6]
  {
    StepsWellFormed(g);
    StepsVisitE(g);
    StepsVisitD(g);
    StepsVisitL(g);
  }

  lemma StepsWellFormed(g: Arena)
    requires g == StepsGraph()
    ensures WellFormed(g)
  {
    forall i | 0 <= i < |g|
      ensures ParentsBefore(g, i) && (g[i].op.Input? ==> WellMade(g[i].op.leaf))
    {
    }
  }

  lemma StepsVisitL(g: Arena)
    requires g == StepsGraph() && WellFormed(g)
    requires Visit(g, 5, {6}, []) == ({6, 5, 4, 0, 1, 2}, [0, 1, 4, 2, 5])
    ensures Visit(g, 6, {}, []).1 == [0, 1, 4, 2, 5, 3, 6]
  {
    StepsVisitParents(g);
    assert {} + {6} == {6};
    assert Operands(g[6].op) == [5, 3];
    VisitInner(g, 6, {}, []);
    assert [0, 1, 4, 2, 5, 3] + [6] == [0, 1, 4, 2, 5, 3, 6];
  }

  /** The parents of `L`, walked in turn: `d`, then `f`. */
  lemma StepsVisitParents(g: Arena)
    requires g == StepsGraph() && WellFormed(g)
    requires Visit(g, 5, {6}, []) == ({6, 5, 4, 0, 1, 2}, [0, 1, 4, 2, 5])
    ensures VisitAll(g, [5, 3], 6, {6}, []).1 == [0, 1, 4, 2, 5, 3]
  {
    VisitLeaf(g, 3, {6, 5, 4, 0, 1, 2}, [0, 1, 4, 2, 5]);
    VisitAllTwo(g, 5, 3, 6, {6}, []);
  }

  lemma StepsVisitE(g: Arena)
    requires g == StepsGraph() && WellFormed(g)
    ensures Visit(g, 4, {6, 5}, []) == ({6, 5, 4, 0, 1}, [0, 1, 4])
  {
    var s3: set<nat> := {6, 5} + {4};
    VisitLeaf(g, 0, s3, []);
    VisitLeaf(g, 1, s3 + {0}, [0]);
    VisitAllTwo(g, 0, 1, 4, s3, []);
    assert Operands(g[4].op) == [0, 1];
    VisitInner(g, 4, {6, 5}, []);
    assert [] + [0] + [1] + [4] == [0, 1, 4];
    assert s3 + {0} + {1} == {6, 5, 4, 0, 1};
  }

  lemma StepsVisitD(g: Arena)
    requires g == StepsGraph() && WellFormed(g)
    requires Visit(g, 4, {6, 5}, []) == ({6, 5, 4, 0, 1}, [0, 1, 4])
    ensures Visit(g, 5, {6}, []) == ({6, 5, 4, 0, 1, 2}, [0, 1, 4, 2, 5])
  {
    var s: set<nat> := {6, 5, 4, 0, 1};
    assert {6} + {5} == {6, 5};
    VisitLeaf(g, 2, s, [0, 1, 4]);
    VisitAllTwo(g, 4, 2, 5, {6, 5}, []);
    assert Operands(g[5].op) == [4, 2];
    VisitInner(g, 5, {6}, []);
    assert [0, 1, 4] + [2] + [5] == [0, 1, 4, 2, 5];
    assert s + {2} == {6, 5, 4, 0, 1, 2};
  }

  // ---------------------------------------------------------------------------
  // Shape operators on one-element tensors: transpose, sum, mean, matmul
  // ---------------------------------------------------------------------------

  /** `x.T`. */
  function TransposeGraph(x: real): Arena {
    [Leaf1(x), Node(Transpose(0), [])]
  }

  lemma TransposeGraphBuilt(x: real)
    ensures ShapesConsistent([Leaf1(x)])
    ensures TransposeOp([Leaf1(x)], 0) == Ok((TransposeGraph(x), 1))
  {
    OneLeaf(x);
    var g0 := [Leaf1(x)];
    assert Reverse(g0[0].shape) == [];
    var r := TransposeOp(g0, 0);
    assert r.value.0 == g0 + [Node(Transpose(0), [])] == TransposeGraph(x);
  }

  /** `x.T.forward()` gives `x`, and `x.T.backward()` gives `x` the gradient 1. */
  lemma TransposeGradient(x: real, vals: seq<Num>, grads: seq<Num>, bindings: map<string, Data>)
    requires |vals| == 2 && |grads| == 2 && WellFormed(TransposeGraph(x))
    requires vals[0] == Fin(x) && Settled(TransposeGraph(x), 1, vals, bindings)
    ensures vals[1] == Fin(x)
    ensures Backward(TransposeGraph(x), 1, vals, grads)[0] == Fin(1.0)
  {
    var g := TransposeGraph(x);
    assert NodeValue(g, 1, vals, bindings) == Ok(vals[0]);
    BackwardOfTwo(g, vals, grads);
    assert Contributions(g, 1, Fin(1.0), vals) == [(0, Fin(1.0))];
    ApplyOne([Fin(0.0), Fin(1.0)], 0, Fin(1.0));
  }

  /** `x.sum()`. */
  function SumGraph(x: real): Arena {
    [Leaf1(x), Node(Sum(0, AllAxes), [])]
  }

  lemma SumGraphBuilt(x: real)
    ensures ShapesConsistent([Leaf1(x)])
    ensures SumOp([Leaf1(x)], 0, AllAxes) == Ok((SumGraph(x), 1))
  {
    OneLeaf(x);
    var g0 := [Leaf1(x)];
    SumAllAxes(g0[0].shape);
    assert SumShape(g0[0].shape, AllAxes) == Ok([]);
    var r := SumOp(g0, 0, AllAxes);
    assert r.value.0 == g0 + [Node(Sum(0, AllAxes), [])] == SumGraph(x);
  }

  /** `x.sum().forward()` gives `x`, and `x.sum().backward()` gives `x` the gradient 1. */
  lemma SumGradient(x: real, vals: seq<Num>, grads: seq<Num>, bindings: map<string, Data>)
    requires |vals| == 2 && |grads| == 2 && WellFormed(SumGraph(x))
    requires vals[0] == Fin(x) && Settled(SumGraph(x), 1, vals, bindings)
    ensures vals[1] == Fin(x)
    ensures Backward(SumGraph(x), 1, vals, grads)[0] == Fin(1.0)
  {
    var g := SumGraph(x);
    assert NodeValue(g, 1, vals, bindings) == Ok(vals[0]);
    BackwardOfTwo(g, vals, grads);
    assert Contributions(g, 1, Fin(1.0), vals) == [(0, Fin(1.0))];
    ApplyOne([Fin(0.0), Fin(1.0)], 0, Fin(1.0));
  }

  /** `x.mean()` on a scalar: `x.sum() * (1 / 1)`. */
  function MeanGraph(x: real): Arena {
    [Leaf1(x), Node(Sum(0, AllAxes), []), Leaf1(1.0), Node(Mul(1, 2), [])]
  }

  lemma MeanGraphBuilt(x: real)
    ensures ShapesConsistent([Leaf1(x)])
    ensures MeanOp([Leaf1(x)], 0, AllAxes) == Ok((MeanGraph(x), 3))
  {
    OneLeaf(x);
    var g0 := [Leaf1(x)];
    SumAllAxes(g0[0].shape);
    assert MeanDenominator(g0[0].shape, AllAxes) == Ok(1);
    assert Reciprocal(1) == Fin(1.0);
    var r := MeanOp(g0, 0, AllAxes);
    assert r.value.0 == g0 + [Node(Sum(0, AllAxes), []), Const(Scalar(Fin(1.0))), Node(Mul(1, 2), [])];
    assert r.value.0 == MeanGraph(x);
  }

  /** `x.mean().backward()` on a scalar gives `x` the gradient 1: the sum passes on what the
      factor `1 / 1` hands it. */
  lemma MeanGradient(x: real, vals: seq<Num>, grads: seq<Num>)
    requires |vals| == 4 && |grads| == 4 && WellFormed(MeanGraph(x)) && vals[2] == Fin(1.0)
    ensures Backward(MeanGraph(x), 3, vals, grads)[0] == Fin(1.0)
  {
    var g := MeanGraph(x);
    MeanTopo(x);
    var s := [Fin(0.0), Fin(0.0), Fin(0.0), Fin(1.0)];
    BackwardFrom(g, 3, vals, grads, [0, 1, 2, 3], s);
    MeanPropagate(g, x, vals, s);
  }

  lemma MeanPropagate(g: Arena, x: real, vals: seq<Num>, s: seq<Num>)
    requires g == MeanGraph(x) && WellFormed(g) && |vals| == 4 && vals[2] == Fin(1.0)
    requires s == [Fin(0.0), Fin(0.0), Fin(0.0), Fin(1.0)]
    ensures Propagate(g, [0, 1, 2, 3], 4, vals, s)[0] == Fin(1.0)
  {
    var t := [0, 1, 2, 3];
    var a := Times(vals[1], Fin(1.0));
    var cs := [(1, Fin(1.0)), (2, a)];
    assert Contributions(g, 3, Fin(1.0), vals) == cs;
    ApplyTwo(s, 1, Fin(1.0), 2, a);
    var s1 := [Fin(0.0), Fin(1.0), Plus(Fin(0.0), a), Fin(1.0)];
    assert Apply(s, cs) == s1;
    PropagateStep(g, t, 4, vals, s, s1);
    MeanPropagateRest(g, x, vals, s1);
  }

  lemma MeanPropagateRest(g: Arena, x: real, vals: seq<Num>, s1: seq<Num>)
    requires g == MeanGraph(x) && WellFormed(g) && |vals| == 4 && |s1| == 4
    requires s1[0] == Fin(0.0) && s1[1] == Fin(1.0)
    ensures Propagate(g, [0, 1, 2, 3], 3, vals, s1)[0] == Fin(1.0)
  {
    var t := [0, 1, 2, 3];
    assert Contributions(g, 2, s1[2], vals) == [];
    assert Apply(s1, []) == s1;
    PropagateStep(g, t, 3, vals, s1, s1);
    assert Contributions(g, 1, s1[1], vals) == [(0, Fin(1.0))];
    ApplyOne(s1, 0, Fin(1.0));
    var s2 := s1[0 := Fin(1.0)];
    PropagateStep(g, t, 2, vals, s1, s2);
    LeavesHandOutNothing(g, t, 1, vals, s2);
  }

  lemma MeanTopo(x: real)
    ensures WellFormed(MeanGraph(x)) && Topo(MeanGraph(x), 3) == [0, 1, 2, 3]
  {
    var g := MeanGraph(x);
    assert WellFormed(g) by {
      forall i | 0 <= i < |g|
        ensures ParentsBefore(g, i) && (g[i].op.Input? ==> WellMade(g[i].op.leaf))
      {
      }
    }
    var s: set<nat> := {} + {3};
    VisitLeaf(g, 0, s + {1}, []);
    assert [0][1..] == [];
    assert VisitAll(g, [0], 1, s + {1}, []) == Visit(g, 0, s + {1}, []);
    assert Operands(g[1].op) == [0];
    VisitInner(g, 1, s, []);
    assert [] + [0] + [1] == [0, 1];
    VisitLeaf(g, 2, s + {1} + {0}, [0, 1]);
    VisitAllTwo(g, 1, 2, 3, s, []);
    assert Operands(g[3].op) == [1, 2];
    VisitInner(g, 3, {}, []);
    assert [0, 1] + [2] + [3] == [0, 1, 2, 3];
  }

  /** A data node holding the one-element vector `[x]`. */
  function Leaf1D(x: real): Node {
    Const(Data([1], [Fin(x)]))
  }

  /** `x @ y` on two one-element vectors: a depth-1 `tensordot`, giving a scalar. */
  function MatmulGraph(x: real, y: real): Arena {
    [Leaf1D(x), Leaf1D(y), Node(Tensordot(0, 1, 1), [])]
  }

  lemma MatmulGraphBuilt(x: real, y: real)
    ensures ShapesConsistent([Leaf1D(x), Leaf1D(y)])
    ensures MatmulOp([Leaf1D(x), Leaf1D(y)], 0, Ref(1)) == Ok((MatmulGraph(x, y), 2))
  {
    var g0 := [Leaf1D(x), Leaf1D(y)];
    assert Product([1]) == 1;
    assert ShapesConsistent(g0) by {
      assert ParentsBefore(g0, 0) && ParentsBefore(g0, 1);
      assert NodeConsistent(g0, 0) && NodeConsistent(g0, 1);
    }
    assert OperandShape(g0, Ref(1)) == [1] && Slot(g0, Ref(1)) == 1;
    var r := MatmulOp(g0, 0, Ref(1));
    assert r.value.0[2] == Node(Tensordot(0, 1, 1), []);
    assert r.value.0 == MatmulGraph(x, y);
  }

  /** `(x @ y).forward()` gives `x * y`, and `(x @ y).backward()` gives `x` the gradient `y`
      and `y` the gradient `x`. */
  lemma MatmulGradient(x: real, y: real, vals: seq<Num>, grads: seq<Num>, bindings: map<string, Data>)
    requires |vals| == 3 && |grads| == 3 && WellFormed(MatmulGraph(x, y))
    requires vals[0] == Fin(x) && vals[1] == Fin(y) && Settled(MatmulGraph(x, y), 2, vals, bindings)
    ensures vals[2] == Fin(x * y)
    ensures var r := Backward(MatmulGraph(x, y), 2, vals, grads);
      r[0] == Fin(y) && r[1] == Fin(x)
  {
    var g := MatmulGraph(x, y);
    var t := [0, 1, 2];
    assert g[2].op == Tensordot(0, 1, 1);
    assert NodeValue(g, 2, vals, bindings) == Ok(Times(Fin(x), Fin(y)));
    MatmulTopo(x, y);
    var s := [Fin(0.0), Fin(0.0), Fin(1.0)];
    BackwardFrom(g, 2, vals, grads, t, s);
    var cs := [(0, Fin(y)), (1, Fin(x))];
    assert Contributions(g, 2, s[2], vals) == cs;
    ApplyTwo(s, 0, Fin(y), 1, Fin(x));
    var s1 := [Fin(y), Fin(x), Fin(1.0)];
    assert Apply(s, cs) == s1;
    PropagateStep(g, t, 3, vals, s, s1);
    LeavesHandOutNothing(g, t, 2, vals, s1);
  }

  lemma MatmulTopo(x: real, y: real)
    ensures WellFormed(MatmulGraph(x, y)) && Topo(MatmulGraph(x, y), 2) == [0, 1, 2]
  {
    var g := MatmulGraph(x, y);
    assert Product([1]) == 1;
    assert WellFormed(g) by {
      forall i | 0 <= i < |g|
        ensures ParentsBefore(g, i) && (g[i].op.Input? ==> WellMade(g[i].op.leaf))
      {
      }
    }
    var s: set<nat> := {} + {2};
    VisitLeaf(g, 0, s, []);
    VisitLeaf(g, 1, s + {0}, [0]);
    VisitAllTwo(g, 0, 1, 2, s, []);
    assert Operands(g[2].op) == [0, 1];
    VisitInner(g, 2, {}, []);
    assert [] + [0] + [1] + [2] == [0, 1, 2];
  }
}

=== FILE: graph.dfy ===
/** The computation graph as an arena: nodes live in a sequence in creation order and
    refer to the nodes they were computed from (their parents, `_prev`) by index. */
module Graph {
  import opened Shapes
  import opened Tensors

  /** What produced a node, with the operand indices and parameters its forward and
      backward rules need. `Input` is a `Value` made by the constructor: a data node or a
      named placeholder. */
  datatype Op =
    | Input(leaf: Leaf)
    | Add(a: nat, b: nat)
    | Mul(a: nat, b: nat)
    | Pow(a: nat, e: int)
    | Transpose(a: nat)
    | Relu(a: nat)
    | Sum(a: nat, axis: AxisArg)
    | Tensordot(a: nat, b: nat, k: nat)

  /** A node: its operation and its (fixed) shape. */
  datatype Node = Node(op: Op, shape: Shape)

  type Arena = seq<Node>

  /** The operand slots of an operation, in order; `_prev` is the set of these. */
  function Operands(op: Op): seq<nat> {
    match op
    case Input(_) => []
    case Add(a, b) => [a, b]
    case Mul(a, b) => [a, b]
    case Pow(a, _) => [a]
    case Transpose(a) => [a]
    case Relu(a) => [a]
    case Sum(a, _) => [a]
    case Tensordot(a, b, _) => [a, b]
  }

  /** Node `i` only refers to nodes created before it. */
  predicate ParentsBefore(g: Arena, i: nat)
    requires i < |g|
  {
    forall p :: p in Operands(g[i].op) ==> p < i
  }

  /** An arena as the operators build it: append-only, so every node's parents come before
      it (and the graph is acyclic), and every leaf is one the constructor could make. */
  predicate WellFormed(g: Arena) {
    forall i :: 0 <= i < |g| ==> ParentsBefore(g, i) && (g[i].op.Input? ==> WellMade(g[i].op.leaf))
  }

  /** Every node reachable from `v` through parent links, `v` included. */
  function Ancestors(g: Arena, v: nat): (r: set<nat>)
    requires WellFormed(g) && v < |g|
    ensures v in r
    ensures forall a :: a in r ==> a <= v
    decreases v + 1, 0
  {
    assert ParentsBefore(g, v);
    var ps := Operands(g[v].op);
    assert forall j :: 0 <= j < |ps| ==> ps[j] in ps;
    {v} + AncestorsOf(g, ps, v)
  }

  /** Every node reachable from some node of `vs`. */
  function AncestorsOf(g: Arena, vs: seq<nat>, bound: nat): (r: set<nat>)
    requires WellFormed(g) && bound <= |g|
    requires forall i :: 0 <= i < |vs| ==> vs[i] < bound
    ensures forall a :: a in r ==> a < bound
    ensures forall i :: 0 <= i < |vs| ==> vs[i] in r
    decreases bound, |vs|
  {
    if vs == [] then {}
    else Ancestors(g, vs[0]) + AncestorsOf(g, vs[1..], bound)
  }

  /** `AncestorsOf` is a union: it holds exactly the ancestors of the listed nodes. */
  lemma {:induction false} AncestorsOfMembers(g: Arena, vs: seq<nat>, bound: nat, a: nat)
    requires WellFormed(g) && bound <= |g|
    requires forall i :: 0 <= i < |vs| ==> vs[i] < bound
    ensures a in AncestorsOf(g, vs, bound) <==> exists i :: 0 <= i < |vs| && a in Ancestors(g, vs[i])
    decreases |vs|
  {
    if vs != [] {
      AncestorsOfMembers(g, vs[1..], bound, a);
      if a in AncestorsOf(g, vs[1..], bound) {
        var i :| 0 <= i < |vs[1..]| && a in Ancestors(g, vs[1..][i]);
        assert a in Ancestors(g, vs[i + 1]);
      }
      if exists i :: 0 <= i < |vs| && a in Ancestors(g, vs[i]) {
        var i :| 0 <= i < |vs| && a in Ancestors(g, vs[i]);
        if i > 0 {
          assert vs[1..][i - 1] == vs[i];
        }
      }
    }
  }

  /** Reachability, one step at a time: the ancestors of `v` are `v` and the ancestors of
      its parents. */
  lemma AncestorsStep(g: Arena, v: nat, a: nat)
    requires WellFormed(g) && v < |g|
    ensures a in Ancestors(g, v) <==>
      a == v || exists p :: p in Operands(g[v].op) && a in Ancestors(g, p)
  {
    assert ParentsBefore(g, v);
    var ps := Operands(g[v].op);
    assert forall j :: 0 <= j < |ps| ==> ps[j] in ps;
    AncestorsOfMembers(g, ps, v, a);
    if exists p :: p in ps && a in Ancestors(g, p) {
      var p :| p in ps && a in Ancestors(g, p);
      var i :| 0 <= i < |ps| && ps[i] == p;
    }
  }
}

=== FILE: nums.dfy ===
/** Exact scalar arithmetic standing in for numpy's float64 scalars.
    `NaN` stands for every non-finite float: nan, +inf and -inf are one value here. */
module Nums {

  datatype Num = Fin(r: real) | NaN

  function Plus(x: Num, y: Num): Num {
    if x.Fin? && y.Fin? then Fin(x.r + y.r) else NaN
  }

  function Times(x: Num, y: Num): Num {
    if x.Fin? && y.Fin? then Fin(x.r * y.r) else NaN
  }

  /** `x ** n` for a non-negative integer power of a real. */
  function RealPow(x: real, n: nat): (r: real)
    ensures x != 0.0 ==> r != 0.0
  {
    if n == 0 then 1.0 else x * RealPow(x, n - 1)
  }

  /** numpy's float `x ** n` for an integer `n`: a negative power of zero is infinite,
      and every power 0 of anything, nan included, is 1. */
  function Power(x: Num, n: int): (r: Num)
    ensures n == 0 ==> r == Fin(1.0)
    ensures x.Fin? && n > 0 ==> r.Fin?
    ensures x.Fin? && n < 0 ==> (r.Fin? <==> x.r != 0.0)
    ensures x.NaN? && n != 0 ==> r.NaN?
  {
    if n == 0 then Fin(1.0)
    else if x.NaN? then NaN
    else if n > 0 then Fin(RealPow(x.r, n))
    else if x.r == 0.0 then NaN
    else Fin(1.0 / RealPow(x.r, -n))
  }

  /** numpy's `maximum(x, 0)`; nan wins the comparison. */
  function Relu(x: Num): Num {
    if x.NaN? then NaN else if x.r > 0.0 then x else Fin(0.0)
  }

  /** numpy's `x > 0`; every comparison with nan is false. */
  predicate Positive(x: Num) {
    x.Fin? && x.r > 0.0
  }

  function Negate(x: Num): Num {
    Times(x, Fin(-1.0))
  }

  /** Multiplying by the -1 power divides, for a non-zero divisor. */
  lemma {:induction false} PowerMinusOneDivides(a: real, b: real)
    requires b != 0.0
    ensures Times(Fin(a), Power(Fin(b), -1)) == Fin(a / b)
  {
    assert RealPow(b, 1) == b * RealPow(b, 0);
  }
}

=== FILE: operators.dfy ===
/** The operator library: each operator appends a new node to the arena, wired to its
    operands, with the output shape numpy would give it; operands that are not nodes are
    first wrapped as constant nodes. The derived operators (negation, subtraction,
    division, reflected forms, `@`, `mean`) are built from the elementary ones exactly as
    the `Value` class builds them. */
module Operators {
  import opened Results
  import opened Nums
  import opened Shapes
  import opened Tensors
  import opened Graph

  /** Every operand of `op` is below `n`, stated field by field. */
  predicate FieldsBelow(op: Op, n: nat) {
    (!op.Input? ==> op.a < n) && (op.Add? || op.Mul? || op.Tensordot? ==> op.b < n)
  }

  /** In a well-formed arena the operands of node `c` come before it. */
  lemma FieldsBelowOf(g: Arena, c: nat)
    requires WellFormed(g) && c < |g|
    ensures FieldsBelow(g[c].op, c)
  {
    assert ParentsBefore(g, c);
    var op := g[c].op;
    if !op.Input? {
      assert op.a in Operands(op);
    }
    if op.Add? || op.Mul? || op.Tensordot? {
      assert op.b in Operands(op);
    }
  }

  /** The shape numpy gives the result of `op`, from its operands' shapes. */
  function InferShape(g: Arena, op: Op): Result<Shape>
    requires FieldsBelow(op, |g|)
  {
    match op
    case Input(l) => Ok(l.shape)
    case Add(a, b) => Broadcast(g[a].shape, g[b].shape)
    case Mul(a, b) => Broadcast(g[a].shape, g[b].shape)
    case Pow(a, _) => Ok(g[a].shape)
    case Transpose(a) => Ok(Reverse(g[a].shape))
    case Relu(a) => Ok(g[a].shape)
    case Sum(a, axis) => SumShape(g[a].shape, axis)
    case Tensordot(a, b, k) => TensordotShape(g[a].shape, g[b].shape, k)
  }

  /** Every node's recorded shape is the one its operation gives it. */
  predicate ShapesConsistent(g: Arena) {
    WellFormed(g) && forall i :: 0 <= i < |g| ==> NodeConsistent(g, i)
  }

  predicate NodeConsistent(g: Arena, i: nat)
    requires WellFormed(g) && i < |g|
  {
    FieldsBelowOf(g, i);
    InferShape(g, g[i].op) == Ok(g[i].shape)
  }

  /** Inferred shapes only look at operands, so they survive extending the arena. */
  lemma InferShapeExtends(g: Arena, g': Arena, op: Op)
    requires FieldsBelow(op, |g|) && |g| <= |g'| && g'[..|g|] == g
    ensures InferShape(g', op) == InferShape(g, op)
  {
    if !op.Input? {
      assert g'[op.a] == g[op.a];
    }
    if op.Add? || op.Mul? || op.Tensordot? {
      assert g'[op.b] == g[op.b];
    }
  }

  /** The arena after a successful construction step: `g` extended, the new node last. */
  predicate Grows(g: Arena, g': Arena, out: nat) {
    |g| < |g'| && g'[..|g|] == g && out == |g'| - 1 && ShapesConsistent(g')
  }

  lemma PrefixTrans(a: Arena, b: Arena, c: Arena)
    requires |a| <= |b| <= |c| && b[..|a|] == a && c[..|b|] == b
    ensures c[..|a|] == a
  {
    assert c[..|a|] == c[..|b|][..|a|];
  }

  /** Appending a node for `op`, whose operands already exist, refusing it when numpy would
      refuse its shapes. */
  function Append(g: Arena, op: Op): (r: Result<(Arena, nat)>)
    requires ShapesConsistent(g) && FieldsBelow(op, |g|)
    requires op.Input? ==> WellMade(op.leaf)
    ensures r.Ok? <==> InferShape(g, op).Ok?
    ensures r.Err? ==> r.error == InferShape(g, op).error
    ensures r.Ok? ==> r.value == (g + [Node(op, InferShape(g, op).value)], |g|)
    ensures r.Ok? ==> Grows(g, r.value.0, r.value.1)
  {
    match InferShape(g, op)
    case Err(e) => Err(e)
    case Ok(s) =>
      AppendConsistent(g, Node(op, s));
      var g' := g + [Node(op, s)];
      assert g'[..|g|] == g;
      Ok((g', |g|))
  }

  lemma AppendConsistent(g: Arena, n: Node)
    requires ShapesConsistent(g) && FieldsBelow(n.op, |g|)
    requires n.op.Input? ==> WellMade(n.op.leaf)
    requires InferShape(g, n.op) == Ok(n.shape)
    ensures ShapesConsistent(g + [n])
  {
    var g' := g + [n];
    assert g'[..|g|] == g;
    forall i | 0 <= i < |g'|
      ensures ParentsBefore(g', i) && (g'[i].op.Input? ==> WellMade(g'[i].op.leaf))
    {
      if i < |g| {
        assert ParentsBefore(g, i);
      }
    }
    forall i | 0 <= i < |g'|
      ensures NodeConsistent(g', i)
    {
      if i < |g| {
        assert NodeConsistent(g, i);
        FieldsBelowOf(g, i);
        InferShapeExtends(g, g', g[i].op);
      } else {
        InferShapeExtends(g, g', n.op);
      }
    }
  }

  /** A binary operator's right operand: an existing node, or a plain array or number. */
  datatype Operand = Ref(i: nat) | Lit(d: Data)

  predicate OperandOk(g: Arena, y: Operand) {
    match y
    case Ref(i) => i < |g|
    case Lit(d) => Valid(d)
  }

  function OperandShape(g: Arena, y: Operand): Shape
    requires OperandOk(g, y)
  {
    match y
    case Ref(i) => g[i].shape
    case Lit(d) => d.shape
  }

  /** The constant node `Value(c, _op='c')` a literal is wrapped in. */
  function Const(d: Data): Node {
    Node(Input(Leaf(d, None, d.shape)), d.shape)
  }

  /** The node index an operand ends up at: its own, or that of the constant wrapping it. */
  function Slot(g: Arena, y: Operand): nat {
    if y.Ref? then y.i else |g|
  }

  /** `other if isinstance(other, Value) else Value(other, _op='c')`: a literal becomes a new
      constant node of its own shape. */
  function Wrap(g: Arena, y: Operand): (r: (Arena, nat))
    requires ShapesConsistent(g) && OperandOk(g, y)
    ensures r.1 == Slot(g, y)
    ensures r.0 == if y.Ref? then g else g + [Const(y.d)]
    ensures ShapesConsistent(r.0) && |g| <= |r.0| && r.0[..|g|] == g
    ensures r.1 < |r.0| && r.0[r.1].shape == OperandShape(g, y)
  {
    match y
    case Ref(i) =>
      assert g[..|g|] == g;
      (g, i)
    case Lit(d) =>
      var leaf := NewValue(ArrayData(d), None, NoShape).value;
      Append(g, Input(leaf)).value
  }

  /** `x + y` (lines 51-58): refused unless the operands broadcast; the output has their
      broadcast shape. */
  function AddOp(g: Arena, x: nat, y: Operand): (r: Result<(Arena, nat)>)
    requires ShapesConsistent(g) && x < |g| && OperandOk(g, y)
    ensures r.Ok? <==> Broadcast(g[x].shape, OperandShape(g, y)).Ok?
    ensures r.Err? ==> r.error == ShapeMismatch
    ensures r.Ok? ==> Grows(g, r.value.0, r.value.1)
    ensures r.Ok? ==>
      r.value.0 == Wrap(g, y).0 + [Node(Add(x, Slot(g, y)), Broadcast(g[x].shape, OperandShape(g, y)).value)]
  {
    var w := Wrap(g, y);
    assert w.0[x] == g[x];
    var r :- Append(w.0, Add(x, w.1));
    PrefixTrans(g, w.0, r.0);
    Ok(r)
  }

  /** `x * y` (lines 77-84): refused unless the operands broadcast; the output has their
      broadcast shape. */
  function MulOp(g: Arena, x: nat, y: Operand): (r: Result<(Arena, nat)>)
    requires ShapesConsistent(g) && x < |g| && OperandOk(g, y)
    ensures r.Ok? <==> Broadcast(g[x].shape, OperandShape(g, y)).Ok?
    ensures r.Err? ==> r.error == ShapeMismatch
    ensures r.Ok? ==> Grows(g, r.value.0, r.value.1)
    ensures r.Ok? ==>
      r.value.0 == Wrap(g, y).0 + [Node(Mul(x, Slot(g, y)), Broadcast(g[x].shape, OperandShape(g, y)).value)]
  {
    var w := Wrap(g, y);
    assert w.0[x] == g[x];
    var r :- Append(w.0, Mul(x, w.1));
    PrefixTrans(g, w.0, r.0);
    Ok(r)
  }

  /** The exponent given to `**`: a plain int or float, or anything else. The model's
      exponents are integers. */
  datatype PowArg = Number(n: int) | NotNumber

  /** `x ** e` (lines 103-111): only a plain number is accepted as exponent; the output has
      the operand's shape. */
  function PowOp(g: Arena, x: nat, e: PowArg): (r: Result<(Arena, nat)>)
    requires ShapesConsistent(g) && x < |g|
    ensures r.Ok? <==> e.Number?
    ensures r.Err? ==> r.error == UnsupportedOperandType
    ensures r.Ok? ==> Grows(g, r.value.0, r.value.1)
    ensures r.Ok? ==> r.value.0 == g + [Node(Pow(x, e.n), g[x].shape)]
  {
    match e
    case NotNumber => Err(UnsupportedOperandType)
    case Number(n) => Append(g, Pow(x, n))
  }

  /** `x.T` (lines 119-125): the axes reversed. */
  function TransposeOp(g: Arena, x: nat): (r: Result<(Arena, nat)>)
    requires ShapesConsistent(g) && x < |g|
    ensures r.Ok? && Grows(g, r.value.0, r.value.1)
    ensures r.value.0 == g + [Node(Transpose(x), Reverse(g[x].shape))]
  {
    Append(g, Transpose(x))
  }

  /** `x.relu()` (lines 137-142): shape-preserving. */
  function ReluOp(g: Arena, x: nat): (r: Result<(Arena, nat)>)
    requires ShapesConsistent(g) && x < |g|
    ensures r.Ok? && Grows(g, r.value.0, r.value.1)
    ensures r.value.0 == g + [Node(Relu(x), g[x].shape)]
  {
    Append(g, Relu(x))
  }

  /** `x.sum(axis)` (lines 221-236): refused when an axis is out of range or repeated; the
      output drops the reduced axes. */
  function SumOp(g: Arena, x: nat, axis: AxisArg): (r: Result<(Arena, nat)>)
    requires ShapesConsistent(g) && x < |g|
    ensures r.Ok? <==> ReducedAxes(|g[x].shape|, axis).Ok?
    ensures r.Err? ==> r.error == AxisError
    ensures r.Ok? ==> Grows(g, r.value.0, r.value.1)
    ensures r.Ok? ==>
      r.value.0 == g + [Node(Sum(x, axis), Keep(g[x].shape, ReducedAxes(|g[x].shape|, axis).value))]
  {
    Append(g, Sum(x, axis))
  }

  /** The constant `1 / denom` that `mean` multiplies by; a zero denominator gives infinity. */
  function Reciprocal(d: nat): Num {
    if d == 0 then NaN else Fin(1.0 / d as real)
  }

  /** Broadcasting against a scalar leaves a shape unchanged. */
  lemma BroadcastScalar(s: Shape)
    ensures Broadcast(s, []) == Ok(s)
  {
  }

  /** `x.mean(axis)` (lines 249-254): `denom` is computed first (refusing an axis `take`
      cannot find), then the node is `x.sum(axis) * (1 / denom)`. The output has `sum`'s
      shape, and `denom` times the output's element count is the input's element count. */
  function MeanOp(g: Arena, x: nat, axis: AxisArg): (r: Result<(Arena, nat)>)
    requires ShapesConsistent(g) && x < |g|
    ensures r.Ok? <==> SumShape(g[x].shape, axis).Ok?
    ensures r.Err? ==> r.error == AxisError
    ensures r.Ok? ==> Grows(g, r.value.0, r.value.1)
    ensures r.Ok? ==>
      var out := SumShape(g[x].shape, axis).value;
      var d := MeanDenominator(g[x].shape, axis).value;
      r.value.0 == g + [Node(Sum(x, axis), out), Const(Scalar(Reciprocal(d))), Node(Mul(|g|, |g| + 1), out)] &&
      d * Product(out) == Product(g[x].shape)
  {
    var d :- MeanDenominator(g[x].shape, axis);
    var (g1, s) :- SumOp(g, x, axis);
    MeanDenominatorCountsReduced(g[x].shape, axis);
    BroadcastScalar(g1[s].shape);
    var (g2, o) := MulOp(g1, s, Lit(Scalar(Reciprocal(d)))).value;
    PrefixTrans(g, g1, g2);
    Ok((g2, o))
  }

  /** `-x` (lines 296-297): `x * -1`, the -1 a scalar constant. */
  function NegOp(g: Arena, x: nat): (r: Result<(Arena, nat)>)
    requires ShapesConsistent(g) && x < |g|
    ensures r.Ok? && Grows(g, r.value.0, r.value.1)
    ensures r.value.0 == g + [Const(Scalar(Fin(-1.0))), Node(Mul(x, |g|), g[x].shape)]
  {
    BroadcastScalar(g[x].shape);
    MulOp(g, x, Lit(Scalar(Fin(-1.0))))
  }

  function MapCells(d: Data, f: Num -> Num): (r: Data)
    requires Valid(d)
    ensures Valid(r) && r.shape == d.shape
    ensures forall i :: 0 <= i < |r.cells| ==> r.cells[i] == f(d.cells[i])
  {
    Data(d.shape, seq(|d.cells|, i requires 0 <= i < |d.cells| => f(d.cells[i])))
  }

  /** `x - y` (lines 302-303): `x + (-y)`. A node `y` is negated by a new `y * -1` node; a
      literal is negated element-wise before it is wrapped. */
  function SubOp(g: Arena, x: nat, y: Operand): (r: Result<(Arena, nat)>)
    requires ShapesConsistent(g) && x < |g| && OperandOk(g, y)
    ensures r.Ok? <==> Broadcast(g[x].shape, OperandShape(g, y)).Ok?
    ensures r.Err? ==> r.error == ShapeMismatch
    ensures r.Ok? ==> Grows(g, r.value.0, r.value.1)
    ensures r.Ok? && y.Ref? ==>
      var n := NegOp(g, y.i).value.0;
      r.value.0 == n + [Node(Add(x, |g| + 1), Broadcast(g[x].shape, g[y.i].shape).value)]
    ensures r.Ok? && y.Lit? ==>
      var c := MapCells(y.d, Negate);
      r.value.0 == g + [Const(c), Node(Add(x, |g|), Broadcast(g[x].shape, c.shape).value)]
  {
    match y
    case Ref(j) =>
      var (g1, n) := NegOp(g, j).value;
      assert g1[x] == g[x];
      var r :- AddOp(g1, x, Ref(n));
      PrefixTrans(g, g1, r.0);
      Ok(r)
    case Lit(d) => AddOp(g, x, Lit(MapCells(d, Negate)))
  }

  /** `x / y` (lines 311-312): `x * y ** -1`. A node `y` gets a new `y ** -1` node; a
      literal is inverted element-wise before it is wrapped. */
  function DivOp(g: Arena, x: nat, y: Operand): (r: Result<(Arena, nat)>)
    requires ShapesConsistent(g) && x < |g| && OperandOk(g, y)
    ensures r.Ok? <==> Broadcast(g[x].shape, OperandShape(g, y)).Ok?
    ensures r.Err? ==> r.error == ShapeMismatch
    ensures r.Ok? ==> Grows(g, r.value.0, r.value.1)
    ensures r.Ok? && y.Ref? ==>
      r.value.0 == g + [Node(Pow(y.i, -1), g[y.i].shape),
                        Node(Mul(x, |g|), Broadcast(g[x].shape, g[y.i].shape).value)]
    ensures r.Ok? && y.Lit? ==>
      var c := MapCells(y.d, Inverse);
      r.value.0 == g + [Const(c), Node(Mul(x, |g|), Broadcast(g[x].shape, c.shape).value)]
  {
    match y
    case Ref(j) =>
      var (g1, p) := PowOp(g, j, Number(-1)).value;
      assert g1[x] == g[x];
      var r :- MulOp(g1, x, Ref(p));
      PrefixTrans(g, g1, r.0);
      Ok(r)
    case Lit(d) => MulOp(g, x, Lit(MapCells(d, Inverse)))
  }

  /** `c ** -1` on a plain number or array. */
  function Inverse(c: Num): Num {
    Power(c, -1)
  }

  /** `c + x` (lines 299-300): `x + c`. */
  function RAddOp(g: Arena, x: nat, c: Data): (r: Result<(Arena, nat)>)
    requires ShapesConsistent(g) && x < |g| && Valid(c) && c.shape == []
    ensures r.Ok?
    ensures r == AddOp(g, x, Lit(c))
    ensures r.Ok? <==> Broadcast(g[x].shape, c.shape).Ok?
    ensures r.Ok? ==> r.value.0 == g + [Const(c), Node(Add(x, |g|), Broadcast(g[x].shape, c.shape).value)]
    ensures r.Ok? ==> r.value.1 == |g| + 1
    ensures r.value.0[r.value.1].shape == g[x].shape
  {
    assert Wrap(g, Lit(c)).0 == g + [Const(c)] && OperandShape(g, Lit(c)) == c.shape && Slot(g, Lit(c)) == |g|;
    AddOp(g, x, Lit(c))
  }

  /** `c - x` (lines 305-306): `(-x) + c`. */
  function RSubOp(g: Arena, x: nat, c: Data): (r: Result<(Arena, nat)>)
    requires ShapesConsistent(g) && x < |g| && Valid(c) && c.shape == []
    ensures r.Ok?
    ensures r.Ok? <==> Broadcast(g[x].shape, c.shape).Ok?
    ensures r.Ok? ==> Grows(g, r.value.0, r.value.1)
    ensures r.Ok? ==>
      r.value.0 == NegOp(g, x).value.0 +
        [Const(c), Node(Add(|g| + 1, |g| + 2), Broadcast(g[x].shape, c.shape).value)]
    ensures r.value.0[r.value.1].shape == g[x].shape
  {
    var (g1, n) := NegOp(g, x).value;
    var r := AddOp(g1, n, Lit(c)).value;
    PrefixTrans(g, g1, r.0);
    Ok(r)
  }

  /** `c * x` (lines 308-309): `x * c`. */
  function RMulOp(g: Arena, x: nat, c: Data): (r: Result<(Arena, nat)>)
    requires ShapesConsistent(g) && x < |g| && Valid(c) && c.shape == []
    ensures r.Ok?
    ensures r == MulOp(g, x, Lit(c))
    ensures r.Ok? <==> Broadcast(g[x].shape, c.shape).Ok?
    ensures r.Ok? ==> r.value.0 == g + [Const(c), Node(Mul(x, |g|), Broadcast(g[x].shape, c.shape).value)]
    ensures r.Ok? ==> r.value.1 == |g| + 1
    ensures r.value.0[r.value.1].shape == g[x].shape
  {
    assert Wrap(g, Lit(c)).0 == g + [Const(c)] && OperandShape(g, Lit(c)) == c.shape && Slot(g, Lit(c)) == |g|;
    MulOp(g, x, Lit(c))
  }

  /** `c / x` (lines 314-315): `x ** -1 * c`. */
  function RDivOp(g: Arena, x: nat, c: Data): (r: Result<(Arena, nat)>)
    requires ShapesConsistent(g) && x < |g| && Valid(c) && c.shape == []
    ensures r.Ok?
    ensures r.Ok? <==> Broadcast(g[x].shape, c.shape).Ok?
    ensures r.Ok? ==> Grows(g, r.value.0, r.value.1)
    ensures r.Ok? ==>
      r.value.0 == g + [Node(Pow(x, -1), g[x].shape), Const(c),
                        Node(Mul(|g|, |g| + 1), Broadcast(g[x].shape, c.shape).value)]
    ensures r.value.0[r.value.1].shape == g[x].shape
  {
    var (g1, p) := PowOp(g, x, Number(-1)).value;
    var r := MulOp(g1, p, Lit(c)).value;
    PrefixTrans(g, g1, r.0);
    Ok(r)
  }

  /** `tensordot(left, right, k)` (lines 324-356): the depth is checked against both ranks
      before either operand is wrapped, then numpy requires the paired axes to agree. The
      output node contracts the two (possibly wrapped) operands. */
  function TensordotOp(g: Arena, left: Operand, right: Operand, k: int): (r: Result<(Arena, nat)>)
    requires ShapesConsistent(g) && OperandOk(g, left) && OperandOk(g, right)
    ensures r.Ok? <==> TensordotShape(OperandShape(g, left), OperandShape(g, right), k).Ok?
    ensures r.Err? ==> r.error == ShapeMismatch
    ensures !(0 <= k <= |OperandShape(g, left)| && k <= |OperandShape(g, right)|) ==> r == Err(ShapeMismatch)
    ensures r.Ok? ==> Grows(g, r.value.0, r.value.1)
    ensures r.Ok? ==>
      var w := Wrap(g, left).0;
      r.value.0[r.value.1] ==
        Node(Tensordot(Slot(g, left), Slot(w, right), k),
             TensordotShape(OperandShape(g, left), OperandShape(g, right), k).value)
  {
    if !(0 <= k && k <= |OperandShape(g, left)| && k <= |OperandShape(g, right)|) then
      Err(ShapeMismatch)
    else
      TensordotBuild(g, left, right, k)
  }

  function TensordotBuild(g: Arena, left: Operand, right: Operand, k: nat): (r: Result<(Arena, nat)>)
    requires ShapesConsistent(g) && OperandOk(g, left) && OperandOk(g, right)
    ensures r.Ok? <==> TensordotShape(OperandShape(g, left), OperandShape(g, right), k).Ok?
    ensures r.Err? ==> r.error == ShapeMismatch
    ensures r.Ok? ==> Grows(g, r.value.0, r.value.1)
    ensures r.Ok? ==>
      var w := Wrap(g, left).0;
      r.value.0[r.value.1] ==
        Node(Tensordot(Slot(g, left), Slot(w, right), k),
             TensordotShape(OperandShape(g, left), OperandShape(g, right), k).value)
  {
    WrapBoth(g, left, right);
    var (g1, l) := Wrap(g, left);
    var (g2, rr) := Wrap(g1, right);
    var r :- Append(g2, Tensordot(l, rr, k));
    PrefixTrans(g, g2, r.0);
    Ok(r)
  }

  /** Wrapping both operands of a binary operator in turn: both end up as nodes of the
      grown arena, with their own shapes. */
  lemma WrapBoth(g: Arena, left: Operand, right: Operand)
    requires ShapesConsistent(g) && OperandOk(g, left) && OperandOk(g, right)
    ensures var (g1, l) := Wrap(g, left);
      OperandOk(g1, right) &&
      var (g2, rr) := Wrap(g1, right);
      ShapesConsistent(g2) && |g| <= |g2| && g2[..|g|] == g && l < |g2| && rr < |g2| &&
      g2[l].shape == OperandShape(g, left) && g2[rr].shape == OperandShape(g, right)
  {
    var (g1, l) := Wrap(g, left);
    assert OperandOk(g1, right) && OperandShape(g1, right) == OperandShape(g, right);
    var (g2, rr) := Wrap(g1, right);
    assert g2[l] == g1[l];
    PrefixTrans(g, g1, g2);
  }

  /** `x @ y` (lines 317-318): depth-1 `tensordot`. */
  function MatmulOp(g: Arena, x: nat, y: Operand): (r: Result<(Arena, nat)>)
    requires ShapesConsistent(g) && x < |g| && OperandOk(g, y)
    ensures r == TensordotOp(g, Ref(x), y, 1)
    ensures |g[x].shape| == 0 || |OperandShape(g, y)| == 0 ==> r == Err(ShapeMismatch)
    ensures r.Ok? <==>
      0 < |g[x].shape| && 0 < |OperandShape(g, y)| &&
      g[x].shape[|g[x].shape| - 1] == OperandShape(g, y)[0]
    ensures r.Ok? ==>
      r.value.0[r.value.1] ==
        Node(Tensordot(x, Slot(g, y), 1),
             g[x].shape[..|g[x].shape| - 1] + OperandShape(g, y)[1..])
  {
    TensordotOp(g, Ref(x), y, 1)
  }

  // ---------------------------------------------------------------------------
  // Shapes of the backward contributions
  // ---------------------------------------------------------------------------

  function Reduced(out: Shape, operand: Shape): Result<Shape> {
    if |operand| <= |out| then Ok(ReduceToOperand(out, operand)) else Err(ShapeMismatch)
  }

  /** The shape of the term `op`'s backward rule adds into each operand slot's gradient,
      given the operands' shapes and the output's, with add and mul reducing as intended
      (`ReduceToOperand`); `Err` marks a term numpy could not form. */
  function TermShapes(op: Op, sa: Shape, sb: Shape, out: Shape): seq<Result<Shape>> {
    match op
    case Input(_) => []
    case Add(_, _) => [Reduced(out, sa), Reduced(out, sb)]
    case Mul(_, _) =>
      [ match Broadcast(sb, out) case Ok(t) => Reduced(t, sa) case Err(e) => Err(e),
        match Broadcast(sa, out) case Ok(t) => Reduced(t, sb) case Err(e) => Err(e) ]
    case Pow(_, _) => [Broadcast(sa, out)]
    case Transpose(_) => [Ok(Reverse(out))]
    case Relu(_) => [Ok(out)]
    case Sum(_, axis) =>
      [ match ReducedAxes(|sa|, axis)
        case Err(e) => Err(e)
        case Ok(ax) =>
          if |out| == |sa| - CountBelow(ax, |sa|) then Broadcast(Expand(out, ax, |sa|), sa)
          else Err(ShapeMismatch) ]
    case Tensordot(_, _, k) =>
      [ TensordotShape(out, Reverse(sb), |sb| - k), TensordotShape(Reverse(sa), out, |sa| - k) ]
  }

  /** Whenever numpy accepts an operation on operands of shapes `sa` (and `sb`), every term
      of its backward rule has exactly the shape of the gradient buffer it is added into:
      the operand's own shape. */
  lemma TermShapesFit(op: Op, sa: Shape, sb: Shape, out: Shape)
    requires !op.Input?
    requires InferShapeOf(op, sa, sb) == Ok(out)
    ensures var ts := TermShapes(op, sa, sb, out);
      |ts| == |Operands(op)| && ts[0] == Ok(sa) && (|ts| == 2 ==> ts[1] == Ok(sb))
  {
    match op
    case Add(_, _) =>
      ReduceToOperandFits(sa, sb);
      BroadcastCommutes(sa, sb);
      ReduceToOperandFits(sb, sa);
    case Mul(_, _) =>
      BroadcastAbsorbs(sa, sb);
      ReduceToOperandFits(sa, sb);
      BroadcastCommutes(sa, sb);
      ReduceToOperandFits(sb, sa);
    case Pow(_, _) =>
      BroadcastSelf(out);
    case Transpose(_) =>
      ReverseInvolutive(sa);
    case Relu(_) =>
    case Sum(_, axis) =>
      SumGradShapeRestores(sa, ReducedAxes(|sa|, axis).value);
    case Tensordot(_, _, k) =>
      TensordotGradientShapes(sa, sb, k);
  }

  /** `InferShape` on explicit operand shapes. */
  function InferShapeOf(op: Op, sa: Shape, sb: Shape): Result<Shape> {
    match op
    case Input(l) => Ok(l.shape)
    case Add(_, _) => Broadcast(sa, sb)
    case Mul(_, _) => Broadcast(sa, sb)
    case Pow(_, _) => Ok(sa)
    case Transpose(_) => Ok(Reverse(sa))
    case Relu(_) => Ok(sa)
    case Sum(_, axis) => SumShape(sa, axis)
    case Tensordot(_, _, k) => TensordotShape(sa, sb, k)
  }

  /** In an arena the operators built, the backward terms of node `c` fit its parents. */
  lemma ContributionShapesFit(g: Arena, c: nat)
    requires ShapesConsistent(g) && c < |g| && !g[c].op.Input?
    ensures FieldsBelow(g[c].op, |g|)
    ensures var op := g[c].op;
      var sb := if op.Add? || op.Mul? || op.Tensordot? then g[op.b].shape else [];
      var ts := TermShapes(op, g[op.a].shape, sb, g[c].shape);
      |ts| == |Operands(op)| && ts[0] == Ok(g[op.a].shape) && (|ts| == 2 ==> ts[1] == Ok(sb))
  {
    FieldsBelowOf(g, c);
    assert NodeConsistent(g, c);
    var op := g[c].op;
    var sb := if op.Add? || op.Mul? || op.Tensordot? then g[op.b].shape else [];
    assert InferShapeOf(op, g[op.a].shape, sb) == InferShape(g, op);
    TermShapesFit(op, g[op.a].shape, sb, g[c].shape);
  }

  lemma BroadcastCommutes(a: Shape, b: Shape)
    ensures Broadcast(a, b) == Broadcast(b, a)
  {
    var r1, r2 := Broadcast(a, b), Broadcast(b, a);
    if r1.Ok? && r2.Ok? {
      EqualFromRight(r1.value, r2.value);
    }
  }

  lemma BroadcastSelf(s: Shape)
    ensures Broadcast(s, s) == Ok(s)
  {
    EqualFromRight(Broadcast(s, s).value, s);
  }
}

=== FILE: results.dfy ===
/** The failure conditions of the engine and a Result type that carries them. */
module Results {

  /** Why a construction or evaluation step is refused.
      - InvalidConstruction: the constructor's data-xor-name/shape rule is broken.
      - ShapeMismatch: a bound placeholder has the wrong shape, operands cannot be
        broadcast, or a contraction's depth or paired axis sizes do not fit.
      - UnsupportedOperandType: a power whose exponent is not a plain number.
      - AxisError: a reduction axis outside the operand's rank, or given twice. */
  datatype Error = InvalidConstruction | ShapeMismatch | UnsupportedOperandType | AxisError

  datatype Result<+T> = Ok(value: T) | Err(error: Error) {
    predicate IsFailure() {
      Err?
    }

    function PropagateFailure<U>(): Result<U>
      requires Err?
    {
      Err(error)
    }

    function Extract(): T
      requires Ok?
    {
      value
    }
  }

  datatype Option<+T> = None | Some(value: T)
}

=== FILE: shapes.dfy ===
/** Shape calculus of the engine: what numpy's broadcasting, reductions, transposes and
    contractions do to shapes, and the axis bookkeeping `Value` performs around them.
    Tensor contents are not represented here; only their shapes. */
module Shapes {
  import opened Results

  /** A tensor shape: one size per axis, outermost first; `[]` is a scalar. */
  type Shape = seq<nat>

  function Max(a: nat, b: nat): nat {
    if a < b then b else a
  }

  /** Number of elements of a tensor of shape `s` (numpy's `prod(shape)`, 1 for a scalar). */
  function Product(s: Shape): (n: nat)
    ensures n == 0 <==> exists i :: 0 <= i < |s| && s[i] == 0
  {
    if s == [] then 1
    else
      var front := s[..|s| - 1];
      assert forall i :: 0 <= i < |front| ==> front[i] == s[i];
      Product(front) * s[|s| - 1]
  }

  /** `tuple(range(n))` as a sequence of axes. */
  function Range(n: nat): (r: seq<nat>)
    ensures |r| == n
    ensures forall i :: 0 <= i < n ==> r[i] == i
  {
    seq(n, i => i)
  }

  // ---------------------------------------------------------------------------
  // Broadcasting
  // ---------------------------------------------------------------------------

  /** Size of axis `k` counted from the right, a missing leading axis reading as 1
      (numpy aligns shapes at their last axis). */
  function DimFromRight(s: Shape, k: nat): nat {
    if k < |s| then s[|s| - 1 - k] else 1
  }

  /** Two axis sizes broadcast together when they agree or one of them is 1. */
  predicate DimsCompatible(x: nat, y: nat) {
    x == y || x == 1 || y == 1
  }

  /** The size two compatible axes broadcast to. */
  function JoinDim(x: nat, y: nat): nat {
    if x == 1 then y else x
  }

  lemma DimFromRightFront(s: Shape, k: nat)
    requires s != [] && k > 0
    ensures DimFromRight(s, k) == DimFromRight(s[..|s| - 1], k - 1)
  {
  }

  /** Two shapes with the same rank and the same size at every axis are equal. */
  lemma EqualFromRight(r: Shape, s: Shape)
    requires |r| == |s|
    requires forall k :: 0 <= k < |r| ==> DimFromRight(r, k) == DimFromRight(s, k)
    ensures r == s
  {
    forall i | 0 <= i < |r|
      ensures r[i] == s[i]
    {
      assert DimFromRight(r, |r| - 1 - i) == DimFromRight(s, |r| - 1 - i);
    }
  }

  /** numpy's broadcast of two shapes: aligned at the last axis, each pair of sizes must be
      compatible, and the result takes the larger rank and the non-1 size at every axis. */
  function Broadcast(a: Shape, b: Shape): (r: Result<Shape>)
    ensures r.Ok? <==>
      forall k :: 0 <= k < Max(|a|, |b|) ==> DimsCompatible(DimFromRight(a, k), DimFromRight(b, k))
    ensures r.Ok? ==> |r.value| == Max(|a|, |b|)
    ensures r.Ok? ==>
      forall k :: 0 <= k < |r.value| ==>
        DimFromRight(r.value, k) == JoinDim(DimFromRight(a, k), DimFromRight(b, k))
    ensures r.Err? ==> r.error == ShapeMismatch
    decreases |a| + |b|
  {
    if a == [] then
      assert forall k :: 0 <= k < |b| ==> DimFromRight(a, k) == 1;
      Ok(b)
    else if b == [] then
      assert forall k :: 0 <= k < |a| ==> DimFromRight(b, k) == 1;
      Ok(a)
    else
      var x, y := a[|a| - 1], b[|b| - 1];
      if !DimsCompatible(x, y) then
        assert DimFromRight(a, 0) == x && DimFromRight(b, 0) == y;
        Err(ShapeMismatch)
      else
        var a', b' := a[..|a| - 1], b[..|b| - 1];
        assert forall k :: 1 <= k < Max(|a|, |b|) ==>
          DimFromRight(a, k) == DimFromRight(a', k - 1) && DimFromRight(b, k) == DimFromRight(b', k - 1);
        match Broadcast(a', b')
        case Err(e) =>
          assert exists k :: 0 <= k < Max(|a'|, |b'|) &&
                             !DimsCompatible(DimFromRight(a', k), DimFromRight(b', k));
          var k :| 0 <= k < Max(|a'|, |b'|) && !DimsCompatible(DimFromRight(a', k), DimFromRight(b', k));
          assert !DimsCompatible(DimFromRight(a, k + 1), DimFromRight(b, k + 1));
          Err(e)
        case Ok(front) =>
          var r := front + [JoinDim(x, y)];
          assert forall k :: 1 <= k < |r| ==> DimFromRight(r, k) == DimFromRight(front, k - 1);
          Ok(r)
  }

  /** The broadcast of two shapes absorbs either of them again: multiplying the output
      gradient by an operand's value (lines 90-98) keeps the output's shape. */
  lemma BroadcastAbsorbs(a: Shape, b: Shape)
    requires Broadcast(a, b).Ok?
    ensures Broadcast(b, Broadcast(a, b).value) == Broadcast(a, b)
    ensures Broadcast(a, Broadcast(a, b).value) == Broadcast(a, b)
  {
    var o := Broadcast(a, b).value;
    assert forall k :: 0 <= k < Max(|a|, |b|) ==>
      DimsCompatible(DimFromRight(a, k), DimFromRight(b, k));
    var o1 := Broadcast(b, o).value;
    EqualFromRight(o1, o);
    var o2 := Broadcast(a, o).value;
    EqualFromRight(o2, o);
  }

  // ---------------------------------------------------------------------------
  // Removing and re-inserting axes
  // ---------------------------------------------------------------------------

  /** How many of the axes `0 .. n-1` are in `ax`. */
  function CountBelow(ax: set<nat>, n: nat): (c: nat)
    ensures c <= n
  {
    if n == 0 then 0 else CountBelow(ax, n - 1) + (if n - 1 in ax then 1 else 0)
  }

  /** The shape left once the axes in `ax` are summed away (numpy `sum` without `keepdims`). */
  function Keep(s: Shape, ax: set<nat>): (r: Shape)
    ensures |r| == |s| - CountBelow(ax, |s|)
  {
    if s == [] then []
    else Keep(s[..|s| - 1], ax) + (if |s| - 1 in ax then [] else [s[|s| - 1]])
  }

  /** `s` with every axis in `ax` set to size 1 (numpy `sum` with `keepdims`). */
  function Mask(s: Shape, ax: set<nat>): (r: Shape)
    ensures |r| == |s|
  {
    seq(|s|, i requires 0 <= i < |s| => if i in ax then 1 else s[i])
  }

  /** numpy `expand_dims(t, ax)` into rank `n`: a size-1 axis at every position of `ax`, the
      axes of `t` in order everywhere else. */
  function Expand(t: Shape, ax: set<nat>, n: nat): (r: Shape)
    requires |t| == n - CountBelow(ax, n)
    ensures |r| == n
  {
    if n == 0 then []
    else if n - 1 in ax then Expand(t, ax, n - 1) + [1]
    else Expand(t[..|t| - 1], ax, n - 1) + [t[|t| - 1]]
  }

  /** Summing axes away and expanding them back gives size 1 exactly at those axes: the
      shape `expand_dims(out.grad, _axis)` takes in the backward rule of `sum` (line 241). */
  lemma {:induction false} ExpandKeep(s: Shape, ax: set<nat>)
    ensures Expand(Keep(s, ax), ax, |s|) == Mask(s, ax)
    decreases |s|
  {
    if s != [] {
      var front := s[..|s| - 1];
      ExpandKeep(front, ax);
      assert Mask(s, ax) == Mask(front, ax) + [if |s| - 1 in ax then 1 else s[|s| - 1]];
      var k := Keep(s, ax);
      if |s| - 1 in ax {
        assert k == Keep(front, ax);
        assert Expand(k, ax, |s|) == Expand(k, ax, |s| - 1) + [1];
      } else {
        assert k == Keep(front, ax) + [s[|s| - 1]];
        assert k[..|k| - 1] == Keep(front, ax);
        assert Expand(k, ax, |s|) == Expand(k[..|k| - 1], ax, |s| - 1) + [s[|s| - 1]];
      }
    }
  }

  /** Expanding axes in and summing them away again gives the original shape back. */
  lemma {:induction false} KeepExpand(t: Shape, ax: set<nat>, n: nat)
    requires |t| == n - CountBelow(ax, n)
    ensures Keep(Expand(t, ax, n), ax) == t
    decreases n
  {
    if n == 0 {
      assert t == [] && Expand(t, ax, n) == [];
    } else if n - 1 in ax {
      ExpandAxis(t, ax, n);
      var front := Expand(t, ax, n - 1);
      KeepExpand(t, ax, n - 1);
      KeepSnoc(front, 1, ax);
      assert Keep(Expand(t, ax, n), ax) == Keep(front, ax);
    } else {
      var rest := t[..|t| - 1];
      ExpandKept(t, ax, n);
      var front := Expand(rest, ax, n - 1);
      KeepExpand(rest, ax, n - 1);
      KeepSnoc(front, t[|t| - 1], ax);
      assert Keep(Expand(t, ax, n), ax) == rest + [t[|t| - 1]];
    }
  }

  /** Expanding into rank `n` where the last axis is a summed one appends a size-1 axis. */
  lemma ExpandAxis(t: Shape, ax: set<nat>, n: nat)
    requires 0 < n && n - 1 in ax && |t| == n - CountBelow(ax, n)
    ensures |t| == n - 1 - CountBelow(ax, n - 1)
    ensures Expand(t, ax, n) == Expand(t, ax, n - 1) + [1]
  {
  }

  /** Expanding into rank `n` where the last axis is kept appends `t`'s last axis. */
  lemma ExpandKept(t: Shape, ax: set<nat>, n: nat)
    requires 0 < n && n - 1 !in ax && |t| == n - CountBelow(ax, n)
    ensures 0 < |t| && |t[..|t| - 1]| == n - 1 - CountBelow(ax, n - 1)
    ensures t == t[..|t| - 1] + [t[|t| - 1]]
    ensures Expand(t, ax, n) == Expand(t[..|t| - 1], ax, n - 1) + [t[|t| - 1]]
  {
    assert t == t[..|t| - 1] + [t[|t| - 1]];
  }

  /** Summing axes away from a shape with one more axis on the end. */
  lemma KeepSnoc(s: Shape, d: nat, ax: set<nat>)
    ensures Keep(s + [d], ax) == Keep(s, ax) + (if |s| in ax then [] else [d])
  {
    assert (s + [d])[..|s|] == s;
  }

  /** A masked shape broadcasts back to the shape it was masked from: the second step of the
      backward rule of `sum` (line 244) restores the operand's shape. */
  lemma BroadcastMask(s: Shape, ax: set<nat>)
    ensures Broadcast(Mask(s, ax), s) == Ok(s)
  {
    var m := Mask(s, ax);
    forall k | 0 <= k < |s|
      ensures DimsCompatible(DimFromRight(m, k), DimFromRight(s, k))
      ensures JoinDim(DimFromRight(m, k), DimFromRight(s, k)) == DimFromRight(s, k)
    {
      assert m[|s| - 1 - k] == (if |s| - 1 - k in ax then 1 else s[|s| - 1 - k]);
    }
    EqualFromRight(Broadcast(m, s).value, s);
  }

  lemma {:induction false} KeepNone(s: Shape, ax: set<nat>)
    requires forall i :: 0 <= i < |s| ==> i !in ax
    ensures Keep(s, ax) == s
    decreases |s|
  {
    if s != [] {
      KeepNone(s[..|s| - 1], ax);
    }
  }

  lemma {:induction false} KeepAll(s: Shape, ax: set<nat>)
    requires forall i :: 0 <= i < |s| ==> i in ax
    ensures Keep(s, ax) == []
    decreases |s|
  {
    if s != [] {
      KeepAll(s[..|s| - 1], ax);
    }
  }

  /** Summing away every axis from `lo` on leaves the leading `lo` axes. */
  lemma {:induction false} KeepDropsTail(s: Shape, ax: set<nat>, lo: nat)
    requires lo <= |s|
    requires forall i :: 0 <= i < |s| ==> (i in ax <==> lo <= i)
    ensures Keep(s, ax) == s[..lo]
    decreases |s|
  {
    if |s| == lo {
      KeepNone(s, ax);
    } else {
      KeepDropsTail(s[..|s| - 1], ax, lo);
    }
  }

  /** Summing away the axes below `lo` leaves the trailing axes from `lo` on. */
  lemma {:induction false} KeepDropsHead(s: Shape, ax: set<nat>, lo: nat)
    requires lo <= |s|
    requires forall i :: 0 <= i < |s| ==> (i in ax <==> i < lo)
    ensures Keep(s, ax) == s[lo..]
    decreases |s|
  {
    if |s| == lo {
      KeepAll(s, ax);
    } else {
      var front := s[..|s| - 1];
      KeepDropsHead(front, ax, lo);
      assert front[lo..] + [s[|s| - 1]] == s[lo..];
    }
  }

  // ---------------------------------------------------------------------------
  // Gradient reduction in add and mul (lines 63-72, 89-98)
  // ---------------------------------------------------------------------------

  /** `tuple(range(d))`: the leading axes broadcasting prepended to a lower-rank operand. */
  function LeadingAxes(d: nat): (ax: set<nat>)
    ensures forall i: nat :: i in ax <==> i < d
  {
    if d == 0 then {} else LeadingAxes(d - 1) + {d - 1}
  }

  /** Shape of the term lines 63-72 and 89-98 add into an operand's gradient, as written:
      the output gradient summed over the leading axes the operand lacks, nothing else. */
  function AsWrittenReduce(out: Shape, operand: Shape): (r: Shape)
    ensures |operand| <= |out| ==> r == out[|out| - |operand|..]
    ensures |operand| <= |out| ==> |r| == |operand|
  {
    if |operand| < |out| then
      KeepDropsHead(out, LeadingAxes(|out| - |operand|), |out| - |operand|);
      Keep(out, LeadingAxes(|out| - |operand|))
    else out
  }

  /** numpy's in-place `dst += t` keeps `dst`'s buffer: `t` must broadcast into `dst`'s
      shape without enlarging it. */
  predicate InPlaceAddable(dst: Shape, t: Shape) {
    Broadcast(dst, t) == Ok(dst)
  }

  /** The axes of `operand` that have size 1 while the broadcast output's matching axis does not. */
  function StretchedAxes(out: Shape, operand: Shape): set<nat>
    requires |operand| <= |out|
  {
    set i: nat | i < |operand| && operand[i] == 1 && out[|out| - |operand| + i] != 1
  }

  /** Broadcasting shapes at equal rank: sizes of `a` agree with the output wherever `a`'s size is not 1. */
  lemma BroadcastKeepsNonOnes(a: Shape, b: Shape, i: nat)
    requires Broadcast(a, b).Ok? && i < |a|
    ensures var o := Broadcast(a, b).value;
      |a| <= |o| && (a[i] != 1 ==> o[|o| - |a| + i] == a[i])
  {
    var o := Broadcast(a, b).value;
    var k := |a| - 1 - i;
    assert DimFromRight(a, k) == a[i];
    assert DimFromRight(o, k) == o[|o| - |a| + i];
    assert DimsCompatible(DimFromRight(a, k), DimFromRight(b, k));
  }

  /** The as-written reduction fits the operand's gradient buffer exactly when broadcasting
      stretched none of the operand's size-1 axes. */
  lemma AsWrittenReduceFitsIff(a: Shape, b: Shape)
    requires Broadcast(a, b).Ok?
    ensures var o := Broadcast(a, b).value;
      |a| <= |o| &&
      (InPlaceAddable(a, AsWrittenReduce(o, a)) <==> StretchedAxes(o, a) == {})
  {
    var o := Broadcast(a, b).value;
    assert |a| <= Max(|a|, |b|) == |o|;
    var t := AsWrittenReduce(o, a);
    AsWrittenReduceKeeps(a, b, o, t);
    InPlaceAddableIff(a, t);
    StretchedIff(a, o, t);
  }

  /** The as-written term agrees with the operand wherever the operand's size is not 1. */
  lemma AsWrittenReduceKeeps(a: Shape, b: Shape, o: Shape, t: Shape)
    requires Broadcast(a, b) == Ok(o) && |a| <= |o| && t == o[|o| - |a|..]
    ensures |t| == |a| && forall i :: 0 <= i < |a| && a[i] != 1 ==> t[i] == a[i]
  {
    forall i | 0 <= i < |a| && a[i] != 1
      ensures t[i] == a[i]
    {
      BroadcastKeepsNonOnes(a, b, i);
    }
  }

  /** No axis was stretched exactly when the trailing output axes have size 1 wherever the
      operand has. */
  lemma StretchedIff(a: Shape, o: Shape, t: Shape)
    requires |a| <= |o| && t == o[|o| - |a|..]
    ensures StretchedAxes(o, a) == {} <==> forall i :: 0 <= i < |a| && a[i] == 1 ==> t[i] == 1
  {
    if StretchedAxes(o, a) != {} {
      var i :| i in StretchedAxes(o, a);
      assert a[i] == 1 && t[i] != 1;
    } else {
      forall i | 0 <= i < |a| && a[i] == 1
        ensures t[i] == 1
      {
        assert i !in StretchedAxes(o, a);
      }
    }
  }

  /** A term that agrees with `dst` off its size-1 axes fits `dst`'s buffer exactly when it
      also has size 1 wherever `dst` has. */
  lemma InPlaceAddableIff(dst: Shape, t: Shape)
    requires |t| == |dst|
    requires forall i :: 0 <= i < |dst| && dst[i] != 1 ==> t[i] == dst[i]
    ensures InPlaceAddable(dst, t) <==> forall i :: 0 <= i < |dst| && dst[i] == 1 ==> t[i] == 1
  {
    if forall i :: 0 <= i < |dst| && dst[i] == 1 ==> t[i] == 1 {
      assert forall i :: 0 <= i < |dst| ==> t[i] == dst[i];
      assert t == dst;
      forall k | 0 <= k < |dst|
        ensures DimsCompatible(DimFromRight(dst, k), DimFromRight(t, k))
        ensures JoinDim(DimFromRight(dst, k), DimFromRight(t, k)) == DimFromRight(dst, k)
      {
      }
      EqualFromRight(Broadcast(dst, t).value, dst);
    } else {
      var i :| 0 <= i < |dst| && dst[i] == 1 && t[i] != 1;
      var k := |dst| - 1 - i;
      assert DimFromRight(dst, k) == 1 && DimFromRight(t, k) == t[i];
      if Broadcast(dst, t).Ok? {
        assert DimFromRight(Broadcast(dst, t).value, k) != DimFromRight(dst, k);
      }
    }
  }

  /** A concrete input on which the as-written reduction breaks: adding a (1, 4) operand to a
      (3, 4) operand gives a (3, 4) output, and the (3, 4) gradient term does not fit the
      (1, 4) gradient buffer, so `self.grad += ...` would be refused. */
  lemma AsWrittenReduceStretchedCounterexample()
    ensures Broadcast([1, 4], [3, 4]) == Ok([3, 4])
    ensures AsWrittenReduce([3, 4], [1, 4]) == [3, 4]
    ensures !InPlaceAddable([1, 4], AsWrittenReduce([3, 4], [1, 4]))
  {
    var o: Shape := [3, 4];
    assert DimFromRight([1, 4], 0) == 4 && DimFromRight([1, 4], 1) == 1;
    assert DimFromRight([3, 4], 0) == 4 && DimFromRight([3, 4], 1) == 3;
    EqualFromRight(Broadcast([1, 4], [3, 4]).value, o);
    assert Broadcast([1, 4], o).Ok? ==> DimFromRight(Broadcast([1, 4], o).value, 1) == 3;
  }

  /** The reduction evidently intended: sum over the leading axes the operand lacks, and also
      (keeping the axis) over every size-1 axis of the operand that broadcasting stretched. */
  function ReduceToOperand(out: Shape, operand: Shape): (r: Shape)
    requires |operand| <= |out|
  {
    Mask(AsWrittenReduce(out, operand), StretchedAxes(out, operand))
  }

  /** The intended reduction always lands on the operand's own shape. */
  lemma ReduceToOperandFits(a: Shape, b: Shape)
    requires Broadcast(a, b).Ok?
    ensures var o := Broadcast(a, b).value;
      |a| <= |o| && ReduceToOperand(o, a) == a
  {
    var o := Broadcast(a, b).value;
    var r := ReduceToOperand(o, a);
    forall i | 0 <= i < |a|
      ensures r[i] == a[i]
    {
      BroadcastKeepsNonOnes(a, b, i);
    }
  }

  // ---------------------------------------------------------------------------
  // Reduction axes: sum and mean (lines 221-254)
  // ---------------------------------------------------------------------------

  /** The `axis` argument of `sum` and `mean`: None, a single int, or a tuple of ints. */
  datatype AxisArg = AllAxes | OneAxis(axis: int) | AxisTuple(axes: seq<int>)

  /** `de_neg` (line 223): a negative axis counts from the end. */
  function Normalise(ndim: nat, a: int): int {
    if a < 0 then ndim + a else a
  }

  /** Whether `a` names an axis of a rank-`ndim` tensor (numpy accepts `-ndim <= a < ndim`). */
  predicate ValidAxis(ndim: nat, a: int) {
    -(ndim as int) <= a < ndim
  }

  /** A valid axis as an index into the shape. */
  function AxisIndex(ndim: nat, a: int): (r: nat)
    requires ValidAxis(ndim, a)
    ensures r < ndim && r == Normalise(ndim, a)
  {
    Normalise(ndim, a)
  }

  /** The axis arguments as a sequence, before normalisation (None meaning every axis). */
  function AxisList(ndim: nat, axis: AxisArg): seq<int> {
    match axis
    case AllAxes => seq(ndim, i => i)
    case OneAxis(a) => [a]
    case AxisTuple(xs) => xs
  }

  /** The reduced axes `_axis` of lines 225-230, validated as numpy validates them: every
      axis in range and no axis named twice. */
  function ReducedAxes(ndim: nat, axis: AxisArg): (r: Result<set<nat>>)
    ensures r.Ok? <==>
      (forall i :: 0 <= i < |AxisList(ndim, axis)| ==> ValidAxis(ndim, AxisList(ndim, axis)[i])) &&
      (forall i, j :: 0 <= i < j < |AxisList(ndim, axis)| ==>
         Normalise(ndim, AxisList(ndim, axis)[i]) != Normalise(ndim, AxisList(ndim, axis)[j]))
    ensures r.Ok? ==> forall a :: a in r.value <==>
      exists i :: 0 <= i < |AxisList(ndim, axis)| && Normalise(ndim, AxisList(ndim, axis)[i]) == a
    ensures r.Ok? ==> forall a :: a in r.value ==> a < ndim
    ensures r.Err? ==> r.error == AxisError
  {
    var xs := AxisList(ndim, axis);
    if exists i :: 0 <= i < |xs| && !ValidAxis(ndim, xs[i]) then Err(AxisError)
    else if exists i, j :: 0 <= i < j < |xs| && Normalise(ndim, xs[i]) == Normalise(ndim, xs[j]) then
      Err(AxisError)
    else
      Ok(set i | 0 <= i < |xs| :: Normalise(ndim, xs[i]) as nat)
  }

  /** Output shape of `sum(axis)` (line 232): the operand's shape without the reduced axes. */
  function SumShape(s: Shape, axis: AxisArg): (r: Result<Shape>)
    ensures r.Ok? <==> ReducedAxes(|s|, axis).Ok?
    ensures r.Ok? ==> r.value == Keep(s, ReducedAxes(|s|, axis).value)
    ensures r.Err? ==> r.error == AxisError
  {
    var ax :- ReducedAxes(|s|, axis);
    Ok(Keep(s, ax))
  }

  /** A negative axis reduces the same axis as its non-negative counterpart. */
  lemma SumAxisNormalisation(s: Shape, a: int)
    requires -|s| <= a < 0
    ensures SumShape(s, OneAxis(a)) == SumShape(s, OneAxis(a + |s|))
  {
    assert AxisList(|s|, OneAxis(a)) == [a];
    assert AxisList(|s|, OneAxis(a + |s|)) == [a + |s|];
    var ax1 := ReducedAxes(|s|, OneAxis(a)).value;
    var ax2 := ReducedAxes(|s|, OneAxis(a + |s|)).value;
    var n := (a + |s|) as nat;
    assert n in ax1 by {
      assert Normalise(|s|, AxisList(|s|, OneAxis(a))[0]) == n;
    }
    assert n in ax2 by {
      assert Normalise(|s|, AxisList(|s|, OneAxis(a + |s|))[0]) == n;
    }
    assert ax1 == {n};
    assert ax2 == {n};
  }

  /** `axis=None` reduces exactly what the tuple of every axis reduces, leaving a scalar. */
  lemma SumAllAxes(s: Shape)
    ensures SumShape(s, AllAxes) == SumShape(s, AxisTuple(Range(|s|)))
    ensures SumShape(s, AllAxes) == Ok([])
  {
    assert AxisList(|s|, AllAxes) == AxisList(|s|, AxisTuple(Range(|s|)));
    var all := ReducedAxes(|s|, AllAxes).value;
    forall i | 0 <= i < |s|
      ensures i in all
    {
      assert AxisList(|s|, AllAxes)[i] == i;
    }
    KeepAll(s, all);
  }

  /** The shape of what the backward rule of `sum` (lines 238-244) adds into the operand's
      gradient: the output gradient expanded at the reduced axes, then broadcast against the
      operand. */
  function SumGradShape(s: Shape, ax: set<nat>): (r: Result<Shape>)
  {
    var t := Keep(s, ax);
    Broadcast(Expand(t, ax, |s|), s)
  }

  /** The backward rule of `sum` hands back a gradient of exactly the operand's shape. */
  lemma SumGradShapeRestores(s: Shape, ax: set<nat>)
    ensures SumGradShape(s, ax) == Ok(s)
  {
    ExpandKeep(s, ax);
    BroadcastMask(s, ax);
  }

  /** numpy `prod(take(shape, xs))`: the product of the sizes at the listed (normalised) axes. */
  function TakeProduct(s: Shape, xs: seq<int>): nat
    requires forall i :: 0 <= i < |xs| ==> ValidAxis(|s|, xs[i])
  {
    if xs == [] then 1
    else TakeProduct(s, xs[..|xs| - 1]) * s[AxisIndex(|s|, xs[|xs| - 1])]
  }

  /** The `denom` of `mean` (lines 250-253): the product of the whole shape for `axis=None`,
      else the product of the sizes `take` picks; `take` refuses an axis out of range. */
  function MeanDenominator(s: Shape, axis: AxisArg): (r: Result<nat>)
    ensures r.Ok? <==> (axis.AllAxes? || forall i :: 0 <= i < |AxisList(|s|, axis)| ==>
                                           ValidAxis(|s|, AxisList(|s|, axis)[i]))
    ensures r.Err? ==> r.error == AxisError
  {
    match axis
    case AllAxes => Ok(Product(s))
    case _ =>
      var xs := AxisList(|s|, axis);
      if forall i :: 0 <= i < |xs| ==> ValidAxis(|s|, xs[i]) then Ok(TakeProduct(s, xs))
      else Err(AxisError)
  }

  /** Product of the sizes at the axes in `ax`. */
  function MaskedProduct(s: Shape, ax: set<nat>): nat {
    if s == [] then 1
    else MaskedProduct(s[..|s| - 1], ax) * (if |s| - 1 in ax then s[|s| - 1] else 1)
  }

  lemma ProductAppend(s: Shape, x: nat)
    ensures Product(s + [x]) == Product(s) * x
  {
    assert (s + [x])[..|s|] == s;
  }

  /** The element count splits into the reduced axes' product times the output's element count. */
  lemma MulRearrange(m: nat, p: nat, x: nat)
    ensures (m * p) * x == (m * x) * p
    ensures (m * p) * x == m * (p * x)
  {
  }

  lemma MaskedProductStep(s: Shape, ax: set<nat>)
    requires s != []
    ensures MaskedProduct(s, ax) ==
      MaskedProduct(s[..|s| - 1], ax) * (if |s| - 1 in ax then s[|s| - 1] else 1)
  {
  }

  lemma ProductStep(s: Shape)
    requires s != []
    ensures Product(s) == Product(s[..|s| - 1]) * s[|s| - 1]
  {
  }

  /** The element count splits into the reduced axes' product times the output's element count. */
  lemma {:induction false} ProductSplits(s: Shape, ax: set<nat>)
    ensures Product(s) == MaskedProduct(s, ax) * Product(Keep(s, ax))
    decreases |s|
  {
    if s != [] {
      var front, x := s[..|s| - 1], s[|s| - 1];
      ProductSplits(front, ax);
      var m, p := MaskedProduct(front, ax), Product(Keep(front, ax));
      ProductStep(s);
      MaskedProductStep(s, ax);
      MulRearrange(m, p, x);
      if |s| - 1 in ax {
        assert Keep(s, ax) == Keep(front, ax);
      } else {
        assert Keep(s, ax) == Keep(front, ax) + [x];
        ProductAppend(Keep(front, ax), x);
      }
    }
  }

  /** Adding one more axis `a` to the masked set multiplies the product by that axis' size. */
  lemma {:induction false} MaskedProductInsert(s: Shape, ax: set<nat>, a: nat)
    requires a < |s| && a !in ax
    ensures MaskedProduct(s, ax + {a}) == MaskedProduct(s, ax) * s[a]
    decreases |s|
  {
    var front := s[..|s| - 1];
    MaskedProductStep(s, ax);
    MaskedProductStep(s, ax + {a});
    if a < |s| - 1 {
      MaskedProductInsert(front, ax, a);
      var f := if |s| - 1 in ax then s[|s| - 1] else 1;
      assert (if |s| - 1 in ax + {a} then s[|s| - 1] else 1) == f;
      assert front[a] == s[a];
      MulRearrange(MaskedProduct(front, ax), front[a], f);
    } else {
      MaskedProductSame(front, ax + {a}, ax);
    }
  }

  lemma {:induction false} MaskedProductSame(s: Shape, ax1: set<nat>, ax2: set<nat>)
    requires forall i :: 0 <= i < |s| ==> (i in ax1 <==> i in ax2)
    ensures MaskedProduct(s, ax1) == MaskedProduct(s, ax2)
    decreases |s|
  {
    if s != [] {
      MaskedProductSame(s[..|s| - 1], ax1, ax2);
    }
  }

  /** With distinct in-range axes, `take`'s product is the product over the axis set. */
  lemma {:induction false} TakeProductIsMasked(s: Shape, xs: seq<int>)
    requires forall i :: 0 <= i < |xs| ==> ValidAxis(|s|, xs[i])
    requires forall i, j :: 0 <= i < j < |xs| ==> Normalise(|s|, xs[i]) != Normalise(|s|, xs[j])
    ensures TakeProduct(s, xs) == MaskedProduct(s, set i | 0 <= i < |xs| :: Normalise(|s|, xs[i]) as nat)
    decreases |xs|
  {
    var ax := set i | 0 <= i < |xs| :: Normalise(|s|, xs[i]) as nat;
    if xs == [] {
      MaskedProductSame(s, ax, {});
      MaskedProductEmpty(s);
    } else {
      var front := xs[..|xs| - 1];
      var a := Normalise(|s|, xs[|xs| - 1]) as nat;
      var fax := set i | 0 <= i < |front| :: Normalise(|s|, front[i]) as nat;
      TakeProductIsMasked(s, front);
      assert a !in fax;
      assert ax == fax + {a} by {
        forall b | b in ax
          ensures b in fax + {a}
        {
          var i :| 0 <= i < |xs| && Normalise(|s|, xs[i]) as nat == b;
          if i < |front| {
            assert front[i] == xs[i];
          }
        }
        forall b | b in fax
          ensures b in ax
        {
          var i :| 0 <= i < |front| && Normalise(|s|, front[i]) as nat == b;
          assert xs[i] == front[i];
        }
      }
      MaskedProductInsert(s, fax, a);
    }
  }

  lemma {:induction false} MaskedProductEmpty(s: Shape)
    ensures MaskedProduct(s, {}) == 1
    decreases |s|
  {
    if s != [] {
      MaskedProductEmpty(s[..|s| - 1]);
    }
  }

  /** `mean` divides by the number of input elements folded into each output element: the
      denominator times the output's element count is the input's element count. */
  lemma MeanDenominatorCountsReduced(s: Shape, axis: AxisArg)
    requires SumShape(s, axis).Ok?
    ensures MeanDenominator(s, axis).Ok?
    ensures MeanDenominator(s, axis).value * Product(SumShape(s, axis).value) == Product(s)
  {
    var xs := AxisList(|s|, axis);
    var ax := ReducedAxes(|s|, axis).value;
    ProductSplits(s, ax);
    if axis.AllAxes? {
      SumAllAxes(s);
    } else {
      assert ax == set i | 0 <= i < |xs| :: Normalise(|s|, xs[i]) as nat;
      TakeProductIsMasked(s, xs);
    }
  }

  // ---------------------------------------------------------------------------
  // Transpose (lines 119-131)
  // ---------------------------------------------------------------------------

  /** numpy `transpose` with no axes argument reverses the axis order. */
  function Reverse(s: Shape): (r: Shape)
    ensures |r| == |s|
    ensures forall i :: 0 <= i < |s| ==> r[i] == s[|s| - 1 - i]
  {
    if s == [] then [] else [s[|s| - 1]] + Reverse(s[..|s| - 1])
  }

  /** Transposing the output gradient (line 128) gives back the operand's shape. */
  lemma ReverseInvolutive(s: Shape)
    ensures Reverse(Reverse(s)) == s
  {
  }

  // ---------------------------------------------------------------------------
  // Tensor contraction (lines 324-365)
  // ---------------------------------------------------------------------------

  /** The axis lists `([-1 - j for j in range(k)], list(range(k)))` of lines 341-345. */
  function PairingAxes(k: nat): (p: (seq<int>, seq<int>))
    ensures |p.0| == k && |p.1| == k
  {
    (seq(k, j => -1 - j), seq(k, j => j))
  }

  /** The set of normalised axes a list names (all assumed in range). */
  function AxisSet(ndim: nat, xs: seq<int>): set<nat>
    requires forall i :: 0 <= i < |xs| ==> ValidAxis(ndim, xs[i])
  {
    set i | 0 <= i < |xs| :: AxisIndex(ndim, xs[i])
  }

  /** numpy `tensordot(a, b, axes=(xa, xb))` on shapes: the lists must be equally long, name
      axes in range, and pair axes of equal size; the output keeps the unpaired axes of `a`,
      then those of `b`, each in order. */
  function ContractShape(a: Shape, b: Shape, xa: seq<int>, xb: seq<int>): Result<Shape> {
    if |xa| != |xb| then Err(ShapeMismatch)
    else if exists i :: 0 <= i < |xa| && !(ValidAxis(|a|, xa[i]) && ValidAxis(|b|, xb[i])) then
      Err(AxisError)
    else if exists i :: 0 <= i < |xa| && a[Normalise(|a|, xa[i])] != b[Normalise(|b|, xb[i])] then
      Err(ShapeMismatch)
    else
      Ok(Keep(a, AxisSet(|a|, xa)) + Keep(b, AxisSet(|b|, xb)))
  }

  /** Output shape of `tensordot(left, right, k)`: `k` must lie in `0 .. min(rank)` (lines
      336-338), left axis `-1-j` pairs with right axis `j` for every `j < k` and the two must
      have the same size; the output is left's other axes followed by right's. */
  function TensordotShape(l: Shape, r: Shape, k: int): (res: Result<Shape>)
    ensures res.Ok? <==>
      0 <= k <= |l| && k <= |r| && forall j :: 0 <= j < k ==> l[|l| - 1 - j] == r[j]
    ensures res.Ok? ==> res.value == l[..|l| - k] + r[k..]
    ensures res.Err? ==> res.error == ShapeMismatch
  {
    if !(0 <= k && k <= |l| && k <= |r|) then Err(ShapeMismatch)
    else
      PairingContracts(l, r, k);
      ContractShape(l, r, PairingAxes(k).0, PairingAxes(k).1)
  }

  /** What numpy's contraction does with the source's pairing lists of depth `k`. */
  lemma PairingContracts(l: Shape, r: Shape, k: nat)
    requires k <= |l| && k <= |r|
    ensures var p := PairingAxes(k);
      ContractShape(l, r, p.0, p.1).Ok? <==> forall j :: 0 <= j < k ==> l[|l| - 1 - j] == r[j]
    ensures var p := PairingAxes(k);
      ContractShape(l, r, p.0, p.1).Ok? ==> ContractShape(l, r, p.0, p.1).value == l[..|l| - k] + r[k..]
    ensures var p := PairingAxes(k);
      ContractShape(l, r, p.0, p.1).Err? ==> ContractShape(l, r, p.0, p.1).error == ShapeMismatch
  {
    var p := PairingAxes(k);
    assert forall j :: 0 <= j < k ==> ValidAxis(|l|, p.0[j]) && ValidAxis(|r|, p.1[j]);
    assert forall j :: 0 <= j < k ==> Normalise(|l|, p.0[j]) == |l| - 1 - j && Normalise(|r|, p.1[j]) == j;
    var res := ContractShape(l, r, p.0, p.1);
    if res.Ok? {
      forall j | 0 <= j < k
        ensures l[|l| - 1 - j] == r[j]
      {
        assert l[Normalise(|l|, p.0[j])] == r[Normalise(|r|, p.1[j])];
      }
      var la, ra := AxisSet(|l|, p.0), AxisSet(|r|, p.1);
      forall i | 0 <= i < |l|
        ensures i in la <==> |l| - k <= i
      {
        if |l| - k <= i {
          assert Normalise(|l|, p.0[|l| - 1 - i]) == i;
        }
      }
      forall i | 0 <= i < |r|
        ensures i in ra <==> i < k
      {
        if i < k {
          assert Normalise(|r|, p.1[i]) == i;
        }
      }
      KeepDropsTail(l, la, |l| - k);
      KeepDropsHead(r, ra, k);
    }
  }

  /** The two contractions of the backward rule (lines 358-362) are themselves depth-`m`
      tensordots in the same pairing convention, and they hand back gradients of exactly
      the left and the right operand's shapes. */
  lemma TensordotGradientShapes(l: Shape, r: Shape, k: nat)
    requires TensordotShape(l, r, k).Ok?
    ensures TensordotShape(TensordotShape(l, r, k).value, Reverse(r), |r| - k) == Ok(l)
    ensures TensordotShape(Reverse(l), TensordotShape(l, r, k).value, |l| - k) == Ok(r)
  {
    LeftGradientShape(l, r, k);
    RightGradientShape(l, r, k);
  }

  lemma TensordotShapeOk(l: Shape, r: Shape, k: nat)
    requires k <= |l| && k <= |r|
    requires forall j :: 0 <= j < k ==> l[|l| - 1 - j] == r[j]
    ensures TensordotShape(l, r, k) == Ok(l[..|l| - k] + r[k..])
  {
  }

  lemma LeftGradientShape(l: Shape, r: Shape, k: nat)
    requires TensordotShape(l, r, k).Ok?
    ensures TensordotShape(TensordotShape(l, r, k).value, Reverse(r), |r| - k) == Ok(l)
  {
    var o := TensordotShape(l, r, k).value;
    var rr := Reverse(r);
    LeftGradientSeq(l, r, k, o, rr);
    ContractedBack(o, rr, |r| - k, l);
  }

  lemma LeftGradientSeq(l: Shape, r: Shape, k: nat, o: Shape, rr: Shape)
    requires k <= |l| && k <= |r|
    requires forall j :: 0 <= j < k ==> l[|l| - 1 - j] == r[j]
    requires o == l[..|l| - k] + r[k..]
    requires |rr| == |r| && forall i :: 0 <= i < |r| ==> rr[i] == r[|r| - 1 - i]
    ensures |r| - k <= |o|
    ensures forall j :: 0 <= j < |r| - k ==> o[|o| - 1 - j] == rr[j]
    ensures o[..|o| - (|r| - k)] + rr[|r| - k..] == l
  {
    var m := |r| - k;
    forall j | 0 <= j < m
      ensures o[|o| - 1 - j] == rr[j]
    {
      assert o[|o| - 1 - j] == r[|r| - 1 - j];
    }
    var g := o[..|o| - m] + rr[m..];
    forall i | 0 <= i < |l|
      ensures g[i] == l[i]
    {
      if i < |l| - k {
        assert g[i] == o[i];
      } else {
        var j := k - 1 - (i - (|l| - k));
        assert g[i] == rr[m + i - (|l| - k)] == r[j];
        assert l[|l| - 1 - j] == r[j];
      }
    }
  }

  lemma RightGradientShape(l: Shape, r: Shape, k: nat)
    requires TensordotShape(l, r, k).Ok?
    ensures TensordotShape(Reverse(l), TensordotShape(l, r, k).value, |l| - k) == Ok(r)
  {
    var o := TensordotShape(l, r, k).value;
    var rl := Reverse(l);
    RightGradientSeq(l, r, k, o, rl);
    ContractedBack(rl, o, |l| - k, r);
  }

  /** A pairing that holds and whose leftovers rebuild `r` gives `r` back. */
  lemma ContractedBack(a: Shape, b: Shape, m: nat, r: Shape)
    requires m <= |a| && m <= |b|
    requires forall j :: 0 <= j < m ==> a[|a| - 1 - j] == b[j]
    requires a[..|a| - m] + b[m..] == r
    ensures TensordotShape(a, b, m) == Ok(r)
  {
    TensordotShapeOk(a, b, m);
  }

  lemma RightGradientSeq(l: Shape, r: Shape, k: nat, o: Shape, rl: Shape)
    requires k <= |l| && k <= |r|
    requires forall j :: 0 <= j < k ==> l[|l| - 1 - j] == r[j]
    requires o == l[..|l| - k] + r[k..]
    requires |rl| == |l| && forall i :: 0 <= i < |l| ==> rl[i] == l[|l| - 1 - i]
    ensures |l| - k <= |o|
    ensures forall j :: 0 <= j < |l| - k ==> rl[|rl| - 1 - j] == o[j]
    ensures rl[..|rl| - (|l| - k)] + o[|l| - k..] == r
  {
    var m := |l| - k;
    forall j | 0 <= j < m
      ensures rl[|rl| - 1 - j] == o[j]
    {
      assert rl[|rl| - 1 - j] == l[j];
    }
    var g := rl[..|rl| - m] + o[m..];
    forall i | 0 <= i < |r|
      ensures g[i] == r[i]
    {
      if i < k {
        assert g[i] == rl[i] == l[|l| - 1 - i];
      } else {
        assert g[i] == o[m + i - k];
      }
    }
  }

  /** `@` is depth-1 tensordot: on matrices it is the usual (m, n) by (n, p) product. */
  lemma MatmulShape(m: nat, n: nat, n': nat, p: nat)
    ensures TensordotShape([m, n], [n', p], 1).Ok? <==> n == n'
    ensures n == n' ==> TensordotShape([m, n], [n', p], 1) == Ok([m, p])
  {
    if n == n' {
      assert [m, n][..1] + [n', p][1..] == [m, p];
    }
  }
}

=== FILE: tensors.dfy ===
/** Tensor values at the level of detail the engine needs for its leaves: a shape and its
    elements in row-major order. Leaf construction (data, or a named placeholder) and the
    per-forward binding of placeholders live here. */
module Tensors {
  import opened Results
  import opened Nums
  import opened Shapes

  /** A dense tensor: its shape and its `Product(shape)` elements in row-major order. */
  datatype Data = Data(shape: Shape, cells: seq<Num>)

  predicate Valid(d: Data) {
    |d.cells| == Product(d.shape)
  }

  /** numpy `full(shape, x)`. */
  function Full(s: Shape, x: Num): (d: Data)
    ensures Valid(d) && d.shape == s
    ensures forall i :: 0 <= i < |d.cells| ==> d.cells[i] == x
  {
    Data(s, seq(Product(s), _ => x))
  }

  /** numpy `all(isnan(d))`. */
  predicate AllNaN(d: Data) {
    forall i :: 0 <= i < |d.cells| ==> d.cells[i].NaN?
  }

  /** A scalar (rank-0) tensor. */
  function Scalar(x: Num): (d: Data)
    ensures Valid(d) && d.shape == []
  {
    Data([], [x])
  }

  /** The single element a scalar engine reads from a tensor (its first element; NaN if the
      tensor has none). */
  function First(d: Data): Num {
    if |d.cells| > 0 then d.cells[0] else NaN
  }

  /** What the constructor's `data` argument holds: nothing, an array or number, or an
      object of some other type. */
  datatype DataArg = NoData | ArrayData(d: Data) | OtherData

  /** What the constructor's `shape` argument holds: nothing, a tuple, or something else
      (a list, an int). */
  datatype ShapeArg = NoShape | TupleShape(dims: Shape) | NonTupleShape

  /** The construction-time state of a `Value`: its data, its placeholder name and its
      shape. `name` is `None` for data nodes. */
  datatype Leaf = Leaf(data: Data, name: Option<string>, shape: Shape)

  /** `Value.__init__`'s rule (lines 20-32): either data and nothing else, the shape then
      read off the data; or no data, a non-empty name and a tuple shape, the data then
      all-NaN of that shape. Every other combination is refused. */
  function NewValue(data: DataArg, name: Option<string>, shape: ShapeArg): (r: Result<Leaf>)
    requires data.ArrayData? ==> Valid(data.d)
    ensures r.Ok? <==>
      (data.ArrayData? && name.None? && shape.NoShape?) ||
      (data.NoData? && name.Some? && name.value != "" && shape.TupleShape?)
    ensures r.Ok? && data.ArrayData? ==>
      r.value == Leaf(data.d, None, data.d.shape)
    ensures r.Ok? && data.NoData? ==>
      r.value.name == name && r.value.shape == shape.dims &&
      r.value.data.shape == shape.dims && Valid(r.value.data) && AllNaN(r.value.data)
    ensures r.Err? ==> r.error == InvalidConstruction
  {
    if !data.NoData? then
      if data.OtherData? || name.Some? || !shape.NoShape? then Err(InvalidConstruction)
      else Ok(Leaf(data.d, None, data.d.shape))
    else if name.None? || name.value == "" || !shape.TupleShape? then Err(InvalidConstruction)
    else Ok(Leaf(Full(shape.dims, NaN), name, shape.dims))
  }

  /** A leaf as `NewValue` makes it: its data has the leaf's shape, and a named leaf has a
      non-empty name. */
  predicate WellMade(l: Leaf) {
    Valid(l.data) && l.data.shape == l.shape && (l.name.Some? ==> l.name.value != "")
  }

  /** A leaf's forward step is refused (line 44) exactly when it is a placeholder whose name
      is bound to a tensor of another shape. */
  predicate Refused(l: Leaf, bindings: map<string, Data>) {
    l.name.Some? && l.name.value in bindings && bindings[l.name.value].shape != l.shape
  }

  /** The data a leaf holds after its forward step (lines 39-48), given the data `current`
      it holds before: a data node's step does nothing, so it keeps `current`, whatever was
      assigned to it since construction; a placeholder adopts its binding, which must have
      exactly the declared shape, or falls back to all-NaN of its shape when its name is not
      bound. */
  function Bind(l: Leaf, current: Data, bindings: map<string, Data>): (r: Result<Data>)
    requires WellMade(l)
    ensures r.Err? <==> Refused(l, bindings)
    ensures r.Err? ==> r.error == ShapeMismatch
    ensures l.name.None? ==> r == Ok(current)
    ensures r.Ok? && l.name.Some? ==> r.value.shape == l.shape
    ensures r.Ok? && l.name.Some? && l.name.value in bindings ==> r.value == bindings[l.name.value]
    ensures r.Ok? && l.name.Some? && l.name.value !in bindings ==> AllNaN(r.value) && Valid(r.value)
  {
    match l.name
    case None => Ok(current)
    case Some(n) =>
      if n in bindings then
        var v := bindings[n];
        if v.shape == l.shape then Ok(v) else Err(ShapeMismatch)
      else Ok(Full(l.shape, NaN))
  }

  /** Rebinding: one placeholder bound in two forward passes to two different tensors of its
      shape takes each of them in turn, without being rebuilt and whatever it held before. */
  lemma RebindingTakesEachBinding(name: string, s: Shape, x: Data, y: Data, current: Data)
    requires name != "" && x.shape == s && y.shape == s && x != y
    ensures var l := NewValue(NoData, Some(name), TupleShape(s)).value;
      Bind(l, current, map[name := x]) == Ok(x) && Bind(l, x, map[name := y]) == Ok(y) &&
      Bind(l, current, map[name := x]) != Bind(l, x, map[name := y])
  {
  }

  /** A data node's forward step never changes its data, whatever the bindings: values
      assigned to it between passes (an optimiser's update of a weight) survive `forward`. */
  lemma DataLeafKeepsData(d: Data, current: Data, bindings: map<string, Data>)
    requires Valid(d)
    ensures var l := NewValue(ArrayData(d), None, NoShape).value;
      Bind(l, current, bindings) == Ok(current)
  {
  }

  /** Broadcasting a tensor whose every axis has size 1 to shape `s` copies its one element
      everywhere: numpy `broadcast_arrays(g, x)[0]` for the expanded gradient of a full
      reduction. */
  function BroadcastOnes(g: Data, s: Shape): (r: Data)
    requires Valid(g) && forall i :: 0 <= i < |g.shape| ==> g.shape[i] == 1
    ensures Valid(r) && r.shape == s
    ensures forall i :: 0 <= i < |r.cells| ==> r.cells[i] == g.cells[0]
  {
    OnesProduct(g.shape);
    Full(s, g.cells[0])
  }

  lemma {:induction false} OnesProduct(s: Shape)
    requires forall i :: 0 <= i < |s| ==> s[i] == 1
    ensures Product(s) == 1
    decreases |s|
  {
    if s != [] {
      OnesProduct(s[..|s| - 1]);
    }
  }

  /** `x.sum().backward()` gives `x` a gradient of ones: the root's seed 1 is expanded at every
      axis (lines 241-244) and broadcast back to `x`'s full shape, undivided. */
  lemma FullSumGradientIsOnes(s: Shape)
    ensures var ax := ReducedAxes(|s|, AllAxes).value;
      Keep(s, ax) == [] &&
      var e := Expand(Scalar(Fin(1.0)).shape, ax, |s|);
      (forall i :: 0 <= i < |e| ==> e[i] == 1) && Product(e) == 1 &&
      BroadcastOnes(Data(e, [Fin(1.0)]), s) == Full(s, Fin(1.0))
  {
    var ax := ReducedAxes(|s|, AllAxes).value;
    SumAllAxes(s);
    ExpandKeep(s, ax);
    var e := Expand([], ax, |s|);
    assert e == Mask(s, ax);
    forall i | 0 <= i < |s|
      ensures i in ax
    {
      assert AxisList(|s|, AllAxes)[i] == i;
    }
    OnesProduct(e);
  }
}

=== FILE: topology.dfy ===
/** `build_topology`: a depth-first post-order walk from a root, guarded by a visited set,
    and its cache on the root. */
module Topology {
  import opened Results
  import opened Graph

  /** No node occurs twice. */
  predicate NoDup(t: seq<nat>) {
    forall i, j :: 0 <= i < j < |t| ==> t[i] != t[j]
  }

  /** Every listed node is in the arena and comes after all of its parents. */
  predicate ParentsFirst(g: Arena, t: seq<nat>) {
    forall i :: 0 <= i < |t| ==> t[i] < |g| && forall p :: p in Operands(g[t[i]].op) ==> p in t[..i]
  }

  /** `build_topo(v)` (lines 262-267): an unvisited node is marked visited, its parents are
      walked in turn, then it is appended; a visited node is skipped. Returns the visited
      set and the order built so far. */
  function Visit(g: Arena, v: nat, visited: set<nat>, topo: seq<nat>): (r: (set<nat>, seq<nat>))
    requires WellFormed(g) && v < |g| && InArena(g, topo)
    ensures InArena(g, r.1)
    decreases v + 1, 0
  {
    if v in visited then (visited, topo)
    else
      assert ParentsBefore(g, v);
      var ps := Operands(g[v].op);
      assert forall j :: 0 <= j < |ps| ==> ps[j] in ps;
      var r := VisitAll(g, ps, v, visited + {v}, topo);
      (r.0, r.1 + [v])
  }

  /** The `for child in v._prev` loop: walk each of `vs` in turn. */
  function VisitAll(g: Arena, vs: seq<nat>, bound: nat, visited: set<nat>, topo: seq<nat>): (r: (set<nat>, seq<nat>))
    requires WellFormed(g) && bound <= |g| && InArena(g, topo)
    ensures InArena(g, r.1)
    requires forall i :: 0 <= i < |vs| ==> vs[i] < bound
    decreases bound, |vs|
  {
    if vs == [] then (visited, topo)
    else
      var r := Visit(g, vs[0], visited, topo);
      VisitAll(g, vs[1..], bound, r.0, r.1)
  }

  /** Every listed node is in the arena. */
  predicate InArena(g: Arena, t: seq<nat>) {
    forall i :: 0 <= i < |t| ==> t[i] < |g|
  }

  /** The order `build_topology` computes for `root`. */
  function Topo(g: Arena, root: nat): (t: seq<nat>)
    requires WellFormed(g) && root < |g|
    ensures InArena(g, t)
  {
    Visit(g, root, {}, []).1
  }

  /** Visiting an unvisited node without parents lists it and nothing else. */
  lemma VisitLeaf(g: Arena, v: nat, visited: set<nat>, topo: seq<nat>)
    requires WellFormed(g) && v < |g| && InArena(g, topo)
    requires Operands(g[v].op) == [] && v !in visited
    ensures Visit(g, v, visited, topo) == (visited + {v}, topo + [v])
  {
    assert VisitAll(g, [], v, visited + {v}, topo) == (visited + {v}, topo);
  }

  /** Visiting an unvisited node: mark it, walk its parents, then list it. */
  lemma VisitInner(g: Arena, v: nat, visited: set<nat>, topo: seq<nat>)
    requires WellFormed(g) && v < |g| && InArena(g, topo) && v !in visited
    requires forall i :: 0 <= i < |Operands(g[v].op)| ==> Operands(g[v].op)[i] < v
    ensures var r := VisitAll(g, Operands(g[v].op), v, visited + {v}, topo);
      Visit(g, v, visited, topo) == (r.0, r.1 + [v])
  {
  }

  /** The parent loop over two parents, written out. */
  lemma VisitAllTwo(g: Arena, x: nat, y: nat, bound: nat, visited: set<nat>, topo: seq<nat>)
    requires WellFormed(g) && bound <= |g| && x < bound && y < bound && InArena(g, topo)
    ensures var r1 := Visit(g, x, visited, topo);
      VisitAll(g, [x, y], bound, visited, topo) == Visit(g, y, r1.0, r1.1)
  {
    var vs := [x, y];
    assert vs[1..] == [y];
    var r1 := Visit(g, x, visited, topo);
    assert VisitAll(g, [y], bound, r1.0, r1.1) == VisitAll(g, [], bound, Visit(g, y, r1.0, r1.1).0, Visit(g, y, r1.0, r1.1).1);
  }

  /** A node listed after its parents has all of its ancestors listed. */
  lemma {:induction false} ParentsFirstClosed(g: Arena, t: seq<nat>, v: nat)
    requires WellFormed(g) && ParentsFirst(g, t) && v in t
    ensures v < |g| && Ancestors(g, v) <= Elems(t)
    decreases v
  {
    var i :| 0 <= i < |t| && t[i] == v;
    forall a | a in Ancestors(g, v)
      ensures a in t
    {
      AncestorsStep(g, v, a);
      if a != v {
        var p :| p in Operands(g[v].op) && a in Ancestors(g, p);
        assert p in t[..i];
        assert ParentsBefore(g, v);
        ParentsFirstClosed(g, t, p);
      }
    }
  }

  /** The nodes an order lists. */
  function Elems(t: seq<nat>): set<nat> {
    set x | x in t
  }

  /** Every listed node has been visited. */
  predicate Listed(t: seq<nat>, visited: set<nat>) {
    forall x :: x in t ==> x in visited
  }

  /** The nodes visited but not yet listed (those on the walk's stack) are all `>= floor`. */
  predicate StackAbove(visited: set<nat>, t: seq<nat>, floor: nat) {
    forall x :: x in visited && x !in t ==> x >= floor
  }

  /** Two states have the same stack. */
  ghost predicate SameStack(vis: set<nat>, t: seq<nat>, visited: set<nat>, topo: seq<nat>) {
    forall x :: x in vis && x !in t <==> x in visited && x !in topo
  }

  /** What one walk step guarantees: the order `t` extends `topo`, stays duplicate-free and
      parents-first, lists only visited nodes, keeps the stack, and lists `added` on top of
      what `topo` listed. */
  ghost predicate Extends(g: Arena, topo: seq<nat>, visited: set<nat>, t: seq<nat>, vis: set<nat>, added: set<nat>) {
    topo <= t && NoDup(t) && ParentsFirst(g, t) && Listed(t, vis) &&
    SameStack(vis, t, visited, topo) && Elems(t) == Elems(topo) + added
  }

  /** Appending a node whose parents are listed keeps the order duplicate-free and parents-first. */
  lemma AppendNode(g: Arena, t: seq<nat>, v: nat)
    requires NoDup(t) && ParentsFirst(g, t) && v < |g| && v !in t
    requires forall p :: p in Operands(g[v].op) ==> p in t
    ensures NoDup(t + [v]) && ParentsFirst(g, t + [v]) && Elems(t + [v]) == Elems(t) + {v}
  {
    var t' := t + [v];
    assert t'[..|t|] == t;
    forall i | 0 <= i < |t|
      ensures t'[..i] == t[..i]
    {
    }
  }

  /** Appending `v` after its parents' walk completes the step for `v`. */
  lemma ExtendByNode(g: Arena, topo: seq<nat>, visited: set<nat>, t: seq<nat>, vis: set<nat>, added: set<nat>, v: nat)
    requires Extends(g, topo, visited + {v}, t, vis, added)
    requires v !in visited && Listed(topo, visited) && v < |g|
    requires forall a :: a in added ==> a < v
    requires forall j :: 0 <= j < |Operands(g[v].op)| ==> Operands(g[v].op)[j] in added
    ensures Extends(g, topo, visited, t + [v], vis, added + {v})
  {
    assert v !in t by {
      assert v !in topo;
      assert v !in Elems(t);
    }
    forall p | p in Operands(g[v].op)
      ensures p in t
    {
      var j :| 0 <= j < |Operands(g[v].op)| && Operands(g[v].op)[j] == p;
      assert p in Elems(t);
    }
    AppendNode(g, t, v);
    assert v in vis;
  }

  /** A visited node below the stack is already listed, with all its ancestors. */
  lemma VisitedIsListed(g: Arena, v: nat, visited: set<nat>, topo: seq<nat>)
    requires WellFormed(g) && v < |g| && v in visited
    requires NoDup(topo) && ParentsFirst(g, topo) && Listed(topo, visited)
    requires StackAbove(visited, topo, v + 1)
    ensures Visit(g, v, visited, topo) == (visited, topo)
    ensures Extends(g, topo, visited, topo, visited, Ancestors(g, v))
  {
    assert v in topo;
    ParentsFirstClosed(g, topo, v);
  }

  /** The DFS invariant, for one node: when the nodes on the walk's stack all come after
      `v`, visiting `v` extends the order by exactly the ancestors of `v` not yet listed. */
  lemma {:induction false} VisitSpec(g: Arena, v: nat, visited: set<nat>, topo: seq<nat>)
    requires WellFormed(g) && v < |g|
    requires NoDup(topo) && ParentsFirst(g, topo) && Listed(topo, visited)
    requires StackAbove(visited, topo, v + 1)
    ensures Extends(g, topo, visited, Visit(g, v, visited, topo).1, Visit(g, v, visited, topo).0, Ancestors(g, v))
    decreases v + 1, 0
  {
    assert InArena(g, topo);
    if v in visited {
      VisitedIsListed(g, v, visited, topo);
    } else {
      assert ParentsBefore(g, v);
      var ps := Operands(g[v].op);
      assert forall j :: 0 <= j < |ps| ==> ps[j] in ps;
      VisitAllSpec(g, ps, v, visited + {v}, topo);
      VisitFresh(g, v, visited, topo);
    }
  }

  /** Visiting an unvisited node, given the invariant for its parent loop. */
  lemma VisitFresh(g: Arena, v: nat, visited: set<nat>, topo: seq<nat>)
    requires WellFormed(g) && v < |g| && v !in visited && InArena(g, topo)
    requires Listed(topo, visited)
    requires forall j :: 0 <= j < |Operands(g[v].op)| ==> Operands(g[v].op)[j] < v
    requires var ps := Operands(g[v].op);
      var r := VisitAll(g, ps, v, visited + {v}, topo);
      Extends(g, topo, visited + {v}, r.1, r.0, AncestorsOf(g, ps, v))
    ensures Extends(g, topo, visited, Visit(g, v, visited, topo).1, Visit(g, v, visited, topo).0, Ancestors(g, v))
  {
    var ps := Operands(g[v].op);
    var r := VisitAll(g, ps, v, visited + {v}, topo);
    VisitInner(g, v, visited, topo);
    ExtendByNode(g, topo, visited, r.1, r.0, AncestorsOf(g, ps, v), v);
    assert Ancestors(g, v) == AncestorsOf(g, ps, v) + {v};
  }

  /** The DFS invariant for the parent loop: as `VisitSpec`, for every node of `vs`. */
  lemma {:induction false} VisitAllSpec(g: Arena, vs: seq<nat>, bound: nat, visited: set<nat>, topo: seq<nat>)
    requires WellFormed(g) && bound <= |g|
    requires forall i :: 0 <= i < |vs| ==> vs[i] < bound
    requires NoDup(topo) && ParentsFirst(g, topo) && Listed(topo, visited)
    requires StackAbove(visited, topo, bound)
    ensures Extends(g, topo, visited, VisitAll(g, vs, bound, visited, topo).1,
                    VisitAll(g, vs, bound, visited, topo).0, AncestorsOf(g, vs, bound))
    decreases bound, |vs|
  {
    assert InArena(g, topo);
    if vs != [] {
      VisitSpec(g, vs[0], visited, topo);
      var r := Visit(g, vs[0], visited, topo);
      assert Extends(g, topo, visited, r.1, r.0, Ancestors(g, vs[0]));
      assert StackAbove(r.0, r.1, bound);
      VisitAllSpec(g, vs[1..], bound, r.0, r.1);
    }
  }

  /** The order `build_topology` produces lists every node reachable from the root exactly
      once (no duplicates, and its node set is the root's ancestors), each after all of its
      parents, with the root itself last. */
  lemma TopoIsTopologicalOrder(g: Arena, root: nat)
    requires WellFormed(g) && root < |g|
    ensures var t := Topo(g, root);
      NoDup(t) && ParentsFirst(g, t) &&
      (forall v :: v in t <==> v in Ancestors(g, root)) &&
      |t| > 0 && t[|t| - 1] == root
  {
    VisitSpec(g, root, {}, []);
    var t := Topo(g, root);
    assert forall v :: v in t <==> v in Elems(t);
    assert ParentsBefore(g, root);
    var ps := Operands(g[root].op);
    assert forall j :: 0 <= j < |ps| ==> ps[j] in ps;
    var r := VisitAll(g, ps, root, {} + {root}, []);
    assert Visit(g, root, {}, []) == (r.0, r.1 + [root]);
    assert t == r.1 + [root];
  }

  /** A root with the cache slot `topo` (absent until the first call). */
  datatype Root = Root(index: nat, topo: Option<seq<nat>>)

  /** `build_topology` with its cache (line 258): computed on first use, kept afterwards. */
  function BuildTopology(g: Arena, r: Root): (r': Root)
    requires WellFormed(g) && r.index < |g|
    ensures r'.index == r.index && r'.topo.Some?
    ensures r.topo.Some? ==> r' == r
    ensures r.topo.None? ==>
              NoDup(r'.topo.value) && ParentsFirst(g, r'.topo.value) &&
              forall v :: v in r'.topo.value <==> v in Ancestors(g, r.index)
  {
    if r.topo.Some? then r
    else
      TopoIsTopologicalOrder(g, r.index);
      Root(r.index, Some(Topo(g, r.index)))
  }

  /** Memoisation: once the order is cached, later calls leave it unchanged, whatever the
      arena has grown to since. Growing the arena only appends nodes, which `_prev` (fixed at
      construction, line 36) can never point to, so an order cached before the growth is
      still exactly the order a fresh walk of the grown arena gives. */
  lemma BuildTopologyMemoised(g: Arena, g': Arena, r: Root)
    requires WellFormed(g) && r.index < |g|
    requires WellFormed(g') && r.index < |g'|
    ensures BuildTopology(g', BuildTopology(g, r)) == BuildTopology(g, r)
    ensures r.topo.None? && |g| <= |g'| && g'[..|g|] == g ==>
      BuildTopology(g', BuildTopology(g, r)) == BuildTopology(g', r)
  {
    if r.topo.None? && |g| <= |g'| && g'[..|g|] == g {
      TopoGrows(g, g', r.index);
    }
  }

  /** Nodes appended to the arena are never reached from an existing root: its order is
      the same in the grown arena. */
  lemma TopoGrows(g: Arena, g': Arena, root: nat)
    requires WellFormed(g) && WellFormed(g') && |g| <= |g'| && g'[..|g|] == g && root < |g|
    ensures Topo(g', root) == Topo(g, root)
  {
    VisitGrows(g, g', root, {}, []);
  }

  /** The walk from a node of `g` does the same in any arena extending `g`. */
  lemma {:induction false} VisitGrows(g: Arena, g': Arena, v: nat, visited: set<nat>, topo: seq<nat>)
    requires WellFormed(g) && WellFormed(g') && |g| <= |g'| && g'[..|g|] == g
    requires v < |g| && InArena(g, topo)
    ensures InArena(g', topo) && Visit(g', v, visited, topo) == Visit(g, v, visited, topo)
    decreases v + 1, 0
  {
    if v !in visited {
      assert ParentsBefore(g, v);
      assert g'[v] == g'[..|g|][v];
      var ps := Operands(g[v].op);
      assert forall j :: 0 <= j < |ps| ==> ps[j] in ps;
      VisitAllGrows(g, g', ps, v, visited + {v}, topo);
    }
  }

  /** The operand loop does the same in any arena extending `g`. */
  lemma {:induction false} VisitAllGrows(g: Arena, g': Arena, vs: seq<nat>, bound: nat, visited: set<nat>, topo: seq<nat>)
    requires WellFormed(g) && WellFormed(g') && |g| <= |g'| && g'[..|g|] == g
    requires bound <= |g| && InArena(g, topo) && forall i :: 0 <= i < |vs| ==> vs[i] < bound
    ensures InArena(g', topo) && VisitAll(g', vs, bound, visited, topo) == VisitAll(g, vs, bound, visited, topo)
    decreases bound, |vs|
  {
    if vs != [] {
      VisitGrows(g, g', vs[0], visited, topo);
      var r := Visit(g, vs[0], visited, topo);
      VisitAllGrows(g, g', vs[1..], bound, r.0, r.1);
    }
  }
}
